=== FILE: README.md ===
# Abot crawler core in Dafny

This project models the core of Abot, a .NET web crawler. A crawl starts from one root
URI. Every page the crawler takes from its scheduler passes through a fixed per-page
pipeline:

1. The page is counted in the crawl context.
2. It is requested.
3. A redirected root re-roots the crawl.
4. A manual redirect is scheduled as a new page.
5. An oversized page goes no further.
6. The built-in decision maker decides, with the caller's override chained after it, whether to parse and schedule the page's links.
7. The page is scheduled again when a recrawl is wanted.

Before each page, the pre-work checks run:

- memory usage against `MaxMemoryUsageInMb`;
- a cancellation request, reported once;
- a hard stop, which clears the scheduler, aborts the worker and detaches the event handlers;
- a stop, which clears the scheduler.

`PoliteWebCrawler` adds a robots.txt layer on top of this:

- robots.txt may refuse a page before the decision maker is consulted;
- it is dropped for good when the root itself, or everything below it, is disallowed and `IsIgnoreRobotsDotTextIfRootDisallowedEnabled` is set;
- its `Crawl-delay` is clamped and registered with the domain rate limiter, with the code's 32-bit millisecond arithmetic;
- a rate-limiting handler is attached to `PageCrawlStarting`.

The rest of the core is modelled as follows:

- **Link parser.** It collects the `href` values of anchors, areas and canonical links. It honours `rel="nofollow"`, the `X-Robots-Tag` header and the robots meta tag. It resolves the values against the request URI or the `<base>` tag, and returns distinct absolute URIs. `GetPageLinks` follows the code as written, including its dereference of the page's request; `GetPageLinksCorrected` falls back to the page URI instead.
- **Response header list.** It behaves as a first-match lookup plus a remove-all-then-append update.
- **Cached memory monitor.** It reads the underlying monitor once at construction, serves the cached value and refreshes it on every timer tick.

The crawler class carries ghost records of what its steps did, in order:

- `asked`: the URIs put to the decision maker's `ShouldCrawlPage`;
- `accepted`: the pages `ShouldCrawlPage` allowed;
- `visited`: the parsed links `SchedulePageLinks` took to its scheduling step;
- `offered`: the pages put to `ShouldSchedulePageLink`;
- `taken`: the pages handed to `ProcessPageAsync`.

Modules:

| module | contents |
|---|---|
| `Wrappers`, `Faults` | `Option` and `Result`; the .NET exceptions the core throws or records |
| `Int32` | unchecked 32-bit `int` arithmetic |
| `Text` | the `System.String` operations the parsers use |
| `HttpResponse` | the `HttpWebResponseWrapper` header list and the class around it |
| `Poco` | pages, responses, decisions, configuration and crawl context as values |
| `HyperLinkParser`, `HapHyperLinkParser` | the two layers of link parsing |
| `MemoryMonitoring` | `CachedMemoryMonitor` over an underlying monitor |
| `Politeness` | the pure robots.txt rules and the crawl-delay clamp |
| `CrawlRules` | the pure rules of `WebCrawler` |
| `Crawler` | the `WebCrawler` class with its scheduler, latches, context and event log |

How the crawler is represented:

- **Collaborators.** The decision maker, the overrides, the page requester, the link parser, the memory manager, URI resolution and the robots.txt finder are function-valued fields.
- **Observable behaviour.** Every event raised and every call made to a decision maker or an override is appended, in order, to the crawler's `log`.
- **Scheduler.** The scheduler is a FIFO `frontier` plus a `known` set of URIs. `Scheduler.cs` is not part of this model.
- **Workers.** The worker pool runs one page at a time, to completion, as `ThreadManager` does when `MaxConcurrentThreads` is 1.

## Model

| member | source | states |
|---|---|---|
| Int32.Wrap | Abot/src/Abot/Crawler/PoliteWebCrawler.cs:80 | an unchecked `int` product lies in the 32-bit range, is congruent to the true product modulo 2^32, and equals it when it fits |
| Text.ToLower | Abot/src/Abot/Core/HyperLinkParser.cs:132 | lower-casing keeps the length and maps each character on its own |
| Text.Trim | Abot/src/Abot/Core/HapHyperLinkParser.cs:55 | the result is an infix of the input, with only white space around it, and neither starts nor ends with white space |
| Text.BeforeFirst | Abot/src/Abot/Core/HyperLinkParser.cs:107 | `Split(c)[0]` is a prefix of the input that holds no `c`, and is followed by `c` when shorter than the input |
| HttpResponse.FirstMatch | Abot/src/Abot/Poco/HttpWebResponseWrapper.cs:152 | the index found is that of the first entry with the name, or the list length when no entry has it |
| HttpResponse.LookupHeader | Abot/src/Abot/Poco/HttpWebResponseWrapper.cs:150-153 | a null list throws `ArgumentNullException("source")`; otherwise the result is the first value of the first entry named exactly so, or null |
| HttpResponse.Scan | Abot/src/Abot/Poco/HttpWebResponseWrapper.cs:152 | the recursive scan returns the first value of the first matching entry |
| HttpResponse.WithoutKey | Abot/src/Abot/Poco/HttpWebResponseWrapper.cs:159 | `RemoveAll` leaves no entry with the key and never lengthens the list |
| HttpResponse.AddThenGet | Abot/src/Abot/Poco/HttpWebResponseWrapper.cs:150-166 | after adding `(k, v)`, looking up `k` yields `v` |
| HttpResponse.AddLeavesSingleEntry | Abot/src/Abot/Poco/HttpWebResponseWrapper.cs:155-166 | after adding `(k, v)`, exactly one entry has key `k` |
| HttpResponse.NoKeyLeft | Abot/src/Abot/Poco/HttpWebResponseWrapper.cs:159 | after `RemoveAll`, no entry has the key |
| HttpResponse.CountAppend | Abot/src/Abot/Poco/HttpWebResponseWrapper.cs:165 | the entries with a key in a concatenation are those of both parts |
| HttpResponse.AddKeepsOtherHeaders | Abot/src/Abot/Poco/HttpWebResponseWrapper.cs:155-166 | adding `(k, v)` does not change what any other name looks up to |
| HttpResponse.ScanWithoutKey | Abot/src/Abot/Poco/HttpWebResponseWrapper.cs:159 | removing `k` does not change the lookup of any other name |
| HttpResponse.ScanAppendMiss | Abot/src/Abot/Poco/HttpWebResponseWrapper.cs:165 | appending an entry with another key does not change a lookup |
| HttpResponse.WithoutKeyStep | Abot/src/Abot/Poco/HttpWebResponseWrapper.cs:159 | `RemoveAll` over a suffix is its first entry (when kept) followed by `RemoveAll` over the rest |
| HttpResponse.HttpWebResponseWrapper.constructor | Abot/src/Abot/Poco/HttpWebResponseWrapper.cs:89-97 | status, content type, content and headers are taken as given; `ContentLength` is the content length, 0 for null content |
| HttpResponse.HttpWebResponseWrapper.Create | Abot/src/Abot/Poco/HttpWebResponseWrapper.cs:89-97 | a null header sequence throws `ArgumentNullException("source")` from `ToList`; otherwise as the constructor |
| HttpResponse.HttpWebResponseWrapper.Empty | Abot/src/Abot/Poco/HttpWebResponseWrapper.cs:100 | the parameterless wrapper has every member at its default, headers null |
| HttpResponse.HttpWebResponseWrapper.GetResponseHeader | Abot/src/Abot/Poco/HttpWebResponseWrapper.cs:150-153 | a null list throws `ArgumentNullException("source")`; otherwise the result is the first value of the first entry named exactly so (`FirstMatch`), and null when no entry has the name or that entry has no value |
| HttpResponse.HttpWebResponseWrapper.AddResponseHeader | Abot/src/Abot/Poco/HttpWebResponseWrapper.cs:155-166 | the loop leaves the list as every entry with another key, in order, followed by the single entry `(k, [v])`; a null list becomes that entry alone |
| Poco.NewPageToCrawl | Abot/src/Abot/Crawler/WebCrawler.cs:943 | a new page to crawl has the URI and every other member at its default |
| HyperLinkParser.CheckParams | Abot/src/Abot/Core/HyperLinkParser.cs:68-72 | a null page, and only a null page, is rejected with `ArgumentNullException("crawledPage")` |
| HyperLinkParser.ApplyBaseHref | Abot/src/Abot/Core/HyperLinkParser.cs:85-96 | an empty base href keeps the fallback; otherwise the result is the fallback or the parse of the href, with the page scheme prefixed to a `//` href |
| HyperLinkParser.BaseUriAsWritten | Abot/src/Abot/Core/HyperLinkParser.cs:82-96 | the base URI as written fails with `NullReferenceException` exactly when the page carries no request |
| HyperLinkParser.BaseUri | Abot/src/Abot/Core/HyperLinkParser.cs:82-96 | agrees with the written base URI whenever a request is present; without a request or base href, it is the page URI |
| HyperLinkParser.HrefToResolve | Abot/src/Abot/Core/HyperLinkParser.cs:105-107 | with fragments respected the href is used whole; otherwise only the prefix before the first `#`, which holds no `#` |
| HyperLinkParser.GetUrisAsWritten | Abot/src/Abot/Core/HyperLinkParser.cs:74-123 | no href values yield an empty list |
| HyperLinkParser.GetUrisAsWrittenFailsWithoutRequest | Abot/src/Abot/Core/HyperLinkParser.cs:82 | a page without a request and with one relative href makes `GetUris` throw `NullReferenceException` |
| HyperLinkParser.GetUris | Abot/src/Abot/Core/HyperLinkParser.cs:74-123 | the foreach computes the list of the `Collect` rule (empty without hrefs), holds no two URIs with the same absolute form, and equals the written version whenever a request is present |
| HyperLinkParser.Exists | Abot/src/Abot/Core/HyperLinkParser.cs:113 | `List.Exists` finds a URI exactly when one with that absolute form is listed |
| HyperLinkParser.AddKeepsDistinct | Abot/src/Abot/Core/HyperLinkParser.cs:113-114 | adding a URI whose absolute form is not yet listed keeps the list free of duplicates |
| HyperLinkParser.CollectSound | Abot/src/Abot/Core/HyperLinkParser.cs:99-120 | every URI returned was already listed or is what some href value resolves to |
| HyperLinkParser.CollectExtends | Abot/src/Abot/Core/HyperLinkParser.cs:113-114 | URIs are only appended: earlier entries keep their place, so first occurrences keep input order |
| HyperLinkParser.CollectComplete | Abot/src/Abot/Core/HyperLinkParser.cs:99-120 | every href value that resolves contributes its absolute form; a failing one skips only itself |
| HyperLinkParser.GetUrisCharacterisation | Abot/src/Abot/Core/HyperLinkParser.cs:99-120 | from an empty list, the result holds exactly the resolvable href values' URIs, up to equal absolute forms |
| HyperLinkParser.CollectKeepsDistinct | Abot/src/Abot/Core/HyperLinkParser.cs:113-114 | collecting into a list without two equal absolute forms keeps it so |
| HyperLinkParser.HasRobotsNoFollow | Abot/src/Abot/Core/HyperLinkParser.cs:125-155 | true iff an enabled `X-Robots-Tag` check or an enabled robots meta check finds "nofollow" or "none" in any case; with the header check enabled, a missing response fails with `NullReferenceException` and a null header list with `ArgumentNullException("source")` |
| HapHyperLinkParser.HasRelNoFollow | Abot/src/Abot/Core/HapHyperLinkParser.cs:110-114 | never when the option is off or the node has no `rel`; always for a `rel` of exactly "nofollow" with the option on |
| HapHyperLinkParser.DeEntitize | Abot/src/Abot/Core/HapHyperLinkParser.cs:94-108 | the decoded href, or the href unchanged when decoding throws |
| HapHyperLinkParser.HrefsOfFails | Abot/src/Abot/Core/HapHyperLinkParser.cs:78-89 | reading the hrefs fails with `NullReferenceException` exactly when some node that is not rel="nofollow" has no `href` |
| HapHyperLinkParser.HrefsOfContents | Abot/src/Abot/Core/HapHyperLinkParser.cs:78-114 | the hrefs returned are exactly the decoded hrefs of the nodes that are not rel="nofollow" and whose href is not blank; `DeEntitize` falls back to the raw value |
| HapHyperLinkParser.GetLinks | Abot/src/Abot/Core/HapHyperLinkParser.cs:70-92 | a null selection yields no hrefs; otherwise the loop's result is the `HrefsOf` rule over the nodes, in document order |
| HapHyperLinkParser.GetBaseHrefValue | Abot/src/Abot/Core/HapHyperLinkParser.cs:48-58 | without a base element or href the value is ""; otherwise it is the href with the white space at both ends removed, and never starts or ends with white space |
| HapHyperLinkParser.GetMetaRobotsValue | Abot/src/Abot/Core/HapHyperLinkParser.cs:60-68 | null exactly when there is no robots meta element; otherwise its `content` attribute, "" when it has none |
| HapHyperLinkParser.SelectionNeverFails | Abot/src/Abot/Core/HapHyperLinkParser.cs:37-39 | a selection whose nodes all carry an href, as the `[@href]` XPath filters guarantee, never fails to read |
| HapHyperLinkParser.HrefValues | Abot/src/Abot/Core/HapHyperLinkParser.cs:31-46 | a failing nofollow check fails; a nofollow page yields nothing; on selections with hrefs the result fails only when the nofollow check does; otherwise the anchor, then area, then canonical hrefs |
| HapHyperLinkParser.GetHrefValues | Abot/src/Abot/Core/HapHyperLinkParser.cs:31-46 | the three loops compute `HrefValues` |
| HapHyperLinkParser.GetPageLinks | Abot/src/Abot/Core/HyperLinkParser.cs:42-54 | a null page is rejected with `ArgumentNullException("crawledPage")`; otherwise the result is `PageLinks`, the code as written |
| HapHyperLinkParser.PageLinks | Abot/src/Abot/Core/HyperLinkParser.cs:42-54 | href failures pass through; no hrefs yield no links; hrefs on a page without a request throw `NullReferenceException`; with a request the call succeeds; the links are distinct absolute URIs |
| HapHyperLinkParser.PageLinksCharacterisation | Abot/src/Abot/Core/HyperLinkParser.cs:42-54 | every link comes from one of the page's href values resolved against its base, and every resolvable href value is represented |
| HapHyperLinkParser.PageLinksSucceedWithRequest | Abot/src/Abot/Core/HyperLinkParser.cs:42-54 | a page with a request, `[@href]` selections and a readable nofollow check yields its links |
| HapHyperLinkParser.GetPageLinksCorrected | Abot/src/Abot/Core/HyperLinkParser.cs:42-54 | with the null request tolerated, only a null page or the href values fail; the links are the `Collect` rule over the hrefs, distinct, and equal to the written result whenever a request is present |
| MemoryMonitoring.MemoryMonitor.GetCurrentUsageInMb | Abot/src/Abot/Util/CachedMemoryMonitor.cs:33 | each call to the underlying monitor takes its next reading |
| MemoryMonitoring.CacheExpiration | Abot/src/Abot/Util/CachedMemoryMonitor.cs:20-21 | the expiration used is at least one second: as given from 1 up, 5 below 1 |
| MemoryMonitoring.RefreshInterval | Abot/src/Abot/Util/CachedMemoryMonitor.cs:27 | the timer interval is the expiration times 1000 up to 2147483 seconds, is negative one second later, and is never `Timeout.Infinite` (-1) |
| MemoryMonitoring.CachedMemoryMonitor.constructor | Abot/src/Abot/Util/CachedMemoryMonitor.cs:15-28 | with a non-negative interval, construction takes exactly one reading and caches it, and starts the timer with that interval |
| MemoryMonitoring.CachedMemoryMonitor.Create | Abot/src/Abot/Util/CachedMemoryMonitor.cs:15-28 | a null monitor is rejected with `ArgumentNullException("memoryMonitor")` before any reading; a negative 32-bit interval takes the one reading and then throws `ArgumentOutOfRangeException("dueTime")` from the timer; otherwise as the constructor |
| MemoryMonitoring.CachedMemoryMonitor.UpdateCurrentUsageValue | Abot/src/Abot/Util/CachedMemoryMonitor.cs:30-35 | the cache is replaced by the next reading of the underlying monitor |
| MemoryMonitoring.CachedMemoryMonitor.TimerElapsed | Abot/src/Abot/Util/CachedMemoryMonitor.cs:27 | a live timer refreshes the cache with one reading; a disposed one changes nothing |
| MemoryMonitoring.CachedMemoryMonitor.GetCurrentUsageInMb | Abot/src/Abot/Util/CachedMemoryMonitor.cs:37-40 | returns the cached value without consulting the underlying monitor |
| MemoryMonitoring.CachedMemoryMonitor.Dispose | Abot/src/Abot/Util/CachedMemoryMonitor.cs:42-45 | the refresh timer stops |
| Politeness.ProbeUnderRoot | Abot/src/Abot/Crawler/PoliteWebCrawler.cs:115 | the probe path starts with the root and ends in "/aaaaa" |
| Politeness.CheckRobots | Abot/src/Abot/Crawler/PoliteWebCrawler.cs:104-149 | robots.txt refuses a page iff rules are loaded, they disallow it, and it is not the root with the ignore option on; rules are dropped iff it is that root and the root or the probe below it is disallowed |
| Politeness.NoRobotsNeverDenies | Abot/src/Abot/Crawler/PoliteWebCrawler.cs:106-108 | without rules, robots.txt never refuses a page |
| Politeness.CrawlDelayAsWritten | Abot/src/Abot/Crawler/PoliteWebCrawler.cs:80-96 | a delay is registered only for a positive robots delay whose 32-bit milliseconds exceed the minimum; it is those milliseconds, or the 32-bit milliseconds of the maximum when the delay exceeds it |
| Politeness.CrawlDelay | Abot/src/Abot/Crawler/PoliteWebCrawler.cs:84-96 | a delay is registered iff the robots delay is positive and its milliseconds exceed the per-domain minimum; it is min(delay, max) × 1000 |
| Politeness.CrawlDelayAgreesInRange | Abot/src/Abot/Crawler/PoliteWebCrawler.cs:80-92 | while the products fit in 32 bits, the written computation and the exact one agree |
| Politeness.CrawlDelayOverflow | Abot/src/Abot/Crawler/PoliteWebCrawler.cs:80-96 | a 3000000-second crawl delay registers nothing as written, but the clamped 5000 ms when computed exactly |
| CrawlRules.IsRedirect | Abot/src/Abot/Crawler/WebCrawler.cs:753-765 | a redirect always has a response; with automatic redirects it has a response URI |
| CrawlRules.ManualRedirectIsStatus3xx | Abot/src/Abot/Crawler/WebCrawler.cs:753-765 | without automatic redirects, a page is a redirect iff its status is in 300..399 |
| CrawlRules.PageSizeIsAboveMax | Abot/src/Abot/Crawler/WebCrawler.cs:773-784 | a page is above the maximum only with a positive limit and downloaded content longer than it |
| CrawlRules.ShouldScheduleMorePageLink | Abot/src/Abot/Crawler/WebCrawler.cs:977-980 | a `MaxLinksPerPage` of 0 never stops scheduling; a positive one stops it once that many links were added |
| CrawlRules.MoreLinksUntilLimit | Abot/src/Abot/Crawler/WebCrawler.cs:977-980 | with a positive `MaxLinksPerPage`, more links are scheduled iff fewer than that many were added |
| CrawlRules.SameAuthority | Abot/src/Abot/Crawler/WebCrawler.cs:131 | the default internal rule: a URI is internal to itself, and never to a root with another authority |
| CrawlRules.IsInternalUri | Abot/src/Abot/Crawler/WebCrawler.cs:747-751 | a URI internal to the current root is internal; with the roots equal, internal iff internal to that root |
| CrawlRules.InternalToEitherRoot | Abot/src/Abot/Crawler/WebCrawler.cs:747-751 | with the default rule, a URI is internal iff it shares the authority of the current or the original root |
| CrawlRules.ChainDecisions | Abot/src/Abot/Crawler/WebCrawler.cs:786-836 | a refusal by the decision maker stands and the override is not used; an acceptance is replaced by the override's decision, or a bare Allow; the chain accepts only if the decision maker did |
| CrawlRules.AcceptanceWithoutOverrideNeverStops | Abot/src/Abot/Crawler/WebCrawler.cs:817-818 | without an override, an accepted decision requests no stop |
| CrawlRules.SignalStop | Abot/src/Abot/Crawler/WebCrawler.cs:1012-1024 | a hard stop takes precedence over a stop; without either, the context is unchanged |
| CrawlRules.SignalStopIsMonotone | Abot/src/Abot/Crawler/WebCrawler.cs:1012-1024 | signalling never lowers a flag and changes nothing but the flags |
| CrawlRules.CombinePageBags | Abot/src/Abot/Crawler/WebCrawler.cs:901-911 | the combined bag has the names of both bags; the crawled page's value wins on a shared name |
| CrawlRules.InheritFromPageToCrawl | Abot/src/Abot/Crawler/WebCrawler.cs:885-891 | the crawled page carries the scheduled page's members, the combined bag, and the requester's response and content |
| CrawlRules.ExtractRedirectUri | Abot/src/Abot/Crawler/WebCrawler.cs:1078-1096 | with automatic redirects, the target is the response URI; otherwise a null header list throws `ArgumentNullException("source")`, a resolvable `Location` gives the resolved URI, and one that does not resolve throws `UriFormatException` |
| CrawlRules.CountDomain | Abot/src/Abot/Crawler/WebCrawler.cs:923 | the authority's count goes up by one, starting at 1; every other count is kept |
| CrawlRules.RedirectTarget | Abot/src/Abot/Crawler/WebCrawler.cs:727-733 | the redirect target keeps the parent and depth, records where it came from, and is one step further in the chain |
| CrawlRules.LinkTarget | Abot/src/Abot/Crawler/WebCrawler.cs:943-947 | a link's page has the page it was found on as parent, is one level deeper, and is not a root |
| CrawlRules.RootPage | Abot/src/Abot/Crawler/WebCrawler.cs:238 | the root page is internal, a root, at depth 0, and its own parent |
| Crawler.ScanPassesKnownLink | Abot/src/Abot/Crawler/WebCrawler.cs:934-965 | a link already known is passed over without consulting anyone |
| Crawler.ScanTakesLink | Abot/src/Abot/Crawler/WebCrawler.cs:938-958 | an unknown link joins the consulted links once, and its child page joins the scheduled pages, and the pages `ShouldCrawlPage` accepted, exactly when it was accepted |
| Crawler.NewLinksCharacterisation | Abot/src/Abot/Crawler/WebCrawler.cs:934-965 | the links a scan takes to its scheduling step hold every link not known beforehand, once each, and no other |
| Crawler.Children | Abot/src/Abot/Crawler/WebCrawler.cs:943-947 | one child page per link, in the links' order, each linked from the page and internal as `IsInternalUri` says |
| Crawler.OfferPassesKnownLink | Abot/src/Abot/Crawler/WebCrawler.cs:938-939 | a known link does not reach the scheduling step |
| Crawler.OfferTakesLink | Abot/src/Abot/Crawler/WebCrawler.cs:938-949 | an unknown link reaches the scheduling step; without an override its child page is the next one put to `ShouldSchedulePageLink` |
| Crawler.WebCrawler.constructor | Abot/src/Abot/Crawler/WebCrawler.cs:159-195 | a new crawler has nothing scheduled, known or counted, no flag or latch set, and a memory manager only when a memory limit or requirement is configured |
| Crawler.WebCrawler.Cancel | Abot/src/Abot/Crawler/WebCrawler.cs:211-212 | cancelling through the token source marks cancellation as requested |
| Crawler.WebCrawler.Notify | Abot/src/Abot/Crawler/WebCrawler.cs:309-321 | raising an event logs it only while handlers are attached |
| Crawler.WebCrawler.IsInternalUri | Abot/src/Abot/Crawler/WebCrawler.cs:747-751 | on the crawler's current and original roots: internal to either makes a URI internal; with the roots equal, internal iff internal to that root |
| Crawler.WebCrawler.SignalCrawlStopIfNeeded | Abot/src/Abot/Crawler/WebCrawler.cs:1012-1024 | the context becomes the signalled one, and only the stop flags rise |
| Crawler.WebCrawler.BaseShouldCrawlPage | Abot/src/Abot/Crawler/WebCrawler.cs:803-829 | once the MaxPagesToCrawl latch is set, every page is refused without a call or event; a MaxPagesToCrawl refusal sets the latch; otherwise the chained decision decides, a refusal raises `PageCrawlDisallowed`, and a requested stop is signalled; an allowed page joins `accepted` |
| Crawler.WebCrawler.ShouldCrawlPage | Abot/src/Abot/Crawler/PoliteWebCrawler.cs:104-149 | a page robots.txt refuses raises `PageCrawlDisallowed` and never reaches the decision maker; otherwise rules are dropped as `CheckRobots` says and the base decision applies; `accepted` grows by the page exactly when it is allowed |
| Crawler.WebCrawler.WithoutRobotsDecidesAsBase | Abot/src/Abot/Crawler/PoliteWebCrawler.cs:106-148 | with no robots rules loaded, the polite decision's effect is exactly the base decision's |
| Crawler.WebCrawler.ShouldSchedulePageLink | Abot/src/Abot/Crawler/WebCrawler.cs:969-975 | an external page, when external crawling is off, is refused without consulting anyone; otherwise `ShouldCrawlPage` decides; `accepted` grows by the page exactly when it is allowed; every page put to it joins `offered` |
| Crawler.WebCrawler.DecideOnCrawledPage | Abot/src/Abot/Crawler/WebCrawler.cs:982-990 | as in ShouldDownloadPageContent: the chained decision on the context at the call; the override is called only after an acceptance; the decision's stop is signalled |
| Crawler.WebCrawler.ShouldCrawlPageLinks | Abot/src/Abot/Crawler/WebCrawler.cs:786-801 | the chained decision, with `PageLinksCrawlDisallowed` raised on a refusal |
| Crawler.WebCrawler.ShouldRecrawlPage | Abot/src/Abot/Crawler/WebCrawler.cs:831-869 | the chained recrawl decision and its stop signal |
| Crawler.WebCrawler.AddPageToContext | Abot/src/Abot/Crawler/WebCrawler.cs:913-924 | a retry only gains one attempt; a fresh page adds exactly one to the crawled count and to its authority's count |
| Crawler.WebCrawler.FirePageCrawlStarting | Abot/src/Abot/Crawler/WebCrawler.cs:309-321 | `PageCrawlStarting` reaches the user handlers, then one rate-limit call per attached polite handler |
| Crawler.WebCrawler.CrawlThePage | Abot/src/Abot/Crawler/WebCrawler.cs:872-899 | a failing request fails the page; a page without a response is not subject to the download decision; a refused download drops the content; the page inherits the scheduled page's members |
| Crawler.WebCrawler.ValidateRootUriForRedirection | Abot/src/Abot/Crawler/WebCrawler.cs:1059-1069 | a non-root page is rejected; a redirected root moves the root URI to the target; an unreadable target is an error |
| Crawler.WebCrawler.ProcessRedirect | Abot/src/Abot/Crawler/WebCrawler.cs:718-745 | an unreadable target is ignored; otherwise the page links to its redirect target, which is scheduled exactly when `ShouldSchedulePageLink` accepts it |
| Crawler.WebCrawler.ScheduleLink | Abot/src/Abot/Crawler/WebCrawler.cs:938-959 | the link joins `visited`; a `ShouldScheduleLink` veto consults no one and schedules nothing; otherwise the child page is put to `ShouldSchedulePageLink`, whose full outcome (`ScheduleOutcome`, after the override call) decides whether it is scheduled, and `stop` holds exactly when `MaxLinksPerPage` is then reached |
| Crawler.WebCrawler.OfferLink | Abot/src/Abot/Crawler/WebCrawler.cs:943-958 | the link's child page is put to `ShouldSchedulePageLink` and is scheduled, and joins `accepted`, exactly as that outcome (`ScheduleOutcome`) allows; `stop` holds exactly when `MaxLinksPerPage` is then reached |
| Crawler.WebCrawler.VisitLink | Abot/src/Abot/Crawler/WebCrawler.cs:938-962 | one unknown link goes through `ScheduleLink`: without a veto the count rises exactly when `ShouldSchedulePageLink`'s outcome allows the child; the scan advances and the count stays within `MaxLinksPerPage` |
| Crawler.WebCrawler.ScanLinks | Abot/src/Abot/Crawler/WebCrawler.cs:933-966 | the loop over the parsed links ends with every scanned link accounted for (`Scanned`, `ScanOffered`); the links before the stopping one are known; it stops early only when `MaxLinksPerPage` is reached |
| Crawler.WebCrawler.ScanLink | Abot/src/Abot/Crawler/WebCrawler.cs:935-965 | one turn of the loop: a link not yet known goes through `ScheduleLink`; the link becomes known unless `MaxLinksPerPage` was reached |
| Crawler.WebCrawler.SchedulePageLinks | Abot/src/Abot/Crawler/WebCrawler.cs:931-967 | no link known beforehand, and no link twice, is put to the decision maker; the pages scheduled are exactly the pages `ShouldCrawlPage` accepted, in order, each an eligible child of the page; at most `MaxLinksPerPage` are added; every visited link becomes known, except the one that hit the limit; the links taken to the scheduling step are exactly the distinct links not known beforehand, in order (`NewLinks`), up to the one that hit the limit; without an override, their child pages are exactly the pages put to `ShouldSchedulePageLink` |
| Crawler.WebCrawler.RecordError | Abot/src/Abot/Crawler/WebCrawler.cs:709-715 | an exception becomes the crawl's error and hard-stops the crawl |
| Crawler.WebCrawler.ProcessPage | Abot/src/Abot/Crawler/WebCrawler.cs:658-716 | the page joins `taken`; a cancelled crawl leaves it otherwise untouched; otherwise the page is counted once (retries not); a failing request records its error with a hard stop and schedules nothing; flags never fall |
| Crawler.WebCrawler.ProcessCrawledPage | Abot/src/Abot/Crawler/WebCrawler.cs:672-680 | only the root URI and the stop flags of the context change; a new error comes with a hard stop; scheduling only appends |
| Crawler.WebCrawler.ProcessPageLinks | Abot/src/Abot/Crawler/WebCrawler.cs:684-702 | only the stop flags of the context change; a parse failure is recorded with a hard stop; scheduling only appends |
| Crawler.WebCrawler.CheckMemoryUsage | Abot/src/Abot/Crawler/WebCrawler.cs:567-591 | a reading is taken only with a manager, no hard stop and a positive limit; above the limit the manager is dropped, the overrun is recorded and the crawl is hard-stopped |
| Crawler.WebCrawler.CheckForCancellationRequest | Abot/src/Abot/Crawler/WebCrawler.cs:593-606 | a cancellation is reported once: `OperationCanceledException` and a hard stop the first time, nothing after |
| Crawler.WebCrawler.CheckForHardStopRequest | Abot/src/Abot/Crawler/WebCrawler.cs:608-632 | a hard stop empties the scheduler, aborts the worker and detaches every page event handler |
| Crawler.WebCrawler.CheckForStopRequest | Abot/src/Abot/Crawler/WebCrawler.cs:634-645 | a stop empties the scheduler |
| Crawler.WebCrawler.RunPreWorkChecks | Abot/src/Abot/Crawler/WebCrawler.cs:559-565 | the crawl is hard-stopped afterwards iff it was before, memory ran over, or a cancellation was newly reported; after a stop or hard stop nothing is scheduled |
| Crawler.WebCrawler.CrawlSite | Abot/src/Abot/Crawler/WebCrawler.cs:522-542 | a crawl ends with an empty scheduler; when it completes without a stop, every page scheduled at the start was handed to `ProcessPageAsync`, first in first out (`old(taken) + old(frontier) <= taken`); a stop, hard stop or cancellation before the first round ends it with no page processed; an aborted worker refuses the work with `InvalidOperationException` |
| Crawler.WebCrawler.CrawlRound | Abot/src/Abot/Crawler/WebCrawler.cs:526-536 | one round: after the pre-work checks the head of the scheduler goes to `ProcessPageAsync`, or the crawl completes on an empty scheduler; without a stop, pages taken followed by pages scheduled only extend; a stop or cancellation completes the round at once |
| Crawler.WebCrawler.VerifyRequiredAvailableMemory | Abot/src/Abot/Crawler/WebCrawler.cs:544-557 | passes iff no memory is required or the manager reports it available; otherwise an error, which is a `NullReferenceException` when the manager was dropped |
| Crawler.WebCrawler.MemoryManagerPresentUntilHardStop | Abot/src/Abot/Crawler/WebCrawler.cs:544-591 | the memory check cannot fail on a null manager before a hard stop |
| Crawler.WebCrawler.BeginCrawl | Abot/src/Abot/Crawler/WebCrawler.cs:206-240 | both roots are set, the error is cleared, the starting memory is read, and the root page is put to `ShouldSchedulePageLink` on the new context: it is scheduled exactly when that outcome (`ScheduleOutcome`) allows it |
| Crawler.WebCrawler.ScheduleRoot | Abot/src/Abot/Crawler/WebCrawler.cs:238-240 | the root page is put to `ShouldSchedulePageLink`, and is scheduled, and joins `accepted`, exactly when that accepts it |
| Crawler.WebCrawler.CrawlAsync | Abot/src/Abot/Crawler/WebCrawler.cs:204-269 | a null URI is rejected with nothing changed; failed memory verification is the result's error and no page is crawled; a second crawl on the same crawler crawls no page; a prior stop or a cancellation crawls none either |
| Crawler.WebCrawler.RobotsEvents | Abot/src/Abot/Crawler/PoliteWebCrawler.cs:74-96 | without robots.txt nothing is raised or registered; while the products fit in 32 bits, the delay registered is exactly `Politeness.CrawlDelay`'s, and the clamped maximum is registered iff robots.txt asks for at least that much |
| Crawler.WebCrawler.RobotsEventsOverflow | Abot/src/Abot/Crawler/PoliteWebCrawler.cs:80-96 | a 3000000-second `Crawl-delay` registers no delay at all, as the 32-bit code does |
| Crawler.WebCrawler.LoadRobotsDotText | Abot/src/Abot/Crawler/PoliteWebCrawler.cs:69-82 | robots.txt is looked up, and its events raised with the 32-bit delay arithmetic of the code, only when it is respected |
| Crawler.WebCrawler.PoliteCrawlAsync | Abot/src/Abot/Crawler/PoliteWebCrawler.cs:64-102 | a null root fails in the robots.txt lookup or in the base crawl; otherwise a rate-limiting handler is added and the base crawl's result is returned |

## Left out

- Concurrency: the thread pool, asynchronous event raising, `async` continuation order and the early return of `CrawlAsync` while pages run are not modelled. Each page runs to completion.
- Crawler.WebCrawler.CrawlSite: `fuel` bounds the number of rounds. Crawls longer than the fuel stop early, and the contract speaks of the rounds run.
- Crawler.WebCrawler.CrawlSite: the polling `Task.Delay` and `HasRunningThreads` are left out (with one worker nothing runs in between).
- Crawl timeout: the crawl timeout timer (`HandleCrawlTimeout`) is left out, because it depends on the clock.
- Retry timing: `WaitMinimumRetryDelay` is left out (date and floating-point arithmetic, not awaited). The `Retry-After` parsing of `ShouldRecrawlPage` is left out for the same reason.
- Crawler.WebCrawler.ShouldRecrawlPage: states the decision and its stop signal, but not the `RetryAfter` value the page carries.
- Crawler.WebCrawler.ProcessCrawledPage: states frame facts only. Its effect is the composition of the members it calls, whose contracts state it.
- Crawler.WebCrawler.ProcessPageLinks: states frame facts only. Its effect is the composition of the members it calls, whose contracts state it.
- Crawler.WebCrawler.CrawlAsync: states the result, the error cases and the page count, not every field of the final state.
- Crawler.WebCrawler.PoliteCrawlAsync: states the null-root cases and the result, not every field of the final state.
- Crawler.WebCrawler.ProcessPage: `ThrowIfCancellationRequested` inside a page that has started is not modelled; cancellation is only seen before a page starts.
- `OperationCanceledException` raised inside a page is rethrown by the code. It is not modelled.
- Crawler.WebCrawler.RobotsEvents: states the registered delay through `Politeness.CrawlDelay` only while the products fit in 32 bits. Beyond that, `RobotsEventsOverflow` shows one case where no delay is registered.
- HttpResponse.HttpWebResponseWrapper.constructor: takes a non-null header sequence. The `ArgumentNullException` that `headers.ToList()` throws on null headers is modelled by `HttpWebResponseWrapper.Create`.
- MemoryMonitoring.CachedMemoryMonitor.constructor: requires a non-negative interval, as the timer does. The negative interval and its `ArgumentOutOfRangeException` are modelled by `CachedMemoryMonitor.Create`.
- MemoryMonitoring.CachedMemoryMonitor.TimerElapsed: an interval of exactly 0, which the 32-bit product gives for a multiple of 536870912 seconds, fires the timer once; the model does not stop later firings.
- HapHyperLinkParser.GetLinks: takes arbitrary node lists, so it has a `NullReferenceException` path for a node without an href. The selections the code makes never hold such a node (`SelectionNeverFails`, `HrefValues`).
- Collaborators are functions with no code behind them: the page requester (`PageRequester`, `WebContentExtractor`), the robots.txt fetch and grammar (`RobotsDotTextFinder`), the memory manager (`GcMemoryMonitor`), the domain rate limiter, HtmlAgilityPack's XPath selection and `HtmlEntity.DeEntitize`, and `System.Uri` parsing and resolution.
- The domain rate limiter's behaviour is left out: registering a delay and rate-limiting a page appear only as log events.
- Recrawling: `IsUriRecrawlingEnabled` is fixed to false, and no scheduler can be injected. WebCrawler.cs:173 builds the default `Scheduler` with that option, and the model's `known` set always removes duplicates, so the "no link known beforehand" property of `SchedulePageLinks` is stated for that setting only.
- Configuration integers (`MaxCrawlDelaySeconds`, `MinCrawlDelayPerDomainMilliSeconds`, `MaxLinksPerPage`, `MaxPageSizeInBytes` and the others) are unbounded `int`. Only the products the code computes in 32 bits are wrapped, with `Int32.Wrap`.
- Crawler.WebCrawler.SchedulePageLinks: with a `ShouldScheduleLink` override, it states which links were visited, but not which pages reached `ShouldSchedulePageLink`. That depends on the override's answer in the context of each call, which `ScheduleLink` states one link at a time.
- The `catch { }` around building a link's page in `SchedulePageLinks` is not modelled: page values are built from parsed URIs, and nothing in that step can fail.
- Logging, `PrintConfigValues` and configuration loading are left out.
- The cancellation token source is modelled by `cancellationRequested` and `Cancel`.
- The AutoMapper copy in `CrawlThePageAsync` is an explicit member copy (`CrawlRules.InheritFromPageToCrawl`).
- Page objects are values: a `CrawledPage` and its `PageToCrawl` are not shared mutable objects, so aliasing between them is not captured.
- `HttpWebResponseWrapper(HttpResponseMessage, CookieContainer)`, `GetLastModified` and `GetResponseStream` are left out; they read the .NET HTTP response.
- `Dispose` of the crawler, and the crawler's own `IDisposable` handling, are not modelled.
- Redirect targets are scheduled without the known-URI check that links get, as the code does.
- A redirect page continues through the pipeline after its redirect is scheduled, as the code does.
- Text.ToLower: lower-cases ASCII letters only; culture-specific and other Unicode casing is left out.

## Findings

| source | as written | input that shows it | evidently intended | confidence | as-written member | corrected member |
|---|---|---|---|---|---|---|
| Abot/src/Abot/Core/HyperLinkParser.cs:82 | `crawledPage.HttpWebRequest.RequestUri ?? crawledPage.Uri` dereferences `HttpWebRequest`, which the page requester never sets | a crawled page with no request and one href "/b" throws `NullReferenceException`, so no link is found | fall back to the page URI when there is no request (`HttpWebRequest?.RequestUri ?? crawledPage.Uri`) | not executed | HyperLinkParser.GetUrisAsWrittenFailsWithoutRequest | HyperLinkParser.GetUris |
| Abot/src/Abot/Crawler/PoliteWebCrawler.cs:80 | `robotsDotTextCrawlDelayInSecs * 1000` is unchecked 32-bit arithmetic | a `Crawl-delay` of 3000000 seconds wraps to a negative number of milliseconds, so no delay is registered instead of the clamped maximum | compare and clamp the delay before it overflows, registering min(delay, max) × 1000 ms | not executed | Politeness.CrawlDelayOverflow | Politeness.CrawlDelay |

=== FILE: cached_memory_monitor.dfy ===
/**
 * CachedMemoryMonitor: answers memory-usage queries from a cached value that a timer
 * refreshes from an underlying monitor, so that frequent queries stay cheap.
 */
module MemoryMonitoring {
  import opened Wrappers
  import opened Faults
  import Int32

  /** The underlying IMemoryMonitor: its successive readings, and how many have been taken. */
  class MemoryMonitor {
    const readings: nat -> int
    var readsTaken: nat

    constructor (readings: nat -> int)
      ensures this.readings == readings && readsTaken == 0
    {
      this.readings := readings;
      readsTaken := 0;
    }

    /** GetCurrentUsageInMb: takes the next reading. */
    method GetCurrentUsageInMb() returns (mb: int)
      modifies this`readsTaken
      ensures mb == readings(old(readsTaken))
      ensures readsTaken == old(readsTaken) + 1
    {
      mb := readings(readsTaken);
      readsTaken := readsTaken + 1;
    }
  }

  /** The cache lifetime actually used: values below one second fall back to five seconds. */
  function CacheExpiration(cacheExpirationInSeconds: int): (seconds: int)
    ensures seconds >= 1
    ensures cacheExpirationInSeconds >= 1 ==> seconds == cacheExpirationInSeconds
    ensures cacheExpirationInSeconds < 1 ==> seconds == 5
  {
    if cacheExpirationInSeconds < 1 then 5 else cacheExpirationInSeconds
  }

  /** The timer's due time and period: `cacheExpirationInSeconds * 1000` in 32-bit arithmetic. */
  function RefreshIntervalMs(cacheExpirationInSeconds: int): int {
    Int32.Wrap(CacheExpiration(cacheExpirationInSeconds) * 1000)
  }

  /**
   * The interval is the expiration in milliseconds up to 2147483 seconds; one second more
   * and the product no longer fits, leaving a negative interval. Being congruent to a
   * multiple of 1000, it is never `Timeout.Infinite` (-1), the one negative value a timer accepts.
   */
  lemma RefreshInterval(cacheExpirationInSeconds: int)
    ensures cacheExpirationInSeconds <= 2147483 ==>
      RefreshIntervalMs(cacheExpirationInSeconds) == CacheExpiration(cacheExpirationInSeconds) * 1000
    ensures RefreshIntervalMs(2147484) < 0
    ensures RefreshIntervalMs(cacheExpirationInSeconds) != -1
  {
  }

  class CachedMemoryMonitor {
    const memoryMonitor: MemoryMonitor
    /** Due time and period of the refresh timer. */
    const refreshIntervalMs: int
    var cachedCurrentUsageInMb: int
    var timerActive: bool

    /**
     * Takes one reading at once and starts the refresh timer; the timer accepts only a
     * non-negative interval (see Create for the other case).
     */
    constructor (memoryMonitor: MemoryMonitor, cacheExpirationInSeconds: int)
      requires RefreshIntervalMs(cacheExpirationInSeconds) >= 0
      modifies memoryMonitor
      ensures this.memoryMonitor == memoryMonitor
      ensures refreshIntervalMs == RefreshIntervalMs(cacheExpirationInSeconds) && refreshIntervalMs >= 0
      ensures cachedCurrentUsageInMb == memoryMonitor.readings(old(memoryMonitor.readsTaken))
      ensures memoryMonitor.readsTaken == old(memoryMonitor.readsTaken) + 1
      ensures timerActive
    {
      this.memoryMonitor := memoryMonitor;
      refreshIntervalMs := RefreshIntervalMs(cacheExpirationInSeconds);
      new;
      UpdateCurrentUsageValue();
      timerActive := true;
    }

    /**
     * The constructor with its failure paths: a null monitor is rejected before any reading;
     * a negative 32-bit interval makes the timer throw after the one reading is taken.
     */
    static method Create(memoryMonitor: MemoryMonitor?, cacheExpirationInSeconds: int) returns (r: Result<CachedMemoryMonitor, Fault>)
      modifies memoryMonitor
      ensures memoryMonitor == null ==> r == Failure(ArgumentNullException("memoryMonitor"))
      ensures memoryMonitor != null && RefreshIntervalMs(cacheExpirationInSeconds) < 0 ==>
        && r == Failure(ArgumentOutOfRangeException("dueTime"))
        && memoryMonitor.readsTaken == old(memoryMonitor.readsTaken) + 1
      ensures memoryMonitor != null && RefreshIntervalMs(cacheExpirationInSeconds) >= 0 ==>
        && r.Success? && fresh(r.value) && r.value.memoryMonitor == memoryMonitor
        && r.value.cachedCurrentUsageInMb == memoryMonitor.readings(old(memoryMonitor.readsTaken))
        && memoryMonitor.readsTaken == old(memoryMonitor.readsTaken) + 1
        && r.value.refreshIntervalMs == RefreshIntervalMs(cacheExpirationInSeconds)
        && r.value.timerActive
    {
      if memoryMonitor == null {
        return Failure(ArgumentNullException("memoryMonitor"));
      }
      if RefreshIntervalMs(cacheExpirationInSeconds) < 0 {
        var _ := memoryMonitor.GetCurrentUsageInMb();
        return Failure(ArgumentOutOfRangeException("dueTime"));
      }
      var c := new CachedMemoryMonitor(memoryMonitor, cacheExpirationInSeconds);
      return Success(c);
    }

    /** UpdateCurrentUsageValue: refreshes the cache with a new reading. */
    method UpdateCurrentUsageValue()
      modifies this`cachedCurrentUsageInMb, memoryMonitor
      ensures cachedCurrentUsageInMb == memoryMonitor.readings(old(memoryMonitor.readsTaken))
      ensures memoryMonitor.readsTaken == old(memoryMonitor.readsTaken) + 1
    {
      cachedCurrentUsageInMb := memoryMonitor.GetCurrentUsageInMb();
    }

    /** One firing of the refresh timer; a disposed timer no longer fires. */
    method TimerElapsed()
      modifies this`cachedCurrentUsageInMb, memoryMonitor
      ensures timerActive ==>
        && cachedCurrentUsageInMb == memoryMonitor.readings(old(memoryMonitor.readsTaken))
        && memoryMonitor.readsTaken == old(memoryMonitor.readsTaken) + 1
      ensures !timerActive ==>
        && cachedCurrentUsageInMb == old(cachedCurrentUsageInMb)
        && memoryMonitor.readsTaken == old(memoryMonitor.readsTaken)
    {
      if timerActive {
        UpdateCurrentUsageValue();
      }
    }

    /** GetCurrentUsageInMb: the cached value; the underlying monitor is not consulted. */
    method GetCurrentUsageInMb() returns (mb: int)
      ensures mb == cachedCurrentUsageInMb
    {
      mb := cachedCurrentUsageInMb;
    }

    method Dispose()
      modifies this`timerActive
      ensures !timerActive
    {
      timerActive := false;
    }
  }
}

=== FILE: hap_hyper_link_parser.dfy ===
/**
 * HapHyperLinkParser: the HtmlAgilityPack flavour of the link parser. It gathers the
 * href values of anchor, area and canonical link elements, honours rel="nofollow",
 * reads the base tag and the robots meta tag, and feeds the result to GetUris.
 */
module HapHyperLinkParser {
  import opened Wrappers
  import opened Faults
  import opened Text
  import opened Poco
  import opened HyperLinkParser

  /** HasRelNoFollow: rel="nofollow" (any case, surrounding white space ignored) and the setting respects it. */
  predicate HasRelNoFollow(config: CrawlConfiguration, node: HtmlNode)
    ensures !config.isRespectAnchorRelNoFollowEnabled || "rel" !in node.attributes ==> !HasRelNoFollow(config, node)
    ensures config.isRespectAnchorRelNoFollowEnabled && "rel" in node.attributes && node.attributes["rel"] == "nofollow"
      ==> HasRelNoFollow(config, node)
  {
    config.isRespectAnchorRelNoFollowEnabled
    && "rel" in node.attributes
    && Trim(ToLower(node.attributes["rel"])) == "nofollow"
  }

  /** DeEntitize: the decoded value, or the value unchanged when decoding throws. */
  function DeEntitize(parser: LinkParser, hrefValue: string): (r: string)
    ensures parser.deEntitize(hrefValue).None? ==> r == hrefValue
    ensures parser.deEntitize(hrefValue).Some? ==> r == parser.deEntitize(hrefValue).value
  {
    parser.deEntitize(hrefValue).GetOr(hrefValue)
  }

  /** A node whose href is kept: not rel="nofollow", and an href that is not blank. */
  predicate Contributes(parser: LinkParser, node: HtmlNode) {
    !HasRelNoFollow(parser.config, node) && "href" in node.attributes && !IsBlank(node.attributes["href"])
  }

  /** A node whose href is read but missing: `Attributes["href"].Value` dereferences null. */
  predicate LacksHref(parser: LinkParser, node: HtmlNode) {
    !HasRelNoFollow(parser.config, node) && "href" !in node.attributes
  }

  /** The href values of `nodes`, in document order, or the failure of the first node without one. */
  function HrefsOf(parser: LinkParser, nodes: seq<HtmlNode>): Result<seq<string>, Fault>
    decreases |nodes|
  {
    if nodes == [] then Success([])
    else if HasRelNoFollow(parser.config, nodes[0]) then HrefsOf(parser, nodes[1..])
    else if "href" !in nodes[0].attributes then Failure(NullReferenceException)
    else if IsBlank(nodes[0].attributes["href"]) then HrefsOf(parser, nodes[1..])
    else PrependAll([DeEntitize(parser, nodes[0].attributes["href"])], HrefsOf(parser, nodes[1..]))
  }

  function PrependAll(prefix: seq<string>, r: Result<seq<string>, Fault>): Result<seq<string>, Fault> {
    match r
    case Failure(e) => Failure(e)
    case Success(rest) => Success(prefix + rest)
  }

  /** Reading the hrefs fails exactly when some node that is not rel="nofollow" has no href. */
  lemma {:induction false} HrefsOfFails(parser: LinkParser, nodes: seq<HtmlNode>)
    ensures HrefsOf(parser, nodes).Failure? <==> exists i :: 0 <= i < |nodes| && LacksHref(parser, nodes[i])
    ensures HrefsOf(parser, nodes).Failure? ==> HrefsOf(parser, nodes).error == NullReferenceException
    decreases |nodes|
  {
    if nodes != [] {
      HrefsOfFails(parser, nodes[1..]);
      assert forall i :: 0 < i < |nodes| ==> nodes[i] == nodes[1..][i - 1];
    }
  }

  /** The hrefs returned are exactly the decoded hrefs of the contributing nodes. */
  lemma {:induction false} HrefsOfContents(parser: LinkParser, nodes: seq<HtmlNode>)
    requires HrefsOf(parser, nodes).Success?
    ensures forall h :: h in HrefsOf(parser, nodes).value <==>
      exists i :: 0 <= i < |nodes| && Contributes(parser, nodes[i]) && h == DeEntitize(parser, nodes[i].attributes["href"])
    decreases |nodes|
  {
    if nodes != [] {
      HrefsOfContents(parser, nodes[1..]);
      assert forall i :: 0 < i < |nodes| ==> nodes[i] == nodes[1..][i - 1];
      forall h | exists i :: 0 <= i < |nodes| && Contributes(parser, nodes[i]) && h == DeEntitize(parser, nodes[i].attributes["href"])
        ensures h in HrefsOf(parser, nodes).value
      {
        var i :| 0 <= i < |nodes| && Contributes(parser, nodes[i]) && h == DeEntitize(parser, nodes[i].attributes["href"]);
        if i > 0 {
          assert nodes[1..][i - 1] == nodes[i];
        }
      }
    }
  }

  /** GetLinks(nodes): the href values of the selected nodes; a null selection yields none. */
  method GetLinks(parser: LinkParser, nodes: Option<seq<HtmlNode>>) returns (r: Result<seq<string>, Fault>)
    ensures nodes.None? ==> r == Success([])
    ensures nodes.Some? ==> r == HrefsOf(parser, nodes.value)
  {
    var hrefs: seq<string> := [];
    if nodes.None? {
      return Success(hrefs);
    }
    var all := nodes.value;
    var i := 0;
    PrependNothing(HrefsOf(parser, all));
    assert all[0..] == all;
    while i < |all|
      invariant 0 <= i <= |all|
      invariant HrefsOf(parser, all) == PrependAll(hrefs, HrefsOf(parser, all[i..]))
    {
      var node := all[i];
      assert all[i..][0] == node && all[i..][1..] == all[i + 1..];
      if !HasRelNoFollow(parser.config, node) {
        if "href" !in node.attributes {
          return Failure(NullReferenceException);
        }
        var hrefValue := node.attributes["href"];
        if !IsBlank(hrefValue) {
          var decoded := DeEntitize(parser, hrefValue);
          PrependTwice(hrefs, decoded, HrefsOf(parser, all[i + 1..]));
          hrefs := hrefs + [decoded];
        }
      }
      i := i + 1;
    }
    assert all[i..] == [] && hrefs + [] == hrefs;
    return Success(hrefs);
  }

  lemma PrependNothing(r: Result<seq<string>, Fault>)
    ensures PrependAll([], r) == r
  {
    if r.Success? {
      assert [] + r.value == r.value;
    }
  }

  lemma PrependTwice(prefix: seq<string>, h: string, r: Result<seq<string>, Fault>)
    ensures PrependAll(prefix, PrependAll([h], r)) == PrependAll(prefix + [h], r)
  {
    if r.Success? {
      assert prefix + ([h] + r.value) == (prefix + [h]) + r.value;
    }
  }

  /** GetBaseHrefValue: the trimmed href of the base element, "" when there is none. */
  function GetBaseHrefValue(doc: HtmlDocument): (r: string)
    ensures doc.baseNode.None? || "href" !in doc.baseNode.value.attributes ==> r == ""
    ensures doc.baseNode.Some? && "href" in doc.baseNode.value.attributes ==>
      exists i :: TrimmedAt(doc.baseNode.value.attributes["href"], r, i)
    ensures r == [] || (!IsWhiteSpace(r[0]) && !IsWhiteSpace(r[|r| - 1]))
  {
    if doc.baseNode.None? then ""
    else if "href" in doc.baseNode.value.attributes then Trim(doc.baseNode.value.attributes["href"])
    else Trim("")
  }

  /** GetMetaRobotsValue: the content of the robots meta element ("" when absent), null without the element. */
  function GetMetaRobotsValue(doc: HtmlDocument): (r: Option<string>)
    ensures r.None? <==> doc.robotsMetaNode.None?
    ensures r.Some? && "content" !in doc.robotsMetaNode.value.attributes ==> r.value == ""
    ensures doc.robotsMetaNode.Some? && "content" in doc.robotsMetaNode.value.attributes ==>
      r == Some(doc.robotsMetaNode.value.attributes["content"])
  {
    if doc.robotsMetaNode.None? then None
    else if "content" in doc.robotsMetaNode.value.attributes then Some(doc.robotsMetaNode.value.attributes["content"])
    else Some("")
  }

  function HrefsOfSelection(parser: LinkParser, nodes: Option<seq<HtmlNode>>): Result<seq<string>, Fault> {
    if nodes.None? then Success([]) else HrefsOf(parser, nodes.value)
  }

  /** Every node of a selection carries an href. */
  predicate HasHrefs(nodes: Option<seq<HtmlNode>>) {
    nodes.Some? ==> forall i :: 0 <= i < |nodes.value| ==> "href" in nodes.value[i].attributes
  }

  /**
   * The selections `//a[@href]`, `//area[@href]` and `//link[@rel='canonical'][@href]`
   * hold only nodes with an href, as the XPath filters guarantee.
   */
  predicate SelectedWithHref(doc: HtmlDocument) {
    HasHrefs(doc.anchorNodes) && HasHrefs(doc.areaNodes) && HasHrefs(doc.canonicalNodes)
  }

  /** On a selection of nodes that all carry an href, reading the hrefs never fails. */
  lemma SelectionNeverFails(parser: LinkParser, nodes: Option<seq<HtmlNode>>)
    ensures HasHrefs(nodes) ==> HrefsOfSelection(parser, nodes).Success?
  {
    if nodes.Some? {
      HrefsOfFails(parser, nodes.value);
    }
  }

  /**
   * The href values of a page: nothing when the page forbids following links; otherwise the
   * hrefs of the anchors, then of the areas, then of the canonical links, or the first
   * failure among them, which the XPath selections never produce.
   */
  function HrefValues(parser: LinkParser, page: CrawledPage): (r: Result<seq<string>, Fault>)
    ensures
      var noFollow := HasRobotsNoFollow(parser.config, page.response, GetMetaRobotsValue(page.html));
      && (noFollow.Failure? ==> r == Failure(noFollow.error))
      && (noFollow == Success(true) ==> r == Success([]))
      && (SelectedWithHref(page.html) ==> (r.Success? <==> noFollow.Success?))
  {
    var noFollow := HasRobotsNoFollow(parser.config, page.response, GetMetaRobotsValue(page.html));
    if noFollow.Failure? then Failure(noFollow.error)
    else if noFollow.value then Success([])
    else
      SelectionNeverFails(parser, page.html.anchorNodes);
      SelectionNeverFails(parser, page.html.areaNodes);
      SelectionNeverFails(parser, page.html.canonicalNodes);
      var a := HrefsOfSelection(parser, page.html.anchorNodes);
      var b := HrefsOfSelection(parser, page.html.areaNodes);
      var c := HrefsOfSelection(parser, page.html.canonicalNodes);
      if a.Failure? then a
      else if b.Failure? then b
      else if c.Failure? then c
      else Success(a.value + b.value + c.value)
  }

  /** GetHrefValues: the loops over the three selections compute HrefValues. */
  method GetHrefValues(parser: LinkParser, page: CrawledPage) returns (r: Result<seq<string>, Fault>)
    ensures r == HrefValues(parser, page)
  {
    var noFollow := HasRobotsNoFollow(parser.config, page.response, GetMetaRobotsValue(page.html));
    if noFollow.Failure? {
      return Failure(noFollow.error);
    }
    if noFollow.value {
      return Success([]);
    }
    var aTags := GetLinks(parser, page.html.anchorNodes);
    if aTags.Failure? {
      return aTags;
    }
    var areaTags := GetLinks(parser, page.html.areaNodes);
    if areaTags.Failure? {
      return areaTags;
    }
    var canonicals := GetLinks(parser, page.html.canonicalNodes);
    if canonicals.Failure? {
      return canonicals;
    }
    return Success(aTags.value + areaTags.value + canonicals.value);
  }

  /**
   * GetLinks(crawledPage) on a page, as the code does it: the href values, then GetUris
   * with the request dereferenced.
   */
  function PageLinks(parser: LinkParser, page: CrawledPage): (r: Result<seq<Uri>, Fault>)
    ensures
      var hrefs := HrefValues(parser, page);
      && (hrefs.Failure? ==> r == Failure(hrefs.error))
      && (hrefs == Success([]) ==> r == Success([]))
      && (hrefs.Success? && hrefs.value != [] && page.request.None? ==> r == Failure(NullReferenceException))
      && (hrefs.Success? && page.request.Some? ==> r.Success?)
      && (r.Success? ==> DistinctAbsolute(r.value))
  {
    match HrefValues(parser, page)
    case Failure(e) => Failure(e)
    case Success(hrefs) =>
      var r := GetUrisAsWritten(parser, page, GetBaseHrefValue(page.html), hrefs);
      if r.Success? && hrefs != [] then
        CollectKeepsDistinct(parser, BaseUri(parser, page, GetBaseHrefValue(page.html)), [], hrefs);
        r
      else r
  }

  /**
   * The links a page yields are exactly its resolvable href values, each once, resolved
   * against the request URI or the base tag.
   */
  lemma PageLinksCharacterisation(parser: LinkParser, page: CrawledPage)
    requires PageLinks(parser, page).Success?
    ensures HrefValues(parser, page).Success?
    ensures
      var hrefs := HrefValues(parser, page).value;
      var base := BaseUri(parser, page, GetBaseHrefValue(page.html));
      var links := PageLinks(parser, page).value;
      && (forall u :: u in links ==> exists k :: 0 <= k < |hrefs| && LinkOf(parser, base, hrefs[k]) == Some(u))
      && (forall k :: 0 <= k < |hrefs| && LinkOf(parser, base, hrefs[k]).Some? ==>
            HasAbsolute(links, LinkOf(parser, base, hrefs[k]).value.absoluteUri))
  {
    var hrefs := HrefValues(parser, page).value;
    GetUrisCharacterisation(parser, BaseUri(parser, page, GetBaseHrefValue(page.html)), hrefs);
  }

  /** A well-formed page with a request and a readable nofollow check yields its links. */
  lemma PageLinksSucceedWithRequest(parser: LinkParser, page: CrawledPage)
    requires SelectedWithHref(page.html) && page.request.Some?
    requires HasRobotsNoFollow(parser.config, page.response, GetMetaRobotsValue(page.html)).Success?
    ensures PageLinks(parser, page).Success?
  {
  }

  /**
   * GetLinks(crawledPage): checks the argument, collects the href values and resolves
   * them into distinct absolute URIs, dereferencing the page's request as the code does.
   */
  method GetPageLinks(parser: LinkParser, page: Option<CrawledPage>) returns (r: Result<seq<Uri>, Fault>)
    ensures page.None? ==> r == Failure(ArgumentNullException("crawledPage"))
    ensures page.Some? ==> r == PageLinks(parser, page.value)
  {
    var check := CheckParams(page);
    if check.Some? {
      return Failure(check.value);
    }
    var hrefValues := GetHrefValues(parser, page.value);
    if hrefValues.Failure? {
      return Failure(hrefValues.error);
    }
    if |hrefValues.value| < 1 {
      return Success([]);
    }
    var base := BaseUriAsWritten(parser, page.value, GetBaseHrefValue(page.value.html));
    if base.Failure? {
      return Failure(base.error);
    }
    var uris := GetUris(parser, page.value, GetBaseHrefValue(page.value.html), hrefValues.value);
    return Success(uris);
  }

  /**
   * GetLinks(crawledPage) with the corrected GetUris: a page without a request resolves its
   * links against its own URI, and only the argument check and the href values can fail.
   */
  method GetPageLinksCorrected(parser: LinkParser, page: Option<CrawledPage>) returns (r: Result<seq<Uri>, Fault>)
    ensures page.None? ==> r == Failure(ArgumentNullException("crawledPage"))
    ensures page.Some? ==> (r.Failure? <==> HrefValues(parser, page.value).Failure?)
    ensures page.Some? && r.Failure? ==> r.error == HrefValues(parser, page.value).error
    ensures page.Some? && r.Success? ==>
      r.value == (if HrefValues(parser, page.value).value == [] then []
                  else Collect(parser, BaseUri(parser, page.value, GetBaseHrefValue(page.value.html)), [], HrefValues(parser, page.value).value))
    ensures r.Success? ==> DistinctAbsolute(r.value)
    ensures page.Some? && page.value.request.Some? ==> r == PageLinks(parser, page.value)
  {
    var check := CheckParams(page);
    if check.Some? {
      return Failure(check.value);
    }
    var hrefValues := GetHrefValues(parser, page.value);
    if hrefValues.Failure? {
      return Failure(hrefValues.error);
    }
    var uris := GetUris(parser, page.value, GetBaseHrefValue(page.value.html), hrefValues.value);
    return Success(uris);
  }
}

=== FILE: http_web_response_wrapper.dfy ===
/**
 * HttpWebResponseWrapper: the response record handed to the crawler, with its
 * ordered list of headers, the first-match header lookup and the replace-or-add
 * header update.
 */
module HttpResponse {
  import opened Wrappers
  import opened Faults

  /** One entry of the header list: a name and its (possibly null) sequence of values. */
  datatype Header = Header(key: string, values: Option<seq<string>>)

  /** Index of the first header named `name`, or `|headers|` when there is none. */
  function FirstMatch(headers: seq<Header>, name: string): (k: nat)
    ensures k <= |headers|
    ensures forall j :: 0 <= j < k ==> headers[j].key != name
    ensures k < |headers| ==> headers[k].key == name
  {
    if headers == [] then 0
    else if headers[0].key == name then 0
    else 1 + FirstMatch(headers[1..], name)
  }

  /** `values?.FirstOrDefault()`: the first value of a header entry, if any. */
  function FirstValue(values: Option<seq<string>>): Option<string> {
    if values.Some? && |values.value| > 0 then Some(values.value[0]) else None
  }

  /**
   * `Headers.FirstOrDefault(x => x.Key == name).Value?.FirstOrDefault()`, as a scan
   * over the list; a null list makes FirstOrDefault throw.
   */
  function LookupHeader(headers: Option<seq<Header>>, name: string): (r: Result<Option<string>, Fault>)
    ensures headers.None? <==> r.Failure?
    ensures r.Failure? ==> r.error == ArgumentNullException("source")
    ensures r.Success? ==>
      var k := FirstMatch(headers.value, name);
      r.value == if k < |headers.value| then FirstValue(headers.value[k].values) else None
  {
    if headers.None? then Failure(ArgumentNullException("source"))
    else Success(Scan(headers.value, name))
  }

  function Scan(headers: seq<Header>, name: string): (r: Option<string>)
    ensures var k := FirstMatch(headers, name);
      r == if k < |headers| then FirstValue(headers[k].values) else None
  {
    if headers == [] then None
    else if headers[0].key == name then FirstValue(headers[0].values)
    else Scan(headers[1..], name)
  }

  /** `List.RemoveAll(x => x.Key == key)`: the entries with other names, in their order. */
  function WithoutKey(headers: seq<Header>, key: string): (r: seq<Header>)
    ensures |r| <= |headers|
    ensures forall j :: 0 <= j < |r| ==> r[j].key != key
  {
    if headers == [] then []
    else (if headers[0].key == key then [] else [headers[0]]) + WithoutKey(headers[1..], key)
  }

  lemma WithoutKeyStep(headers: seq<Header>, i: nat, key: string)
    requires i < |headers|
    ensures WithoutKey(headers[i..], key)
      == (if headers[i].key == key then [] else [headers[i]]) + WithoutKey(headers[i + 1..], key)
  {
    assert headers[i..][0] == headers[i] && headers[i..][1..] == headers[i + 1..];
  }

  /** The header list after AddResponseHeader(key, value); a null list starts out empty. */
  function WithHeader(headers: Option<seq<Header>>, key: string, value: string): seq<Header> {
    WithoutKey(headers.GetOr([]), key) + [Header(key, Some([value]))]
  }

  function CountKey(headers: seq<Header>, key: string): nat {
    if headers == [] then 0
    else (if headers[0].key == key then 1 else 0) + CountKey(headers[1..], key)
  }

  /** After AddResponseHeader(key, value), looking `key` up yields `value`. */
  lemma {:induction false} AddThenGet(headers: Option<seq<Header>>, key: string, value: string)
    ensures LookupHeader(Some(WithHeader(headers, key, value)), key) == Success(Some(value))
  {
    var w := WithoutKey(headers.GetOr([]), key);
    var all := w + [Header(key, Some([value]))];
    assert forall j :: 0 <= j < |w| ==> all[j] == w[j];
    assert all[|w|].key == key;
  }

  /** After AddResponseHeader(key, value) the list holds exactly one entry named `key`. */
  lemma {:induction false} AddLeavesSingleEntry(headers: Option<seq<Header>>, key: string, value: string)
    ensures CountKey(WithHeader(headers, key, value), key) == 1
  {
    NoKeyLeft(headers.GetOr([]), key);
    CountAppend(WithoutKey(headers.GetOr([]), key), [Header(key, Some([value]))], key);
  }

  lemma {:induction false} NoKeyLeft(headers: seq<Header>, key: string)
    ensures CountKey(WithoutKey(headers, key), key) == 0
    decreases |headers|
  {
    if headers != [] {
      var rest := WithoutKey(headers[1..], key);
      NoKeyLeft(headers[1..], key);
      if headers[0].key == key {
        assert WithoutKey(headers, key) == rest;
      } else {
        var r := [headers[0]] + rest;
        assert WithoutKey(headers, key) == r;
        assert r[0] == headers[0] && r[1..] == rest;
      }
    }
  }

  lemma {:induction false} CountAppend(a: seq<Header>, b: seq<Header>, key: string)
    ensures CountKey(a + b, key) == CountKey(a, key) + CountKey(b, key)
    decreases |a|
  {
    if a != [] {
      assert (a + b)[0] == a[0] && (a + b)[1..] == a[1..] + b;
      CountAppend(a[1..], b, key);
    } else {
      assert a + b == b;
    }
  }

  /** AddResponseHeader(key, _) leaves the lookup of every other header name as it was. */
  lemma {:induction false} AddKeepsOtherHeaders(headers: seq<Header>, key: string, value: string, other: string)
    requires other != key
    ensures LookupHeader(Some(WithHeader(Some(headers), key, value)), other) == LookupHeader(Some(headers), other)
  {
    ScanWithoutKey(headers, key, other);
    ScanAppendMiss(WithoutKey(headers, key), Header(key, Some([value])), other);
  }

  lemma {:induction false} ScanWithoutKey(headers: seq<Header>, key: string, other: string)
    requires other != key
    ensures Scan(WithoutKey(headers, key), other) == Scan(headers, other)
    decreases |headers|
  {
    if headers != [] {
      var rest := WithoutKey(headers[1..], key);
      ScanWithoutKey(headers[1..], key, other);
      if headers[0].key == key {
        assert WithoutKey(headers, key) == rest;
      } else {
        var r := [headers[0]] + rest;
        assert WithoutKey(headers, key) == r;
        assert r[0] == headers[0] && r[1..] == rest;
      }
    }
  }

  lemma {:induction false} ScanAppendMiss(headers: seq<Header>, h: Header, other: string)
    requires h.key != other
    ensures Scan(headers + [h], other) == Scan(headers, other)
    decreases |headers|
  {
    if headers != [] {
      assert (headers + [h])[0] == headers[0] && (headers + [h])[1..] == headers[1..] + [h];
      ScanAppendMiss(headers[1..], h, other);
    }
  }

  /** The mutable response record; only the members the crawler reads are kept. */
  class HttpWebResponseWrapper {
    var statusCode: int
    var contentType: Option<string>
    var contentLength: int
    var content: Option<seq<bv8>>
    var headers: Option<seq<Header>>

    /** Builds a response from custom parameters; the length is that of the content, 0 when it is null. */
    constructor (statusCode: int, contentType: Option<string>, content: Option<seq<bv8>>, headers: seq<Header>)
      ensures this.statusCode == statusCode && this.contentType == contentType
      ensures this.headers == Some(headers) && this.content == content
      ensures this.contentLength == if content.Some? then |content.value| else 0
    {
      this.statusCode := statusCode;
      this.headers := Some(headers);
      this.contentType := contentType;
      this.contentLength := if content.Some? then |content.value| else 0;
      this.content := content;
    }

    /**
     * The custom-parameter constructor with its `headers.ToList()` call: a null header
     * sequence throws before any member is set.
     */
    static method Create(statusCode: int, contentType: Option<string>, content: Option<seq<bv8>>, headers: Option<seq<Header>>)
      returns (r: Result<HttpWebResponseWrapper, Fault>)
      ensures headers.None? <==> r.Failure?
      ensures r.Failure? ==> r.error == ArgumentNullException("source")
      ensures r.Success? ==>
        && fresh(r.value) && r.value.statusCode == statusCode && r.value.contentType == contentType
        && r.value.headers == headers && r.value.content == content
        && r.value.contentLength == if content.Some? then |content.value| else 0
    {
      if headers.None? {
        return Failure(ArgumentNullException("source"));
      }
      var w := new HttpWebResponseWrapper(statusCode, contentType, content, headers.value);
      return Success(w);
    }

    /** The empty response, to be filled later: every reference member is null. */
    constructor Empty()
      ensures statusCode == 0 && contentType.None? && contentLength == 0
      ensures content.None? && headers.None?
    {
      statusCode := 0;
      contentType := None;
      contentLength := 0;
      content := None;
      headers := None;
    }

    /**
     * GetResponseHeader: the first value of the first entry named exactly `name`; null when
     * no entry has the name or that entry has no value; a null list throws.
     */
    function GetResponseHeader(name: string): (r: Result<Option<string>, Fault>)
      reads this
      ensures r.Failure? <==> headers.None?
      ensures r.Failure? ==> r.error == ArgumentNullException("source")
      ensures r.Success? ==>
        var k := FirstMatch(headers.value, name);
        r.value == if k < |headers.value| then FirstValue(headers.value[k].values) else None
      ensures headers.Some? && (forall h :: h in headers.value ==> h.key != name) ==> r == Success(None)
    {
      var r := LookupHeader(headers, name);
      if r.Success? && FirstMatch(headers.value, name) < |headers.value| then
        var k := FirstMatch(headers.value, name);
        assert headers.value[k] in headers.value;
        r
      else r
    }

    /** Replaces every entry named `key` by a single entry holding `value`, appended at the end. */
    method AddResponseHeader(key: string, value: string)
      modifies this`headers
      ensures headers == Some(WithHeader(old(headers), key, value))
    {
      var list := headers.GetOr([]);
      var kept: seq<Header> := [];
      var i := 0;
      assert list[0..] == list;
      while i < |list|
        invariant 0 <= i <= |list|
        invariant WithoutKey(list, key) == kept + WithoutKey(list[i..], key)
      {
        WithoutKeyStep(list, i, key);
        if list[i].key != key {
          kept := kept + [list[i]];
        }
        i := i + 1;
      }
      assert list[i..] == [];
      assert kept == WithoutKey(list, key);
      headers := Some(kept + [Header(key, Some([value]))]);
    }
  }
}

=== FILE: hyper_link_parser.dfy ===
/**
 * HyperLinkParser: turns the href values of a crawled page into a list of distinct
 * absolute URIs, resolved against the page (or its base tag), and decides whether
 * the page forbids following its links.
 */
module HyperLinkParser {
  import opened Wrappers
  import opened Faults
  import opened Text
  import opened HttpResponse
  import opened Poco

  /** System.Uri construction; None where the constructor throws. */
  datatype UriParsing = UriParsing(
    parse: string -> Option<Uri>,          // new Uri(string)
    resolve: (Uri, string) -> Option<Uri>) // new Uri(baseUri, relativeOrAbsolute)

  /**
   * A link parser: the configuration, the optional clean-URL function (None where it throws),
   * URI construction and HtmlEntity.DeEntitize (None where it throws).
   */
  datatype LinkParser = LinkParser(
    config: CrawlConfiguration,
    cleanUrl: Option<string -> Option<string>>,
    uris: UriParsing,
    deEntitize: string -> Option<string>)

  /** CheckParams: a null page is rejected before anything else happens. */
  function CheckParams(page: Option<CrawledPage>): (r: Option<Fault>)
    ensures r.Some? <==> page.None?
    ensures r.Some? ==> r.value == ArgumentNullException("crawledPage")
  {
    if page.None? then Some(ArgumentNullException("crawledPage")) else None
  }

  /**
   * Applies a non-empty base href: a scheme-relative one ("//host/...") takes the page's
   * scheme; one that does not parse leaves `fallback` in place.
   */
  function ApplyBaseHref(parser: LinkParser, fallback: Uri, baseHref: string, pageScheme: string): (u: Uri)
    ensures baseHref == [] ==> u == fallback
    ensures u == fallback || Some(u) == parser.uris.parse(if StartsWith(baseHref, "//") then pageScheme + ":" + baseHref else baseHref)
  {
    if baseHref == [] then fallback
    else
      var absolute := if StartsWith(baseHref, "//") then pageScheme + ":" + baseHref else baseHref;
      match parser.uris.parse(absolute)
      case None => fallback
      case Some(b) => b
  }

  /**
   * The base URI as the code computes it: `crawledPage.HttpWebRequest.RequestUri ?? crawledPage.Uri`
   * dereferences the request, which fails when the page carries none.
   */
  function BaseUriAsWritten(parser: LinkParser, page: CrawledPage, baseHref: string): (r: Result<Uri, Fault>)
    ensures r.Failure? <==> page.request.None?
    ensures r.Failure? ==> r.error == NullReferenceException
  {
    if page.request.None? then Failure(NullReferenceException)
    else
      var requested := page.request.value.requestUri.GetOr(page.page.uri);
      Success(ApplyBaseHref(parser, requested, baseHref, page.page.uri.scheme))
  }

  /** The base URI with the null request tolerated: the request URI, else the page URI, overridden by a usable base href. */
  function BaseUri(parser: LinkParser, page: CrawledPage, baseHref: string): (u: Uri)
    ensures page.request.Some? ==> BaseUriAsWritten(parser, page, baseHref) == Success(u)
    ensures baseHref == [] && (page.request.None? || page.request.value.requestUri.None?) ==> u == page.page.uri
  {
    var requested := if page.request.Some? then page.request.value.requestUri.GetOr(page.page.uri) else page.page.uri;
    ApplyBaseHref(parser, requested, baseHref, page.page.uri.scheme)
  }

  /** The href actually resolved: the whole value, or the part before '#' when fragments are not respected. */
  function HrefToResolve(parser: LinkParser, hrefValue: string): (href: string)
    ensures parser.config.isRespectUrlNamedAnchorOrHashbangEnabled ==> href == hrefValue
    ensures !parser.config.isRespectUrlNamedAnchorOrHashbangEnabled ==> StartsWith(hrefValue, href) && '#' !in href
  {
    if parser.config.isRespectUrlNamedAnchorOrHashbangEnabled then hrefValue
    else
      var h := BeforeFirst(hrefValue, '#');
      assert forall i :: 0 <= i < |h| ==> h[i] != '#';
      h
  }

  /** The URI one href value yields, or None when resolving, cleaning or re-parsing it throws. */
  function LinkOf(parser: LinkParser, base: Uri, hrefValue: string): Option<Uri> {
    match parser.uris.resolve(base, HrefToResolve(parser, hrefValue))
    case None => None
    case Some(u) =>
      if parser.cleanUrl.None? then Some(u)
      else
        match parser.cleanUrl.value(u.absoluteUri)
        case None => None
        case Some(cleaned) => parser.uris.parse(cleaned)
  }

  predicate HasAbsolute(uris: seq<Uri>, absoluteUri: string) {
    exists x :: x in uris && x.absoluteUri == absoluteUri
  }

  /** No two URIs of the list have the same absolute form. */
  predicate DistinctAbsolute(uris: seq<Uri>) {
    forall i, j :: 0 <= i < j < |uris| ==> uris[i].absoluteUri != uris[j].absoluteUri
  }

  /** One step of the foreach: add the link unless one with the same absolute form is already listed. */
  function AddIfNew(uris: seq<Uri>, link: Option<Uri>): seq<Uri> {
    if link.Some? && !HasAbsolute(uris, link.value.absoluteUri) then uris + [link.value] else uris
  }

  /** The foreach over the href values, from the list built so far. */
  function Collect(parser: LinkParser, base: Uri, uris: seq<Uri>, hrefValues: seq<string>): seq<Uri>
    decreases |hrefValues|
  {
    if hrefValues == [] then uris
    else Collect(parser, base, AddIfNew(uris, LinkOf(parser, base, hrefValues[0])), hrefValues[1..])
  }

  /** GetUris as written: it fails on a page without a request as soon as there is one href. */
  function GetUrisAsWritten(parser: LinkParser, page: CrawledPage, baseHref: string, hrefValues: seq<string>): (r: Result<seq<Uri>, Fault>)
    ensures hrefValues == [] ==> r == Success([])
  {
    if hrefValues == [] then Success([])
    else
      match BaseUriAsWritten(parser, page, baseHref)
      case Failure(e) => Failure(e)
      case Success(base) => Success(Collect(parser, base, [], hrefValues))
  }

  /** A concrete page that exhibits the failure: no request, one relative href. */
  lemma GetUrisAsWrittenFailsWithoutRequest(parser: LinkParser)
    ensures
      var root := Uri("http://a.com/", "http", "a.com");
      var page := CrawledPage(NewPageToCrawl(root), None, None, None, HtmlDocument(None, None, None, None, None), None, None);
      GetUrisAsWritten(parser, page, "", ["/b"]) == Failure(NullReferenceException)
  {
  }

  /**
   * GetUris, with the base taken by BaseUri. Returns the distinct resolvable links in the
   * order of their first occurrence.
   */
  method GetUris(parser: LinkParser, page: CrawledPage, baseHref: string, hrefValues: seq<string>) returns (uris: seq<Uri>)
    ensures hrefValues == [] ==> uris == []
    ensures hrefValues != [] ==> uris == Collect(parser, BaseUri(parser, page, baseHref), [], hrefValues)
    ensures DistinctAbsolute(uris)
    ensures page.request.Some? ==> GetUrisAsWritten(parser, page, baseHref, hrefValues) == Success(uris)
  {
    uris := [];
    if |hrefValues| < 1 {
      return;
    }
    var base := BaseUri(parser, page, baseHref);
    var i := 0;
    assert hrefValues[0..] == hrefValues;
    while i < |hrefValues|
      invariant 0 <= i <= |hrefValues|
      invariant Collect(parser, base, [], hrefValues) == Collect(parser, base, uris, hrefValues[i..])
      invariant DistinctAbsolute(uris)
    {
      assert hrefValues[i..][1..] == hrefValues[i + 1..];
      var link := LinkOf(parser, base, hrefValues[i]);
      if link.Some? {
        var newUri := link.value;
        var listed := Exists(uris, newUri.absoluteUri);
        if !listed {
          AddKeepsDistinct(uris, newUri);
          uris := uris + [newUri];
        }
      }
      i := i + 1;
    }
    assert hrefValues[i..] == [];
  }

  /** `uris.Exists(u => u.AbsoluteUri == absoluteUri)`, as a scan. */
  method Exists(uris: seq<Uri>, absoluteUri: string) returns (found: bool)
    ensures found <==> HasAbsolute(uris, absoluteUri)
  {
    found := false;
    var k := 0;
    while k < |uris|
      invariant 0 <= k <= |uris|
      invariant found <==> exists j :: 0 <= j < k && uris[j].absoluteUri == absoluteUri
    {
      if uris[k].absoluteUri == absoluteUri {
        found := true;
      }
      k := k + 1;
    }
  }

  lemma AddKeepsDistinct(uris: seq<Uri>, u: Uri)
    requires DistinctAbsolute(uris) && !HasAbsolute(uris, u.absoluteUri)
    ensures DistinctAbsolute(uris + [u])
  {
    var r := uris + [u];
    forall i, j | 0 <= i < j < |r|
      ensures r[i].absoluteUri != r[j].absoluteUri
    {
      if j == |uris| {
        assert r[i] in uris;
      }
    }
  }

  /** Collecting from a list without duplicates keeps it without duplicates. */
  lemma {:induction false} CollectKeepsDistinct(parser: LinkParser, base: Uri, uris: seq<Uri>, hrefValues: seq<string>)
    requires DistinctAbsolute(uris)
    ensures DistinctAbsolute(Collect(parser, base, uris, hrefValues))
    decreases |hrefValues|
  {
    if hrefValues != [] {
      var link := LinkOf(parser, base, hrefValues[0]);
      if link.Some? && !HasAbsolute(uris, link.value.absoluteUri) {
        AddKeepsDistinct(uris, link.value);
      }
      CollectKeepsDistinct(parser, base, AddIfNew(uris, link), hrefValues[1..]);
    }
  }

  /** Every listed URI was already listed or comes from one of the href values. */
  lemma {:induction false} CollectSound(parser: LinkParser, base: Uri, uris: seq<Uri>, hrefValues: seq<string>, u: Uri)
    requires u in Collect(parser, base, uris, hrefValues)
    ensures u in uris || exists k :: 0 <= k < |hrefValues| && LinkOf(parser, base, hrefValues[k]) == Some(u)
    decreases |hrefValues|
  {
    if hrefValues != [] {
      var next := AddIfNew(uris, LinkOf(parser, base, hrefValues[0]));
      CollectSound(parser, base, next, hrefValues[1..], u);
      if u !in next {
        var k :| 0 <= k < |hrefValues[1..]| && LinkOf(parser, base, hrefValues[1..][k]) == Some(u);
        assert hrefValues[1..][k] == hrefValues[k + 1];
      }
    }
  }

  /** The list only grows: what was listed stays listed, in place. */
  lemma {:induction false} CollectExtends(parser: LinkParser, base: Uri, uris: seq<Uri>, hrefValues: seq<string>)
    ensures uris <= Collect(parser, base, uris, hrefValues)
    decreases |hrefValues|
  {
    if hrefValues != [] {
      CollectExtends(parser, base, AddIfNew(uris, LinkOf(parser, base, hrefValues[0])), hrefValues[1..]);
    }
  }

  /** Every href value that resolves is represented, by a URI with the same absolute form. */
  lemma {:induction false} CollectComplete(parser: LinkParser, base: Uri, uris: seq<Uri>, hrefValues: seq<string>, k: nat)
    requires k < |hrefValues| && LinkOf(parser, base, hrefValues[k]).Some?
    ensures HasAbsolute(Collect(parser, base, uris, hrefValues), LinkOf(parser, base, hrefValues[k]).value.absoluteUri)
    decreases |hrefValues|
  {
    var link := LinkOf(parser, base, hrefValues[0]);
    var next := AddIfNew(uris, link);
    if k == 0 {
      var a := link.value.absoluteUri;
      var x :| x in next && x.absoluteUri == a;
      CollectExtends(parser, base, next, hrefValues[1..]);
      assert x in Collect(parser, base, next, hrefValues[1..]);
    } else {
      assert hrefValues[1..][k - 1] == hrefValues[k];
      CollectComplete(parser, base, next, hrefValues[1..], k - 1);
    }
  }

  /** The parse result lists each resolvable href value once, and nothing else. */
  lemma GetUrisCharacterisation(parser: LinkParser, base: Uri, hrefValues: seq<string>)
    ensures forall u :: u in Collect(parser, base, [], hrefValues) ==>
      exists k :: 0 <= k < |hrefValues| && LinkOf(parser, base, hrefValues[k]) == Some(u)
    ensures forall k :: 0 <= k < |hrefValues| && LinkOf(parser, base, hrefValues[k]).Some? ==>
      HasAbsolute(Collect(parser, base, [], hrefValues), LinkOf(parser, base, hrefValues[k]).value.absoluteUri)
  {
    forall u | u in Collect(parser, base, [], hrefValues)
      ensures exists k :: 0 <= k < |hrefValues| && LinkOf(parser, base, hrefValues[k]) == Some(u)
    {
      CollectSound(parser, base, [], hrefValues, u);
    }
    forall k | 0 <= k < |hrefValues| && LinkOf(parser, base, hrefValues[k]).Some?
      ensures HasAbsolute(Collect(parser, base, [], hrefValues), LinkOf(parser, base, hrefValues[k]).value.absoluteUri)
    {
      CollectComplete(parser, base, [], hrefValues, k);
    }
  }

  /** A header or meta value that forbids following links: it mentions "nofollow" or "none", in any case. */
  predicate SaysNoFollow(value: Option<string>) {
    value.Some? && (Contains(ToLower(value.value), "nofollow") || Contains(ToLower(value.value), "none"))
  }

  /**
   * HasRobotsNoFollow: the X-Robots-Tag response header (when respected) or the robots
   * meta value (when respected) forbids following links. Reading the header dereferences
   * the response and its header list.
   */
  function HasRobotsNoFollow(config: CrawlConfiguration, response: Option<Response>, metaRobots: Option<string>): (r: Result<bool, Fault>)
    ensures r.Failure? <==> config.isRespectHttpXRobotsTagHeaderNoFollowEnabled && (response.None? || response.value.headers.None?)
    ensures r.Failure? ==> r.error == (if response.None? then NullReferenceException else ArgumentNullException("source"))
    ensures r.Success? ==>
      (r.value <==>
        (config.isRespectHttpXRobotsTagHeaderNoFollowEnabled && SaysNoFollow(LookupHeader(response.value.headers, "X-Robots-Tag").value))
        || (config.isRespectMetaRobotsNoFollowEnabled && SaysNoFollow(metaRobots)))
  {
    if config.isRespectHttpXRobotsTagHeaderNoFollowEnabled && response.None? then Failure(NullReferenceException)
    else if config.isRespectHttpXRobotsTagHeaderNoFollowEnabled && LookupHeader(response.value.headers, "X-Robots-Tag").Failure? then
      Failure(LookupHeader(response.value.headers, "X-Robots-Tag").error)
    else if config.isRespectHttpXRobotsTagHeaderNoFollowEnabled && SaysNoFollow(LookupHeader(response.value.headers, "X-Robots-Tag").value) then
      Success(true)
    else if config.isRespectMetaRobotsNoFollowEnabled && SaysNoFollow(metaRobots) then
      Success(true)
    else
      Success(false)
  }
}

=== FILE: int32.dfy ===
/** Two's-complement 32-bit integers, as C#'s unchecked `int` arithmetic produces them. */
module Int32 {
  const Modulus: int := 0x1_0000_0000
  const MinValue: int := -0x8000_0000
  const MaxValue: int := 0x7FFF_FFFF

  predicate InRange(x: int) {
    MinValue <= x <= MaxValue
  }

  /** The value an unchecked Int32 operation yields for the mathematical result `x`. */
  function Wrap(x: int): (r: int)
    ensures InRange(r)
    ensures (r - x) % Modulus == 0
    ensures InRange(x) ==> r == x
  {
    var m := (x - MinValue) % Modulus;
    m + MinValue
  }
}

=== FILE: poco.dfy ===
/** The plain records the crawler passes around: pages, responses, decisions, configuration and context. */
module Poco {
  import opened Wrappers
  import opened HttpResponse

  /** System.Uri reduced to the parts the crawler compares: the absolute form, the scheme and the authority. */
  datatype Uri = Uri(absoluteUri: string, scheme: string, authority: string)

  /** The dynamic PageBag / CrawlBag: named values attached to a page. */
  type PageBag = map<string, string>

  /** A page waiting in the scheduler. */
  datatype PageToCrawl = PageToCrawl(
    uri: Uri,
    parentUri: Option<Uri>,
    isInternal: bool,
    isRoot: bool,
    isRetry: bool,
    retryCount: nat,
    crawlDepth: nat,
    redirectPosition: nat,
    redirectedFrom: Option<Uri>,
    pageBag: PageBag)

  /** `new PageToCrawl(uri)`: every other member at its default. */
  function NewPageToCrawl(uri: Uri): (p: PageToCrawl)
    ensures p.uri == uri && p.parentUri.None? && p.redirectedFrom.None? && p.pageBag == map[]
    ensures !p.isInternal && !p.isRoot && !p.isRetry
    ensures p.retryCount == 0 && p.crawlDepth == 0 && p.redirectPosition == 0
  {
    PageToCrawl(uri, None, false, false, false, 0, 0, 0, None, map[])
  }

  /** The part of HttpWebResponseWrapper the crawler reads. */
  datatype Response = Response(statusCode: int, responseUri: Option<Uri>, headers: Option<seq<Header>>)

  /** The request that fetched a page (CrawledPage.HttpWebRequest). */
  datatype RequestInfo = RequestInfo(requestUri: Option<Uri>)

  /** An HTML element, by its attributes. */
  datatype HtmlNode = HtmlNode(attributes: map<string, string>)

  /**
   * The parsed document, reduced to the results of the XPath queries the link parser
   * runs; a query that matches nothing yields null, as HtmlAgilityPack's SelectNodes does.
   */
  datatype HtmlDocument = HtmlDocument(
    anchorNodes: Option<seq<HtmlNode>>,
    areaNodes: Option<seq<HtmlNode>>,
    canonicalNodes: Option<seq<HtmlNode>>,
    baseNode: Option<HtmlNode>,
    robotsMetaNode: Option<HtmlNode>)

  /** A page after its request: the page it was, the response and what was parsed from it. */
  datatype CrawledPage = CrawledPage(
    page: PageToCrawl,
    request: Option<RequestInfo>,
    response: Option<Response>,
    contentBytes: Option<seq<bv8>>,
    html: HtmlDocument,
    parsedLinks: Option<seq<Uri>>,
    redirectedTo: Option<PageToCrawl>)

  datatype CrawlDecision = CrawlDecision(allow: bool, reason: string, shouldStopCrawl: bool, shouldHardStopCrawl: bool)

  /** `new CrawlDecision { Allow = true }`. */
  const AllowedDecision := CrawlDecision(true, "", false, false)

  /** The CrawlConfiguration values the modelled code reads. */
  datatype CrawlConfiguration = CrawlConfiguration(
    isExternalPageCrawlingEnabled: bool,
    maxLinksPerPage: int,
    maxPageSizeInBytes: int,
    isHttpRequestAutoRedirectsEnabled: bool,
    isForcedLinkParsingEnabled: bool,
    maxMemoryUsageInMb: int,
    minAvailableMemoryRequiredInMb: int,
    isRespectRobotsDotTextEnabled: bool,
    robotsDotTextUserAgentString: string,
    minCrawlDelayPerDomainMilliSeconds: int,
    maxRobotsDotTextCrawlDelayInSeconds: int,
    isIgnoreRobotsDotTextIfRootDisallowedEnabled: bool,
    isRespectUrlNamedAnchorOrHashbangEnabled: bool,
    isRespectHttpXRobotsTagHeaderNoFollowEnabled: bool,
    isRespectMetaRobotsNoFollowEnabled: bool,
    isRespectAnchorRelNoFollowEnabled: bool)

  /** The shared state of one crawl that decision makers see. */
  datatype CrawlContext = CrawlContext(
    rootUri: Option<Uri>,
    originalRootUri: Option<Uri>,
    crawledCount: nat,
    crawlCountByDomain: map<string, nat>,
    isCrawlStopRequested: bool,
    isCrawlHardStopRequested: bool,
    memoryUsageBeforeCrawlInMb: int,
    memoryUsageAfterCrawlInMb: int)

  /** The context of a crawler that has not started: no root, nothing counted, nothing requested. */
  const InitialContext := CrawlContext(None, None, 0, map[], false, false, 0, 0)
}

=== FILE: polite_web_crawler.dfy ===
/**
 * The robots.txt rules of PoliteWebCrawler: which pages robots.txt lets through, when
 * the root page makes the crawler ignore robots.txt altogether, and which crawl delay
 * is registered with the domain rate limiter.
 */
module Politeness {
  import opened Wrappers
  import opened Text
  import opened Poco
  import Int32

  /** A parsed robots.txt: its allow test per (absolute URL, user agent) and its crawl delay per user agent. */
  datatype RobotsDotText = RobotsDotText(isUrlAllowed: (string, string) -> bool, getCrawlDelay: string -> int)

  /** A path below the root that no site names: the root with "aaaaa" appended as a child segment. */
  function ProbeUnderRoot(rootAbsoluteUri: string): (probe: string)
    ensures StartsWith(probe, rootAbsoluteUri)
    ensures EndsWith(probe, "/aaaaa")
  {
    if EndsWith(rootAbsoluteUri, "/") then rootAbsoluteUri + "aaaaa" else rootAbsoluteUri + "/aaaaa"
  }

  /** What robots.txt says about one page: refuse it, or let it through and possibly stop consulting robots.txt. */
  datatype RobotsVerdict = Deny | Allow(ignoreRobotsFromNowOn: bool)

  /** The robots.txt half of the polite ShouldCrawlPage, in the order the code evaluates it. */
  function CheckRobots(robots: Option<RobotsDotText>, page: PageToCrawl, config: CrawlConfiguration): (v: RobotsVerdict)
    ensures v.Deny? <==>
      && robots.Some?
      && !robots.value.isUrlAllowed(page.uri.absoluteUri, config.robotsDotTextUserAgentString)
      && !(config.isIgnoreRobotsDotTextIfRootDisallowedEnabled && page.isRoot)
    ensures v == Allow(true) <==>
      && config.isIgnoreRobotsDotTextIfRootDisallowedEnabled && page.isRoot
      && (|| robots.None?
          || !robots.value.isUrlAllowed(page.uri.absoluteUri, config.robotsDotTextUserAgentString)
          || !robots.value.isUrlAllowed(ProbeUnderRoot(page.uri.absoluteUri), config.robotsDotTextUserAgentString))
  {
    var ua := config.robotsDotTextUserAgentString;
    var allowedByRobots := robots.None? || robots.value.isUrlAllowed(page.uri.absoluteUri, ua);
    var allPathsBelowRootAllowedByRobots :=
      if robots.Some? && page.isRoot && allowedByRobots then robots.value.isUrlAllowed(ProbeUnderRoot(page.uri.absoluteUri), ua)
      else false;
    if config.isIgnoreRobotsDotTextIfRootDisallowedEnabled && page.isRoot then
      if !allowedByRobots then Allow(true)
      else if !allPathsBelowRootAllowedByRobots then Allow(true)
      else Allow(false)
    else if !allowedByRobots then Deny
    else Allow(false)
  }

  /** Without a robots.txt, robots never refuses a page. */
  lemma NoRobotsNeverDenies(page: PageToCrawl, config: CrawlConfiguration)
    ensures CheckRobots(None, page, config).Allow?
  {
  }

  /** The message of the PageCrawlDisallowed event robots.txt raises. */
  function RobotsDisallowedReason(page: PageToCrawl): string {
    "Page [" + page.uri.absoluteUri + RobotsDisallowedTail
  }

  const RobotsDisallowedTail := "] not crawled, [Disallowed by robots.txt file], set IsRespectRobotsDotText=false in config file if you would like to ignore robots.txt files."

  /**
   * The crawl delay registered for the root's domain, as written: the delay in
   * milliseconds is `seconds * 1000` in 32-bit arithmetic. None: nothing is registered.
   */
  function CrawlDelayAsWritten(foundSeconds: Option<int>, config: CrawlConfiguration): (r: Option<int>)
    ensures r.Some? ==> foundSeconds.Some? && foundSeconds.value > 0 && Int32.InRange(r.value)
    ensures r.Some? ==> Int32.Wrap(foundSeconds.value * 1000) > config.minCrawlDelayPerDomainMilliSeconds
    ensures r.Some? && foundSeconds.value <= config.maxRobotsDotTextCrawlDelayInSeconds ==> r.value == Int32.Wrap(foundSeconds.value * 1000)
    ensures r.Some? && foundSeconds.value > config.maxRobotsDotTextCrawlDelayInSeconds ==>
      r.value == Int32.Wrap(config.maxRobotsDotTextCrawlDelayInSeconds * 1000)
  {
    var seconds := foundSeconds.GetOr(0);
    var millis := if foundSeconds.Some? then Int32.Wrap(seconds * 1000) else 0;
    if seconds > 0 && millis > config.minCrawlDelayPerDomainMilliSeconds then
      if seconds > config.maxRobotsDotTextCrawlDelayInSeconds then Some(Int32.Wrap(config.maxRobotsDotTextCrawlDelayInSeconds * 1000))
      else Some(millis)
    else None
  }

  /**
   * The crawl delay with the milliseconds computed exactly: registered when robots.txt
   * asks for a positive delay above the per-domain minimum, capped at the configured maximum.
   */
  function CrawlDelay(foundSeconds: Option<int>, config: CrawlConfiguration): (r: Option<int>)
    ensures r.Some? <==> foundSeconds.Some? && foundSeconds.value > 0 && foundSeconds.value * 1000 > config.minCrawlDelayPerDomainMilliSeconds
    ensures r.Some? ==> r.value == Min(foundSeconds.value, config.maxRobotsDotTextCrawlDelayInSeconds) * 1000
  {
    var seconds := foundSeconds.GetOr(0);
    var millis := seconds * 1000;
    if seconds > 0 && millis > config.minCrawlDelayPerDomainMilliSeconds then
      if seconds > config.maxRobotsDotTextCrawlDelayInSeconds then Some(config.maxRobotsDotTextCrawlDelayInSeconds * 1000)
      else Some(millis)
    else None
  }

  function Min(a: int, b: int): int {
    if a <= b then a else b
  }

  /** Within 32-bit range the two computations agree. */
  lemma CrawlDelayAgreesInRange(foundSeconds: Option<int>, config: CrawlConfiguration)
    requires foundSeconds.Some? ==> Int32.InRange(foundSeconds.value * 1000)
    requires Int32.InRange(config.maxRobotsDotTextCrawlDelayInSeconds * 1000)
    ensures CrawlDelayAsWritten(foundSeconds, config) == CrawlDelay(foundSeconds, config)
  {
  }

  /** A Crawl-delay of 3000000 seconds wraps to a negative number of milliseconds, so no delay at all is registered. */
  lemma CrawlDelayOverflow(config: CrawlConfiguration)
    requires config.minCrawlDelayPerDomainMilliSeconds == 0 && config.maxRobotsDotTextCrawlDelayInSeconds == 5
    ensures CrawlDelayAsWritten(Some(3000000), config) == None
    ensures CrawlDelay(Some(3000000), config) == Some(5000)
  {
    assert Int32.Wrap(3000000 * 1000) == 3000000000 - Int32.Modulus;
  }
}

=== FILE: text.dfy ===
/** The few System.String operations the link parsers and robots checks rely on. */
module Text {
  /** Char.IsWhiteSpace: the Unicode space, line and paragraph separators plus U+0009..U+000D, U+0085 and U+00A0. */
  predicate IsWhiteSpace(c: char) {
    c == ' ' || ('\t' <= c <= '\r') || c == '\U{0085}' || c == '\U{00A0}' || c == '\U{1680}'
    || ('\U{2000}' <= c <= '\U{200A}') || c == '\U{2028}' || c == '\U{2029}' || c == '\U{202F}'
    || c == '\U{205F}' || c == '\U{3000}'
  }

  /** String.IsNullOrWhiteSpace for a non-null string. */
  predicate IsBlank(s: string) {
    forall i :: 0 <= i < |s| ==> IsWhiteSpace(s[i])
  }

  /** Invariant-culture lower casing of one character (ASCII letters only). */
  function LowerChar(c: char): char {
    if 'A' <= c <= 'Z' then (c as int + 32) as char else c
  }

  function ToLower(s: string): (r: string)
    ensures |r| == |s|
    ensures forall i :: 0 <= i < |s| ==> r[i] == LowerChar(s[i])
  {
    seq(|s|, i requires 0 <= i < |s| => LowerChar(s[i]))
  }

  predicate StartsWith(s: string, prefix: string) {
    |prefix| <= |s| && s[..|prefix|] == prefix
  }

  predicate EndsWith(s: string, suffix: string) {
    |suffix| <= |s| && s[|s| - |suffix|..] == suffix
  }

  /** String.Contains (ordinal): `sub` occurs at some position of `s`. */
  predicate Contains(s: string, sub: string) {
    exists i :: 0 <= i <= |s| && StartsWith(s[i..], sub)
  }

  /** String.TrimStart(): drops the leading white space and nothing else. */
  function TrimStart(s: string): (r: string)
    ensures |r| <= |s| && r == s[|s| - |r|..]
    ensures forall i :: 0 <= i < |s| - |r| ==> IsWhiteSpace(s[i])
    ensures r == [] || !IsWhiteSpace(r[0])
    decreases |s|
  {
    if s != [] && IsWhiteSpace(s[0]) then TrimStart(s[1..]) else s
  }

  /** String.TrimEnd(): drops the trailing white space and nothing else. */
  function TrimEnd(s: string): (r: string)
    ensures |r| <= |s| && r == s[..|r|]
    ensures forall i :: |r| <= i < |s| ==> IsWhiteSpace(s[i])
    ensures r == [] || !IsWhiteSpace(r[|r| - 1])
    decreases |s|
  {
    if s != [] && IsWhiteSpace(s[|s| - 1]) then TrimEnd(s[..|s| - 1]) else s
  }

  /** String.Trim(): the longest infix of `s` that neither starts nor ends with white space. */
  function Trim(s: string): (r: string)
    ensures exists i :: TrimmedAt(s, r, i)
    ensures r == [] || (!IsWhiteSpace(r[0]) && !IsWhiteSpace(r[|r| - 1]))
  {
    var t := TrimStart(s);
    var r := TrimEnd(t);
    assert TrimmedAt(s, r, |s| - |t|);
    r
  }

  /** `r` sits at `i` in `s`, and everything of `s` before and after it is white space. */
  predicate TrimmedAt(s: string, r: string, i: int) {
    && 0 <= i && i + |r| <= |s| && r == s[i..i + |r|]
    && (forall k :: 0 <= k < i ==> IsWhiteSpace(s[k]))
    && (forall k :: i + |r| <= k < |s| ==> IsWhiteSpace(s[k]))
  }

  /** `s.Split(c)[0]`: the part of `s` before the first `c`, or all of `s` when it holds none. */
  function BeforeFirst(s: string, c: char): (r: string)
    ensures StartsWith(s, r)
    ensures forall i :: 0 <= i < |r| ==> r[i] != c
    ensures |r| < |s| ==> s[|r|] == c
    decreases |s|
  {
    if s == [] || s[0] == c then [] else [s[0]] + BeforeFirst(s[1..], c)
  }
}

=== FILE: web_crawler.dfy ===
/**
 * The crawl engine: PoliteWebCrawler together with the WebCrawler behaviour it inherits.
 * A crawl schedules the root page, then repeatedly runs the pre-work checks (memory,
 * cancellation, hard stop, stop) and processes the next scheduled page: request it,
 * follow a redirect, ask whether to crawl its links, parse and schedule them, and ask
 * whether to crawl it again. The worker pool is taken as running one page at a time.
 *
 * Collaborators whose code is not modelled (decision maker, page requester, link parser,
 * memory manager, robots.txt finder) are functions; the events the crawler raises and
 * the calls it makes to its decision makers are recorded, in order, in `log`.
 */
module Crawler {
  import opened Wrappers
  import opened Faults
  import opened Poco
  import CrawlRules
  import Politeness
  import Int32

  datatype DecisionKind = CrawlPageKind | CrawlPageLinksKind | RecrawlPageKind | DownloadPageContentKind | ScheduleLinkKind

  /** What an observer of the crawler sees happen, in order. */
  datatype Event =
    | DecisionMakerConsulted(kind: DecisionKind, uri: Uri)
    | OverrideConsulted(kind: DecisionKind, uri: Uri)
    | PageCrawlDisallowed(uri: Uri, reason: string)
    | PageLinksCrawlDisallowed(uri: Uri, reason: string)
    | PageCrawlStarting(uri: Uri)
    | PageCrawlCompleted(uri: Uri)
    | PageRequested(uri: Uri)
    | RateLimited(uri: Uri)
    | RobotsDotTextParseCompleted(rootUri: Uri)
    | DomainCrawlDelayAdded(rootUri: Uri, delayInMilliseconds: int)

  /** ICrawlDecisionMaker. */
  datatype CrawlDecisionMaker = CrawlDecisionMaker(
    shouldCrawlPage: (PageToCrawl, CrawlContext) -> CrawlDecision,
    shouldCrawlPageLinks: (CrawledPage, CrawlContext) -> CrawlDecision,
    shouldRecrawlPage: (CrawledPage, CrawlContext) -> CrawlDecision,
    shouldDownloadPageContent: (CrawledPage, CrawlContext) -> CrawlDecision)

  /** The delegates registered through ShouldCrawlPage(...), ShouldCrawlPageLinks(...) and the like. */
  datatype DecisionOverrides = DecisionOverrides(
    shouldCrawlPage: Option<(PageToCrawl, CrawlContext) -> CrawlDecision>,
    shouldCrawlPageLinks: Option<(CrawledPage, CrawlContext) -> CrawlDecision>,
    shouldRecrawlPage: Option<(CrawledPage, CrawlContext) -> CrawlDecision>,
    shouldDownloadPageContent: Option<(CrawledPage, CrawlContext) -> CrawlDecision>,
    shouldScheduleLink: Option<(Uri, CrawledPage, CrawlContext) -> bool>)

  /** The other collaborators; a Failure stands for an exception they throw. */
  datatype Collaborators = Collaborators(
    /** IPageRequester.MakeRequestAsync, before the download decision is applied. */
    requestPage: Uri -> Result<CrawledPage, Fault>,
    /** IHyperLinkParser.GetLinks. */
    parseLinks: CrawledPage -> Result<seq<Uri>, Fault>,
    /** System.Uri applied to a Location header (None where it throws). */
    resolveLocation: (Uri, Option<string>) -> Option<Uri>,
    /** IMemoryManager.GetCurrentUsageInMb, by how many readings were taken before. */
    memoryUsageInMb: nat -> int,
    /** IMemoryManager.IsSpaceAvailable. */
    isSpaceAvailable: int -> bool,
    /** IRobotsDotTextFinder.Find for a root uri: None when there is no robots.txt. */
    findRobotsDotText: Uri -> Option<Politeness.RobotsDotText>)

  datatype CrawlResult = CrawlResult(rootUri: Uri, crawlContext: CrawlContext, errorException: Option<Fault>)

  const DoWorkAfterAbortMessage := "Cannot call DoWork() after AbortAll() or Dispose() have been called."
  const NotRootMessage := "The crawled page must be the root page to be validated for redirection."

  /** `n` copies of one event: what `n` identical handlers of one event produce. */
  function Repeat(e: Event, n: nat): (r: seq<Event>)
    ensures |r| == n
    ensures forall i :: 0 <= i < n ==> r[i] == e
  {
    if n == 0 then [] else [e] + Repeat(e, n - 1)
  }

  function Elements(uris: seq<Uri>): set<Uri> {
    set u | u in uris
  }

  lemma ElementsOfPrefix(uris: seq<Uri>, i: nat)
    requires i < |uris|
    ensures Elements(uris[..i + 1]) == Elements(uris[..i]) + {uris[i]}
  {
    assert uris[..i + 1] == uris[..i] + [uris[i]];
  }

  predicate NoDuplicates(uris: seq<Uri>) {
    forall i, j :: 0 <= i < j < |uris| ==> uris[i] != uris[j]
  }

  /**
   * The links of `links` not in `known`, each at its first occurrence, in order: the links
   * a scan of `links` that starts from the known uris `known` takes to the scheduling step.
   */
  function NewLinks(links: seq<Uri>, known: set<Uri>): seq<Uri>
    decreases |links|
  {
    if links == [] then []
    else
      var init := links[..|links| - 1];
      NewLinks(init, known) + (if links[|links| - 1] in known + Elements(init) then [] else [links[|links| - 1]])
  }

  lemma NewLinksStep(links: seq<Uri>, i: nat, known: set<Uri>)
    requires i < |links|
    ensures NewLinks(links[..i + 1], known)
      == NewLinks(links[..i], known) + (if links[i] in known + Elements(links[..i]) then [] else [links[i]])
  {
    assert links[..i + 1][..i] == links[..i];
  }

  /** Every link not known is taken, exactly once, and no other. */
  lemma {:induction false} NewLinksCharacterisation(links: seq<Uri>, known: set<Uri>)
    ensures NoDuplicates(NewLinks(links, known))
    ensures forall u :: u in NewLinks(links, known) <==> u in links && u !in known
    decreases |links|
  {
    if links != [] {
      var init := links[..|links| - 1];
      var last := links[|links| - 1];
      NewLinksCharacterisation(init, known);
      assert links == init + [last];
      assert forall u :: u in Elements(init) <==> u in init;
    }
  }

  /** The child pages built from `uris`, linked from `parent`, as internal or external to the two roots. */
  function Children(parent: PageToCrawl, isInternal: (Uri, Uri) -> bool, root: Uri, originalRoot: Uri, uris: seq<Uri>): (r: seq<PageToCrawl>)
    ensures |r| == |uris|
    ensures forall k :: 0 <= k < |uris| ==>
      r[k] == CrawlRules.LinkTarget(parent, uris[k], CrawlRules.IsInternalUri(isInternal, root, originalRoot, uris[k]))
    decreases |uris|
  {
    if uris == [] then []
    else
      Children(parent, isInternal, root, originalRoot, uris[..|uris| - 1])
        + [CrawlRules.LinkTarget(parent, uris[|uris| - 1], CrawlRules.IsInternalUri(isInternal, root, originalRoot, uris[|uris| - 1]))]
  }

  lemma ChildrenAppend(parent: PageToCrawl, isInternal: (Uri, Uri) -> bool, root: Uri, originalRoot: Uri, uris: seq<Uri>, u: Uri)
    ensures Children(parent, isInternal, root, originalRoot, uris + [u])
      == Children(parent, isInternal, root, originalRoot, uris)
         + [CrawlRules.LinkTarget(parent, u, CrawlRules.IsInternalUri(isInternal, root, originalRoot, u))]
  {
    assert (uris + [u])[..|uris|] == uris;
  }

  /** Only the stop flags of the context changed, and neither was lowered. */
  predicate FlagsRaised(c0: CrawlContext, c1: CrawlContext) {
    && c1 == c0.(isCrawlStopRequested := c1.isCrawlStopRequested, isCrawlHardStopRequested := c1.isCrawlHardStopRequested)
    && (c0.isCrawlStopRequested ==> c1.isCrawlStopRequested)
    && (c0.isCrawlHardStopRequested ==> c1.isCrawlHardStopRequested)
  }

  /** Only the root uri and the stop flags of the context changed; the root is still known and no flag was lowered. */
  predicate Rerooted(c0: CrawlContext, c1: CrawlContext) {
    && c1 == c0.(rootUri := c1.rootUri, isCrawlStopRequested := c1.isCrawlStopRequested, isCrawlHardStopRequested := c1.isCrawlHardStopRequested)
    && (c0.rootUri.Some? ==> c1.rootUri.Some?)
    && (c0.isCrawlStopRequested ==> c1.isCrawlStopRequested)
    && (c0.isCrawlHardStopRequested ==> c1.isCrawlHardStopRequested)
  }

  /** The part of the crawler's state that a scan of one page's links reads and changes. */
  datatype ScanState = ScanState(known: set<Uri>, frontier: seq<PageToCrawl>, ctx: CrawlContext, log: seq<Event>,
                                 asked: seq<Uri>, accepted: seq<PageToCrawl>, visited: seq<Uri>, offered: seq<PageToCrawl>,
                                 latch: bool, robotsLoaded: bool)

  /**
   * Where a scan of a page's links stands in state `now` after its first `i` links,
   * relative to the state `s` it started from: the pages added to the scheduler so far
   * are `added`, each a child of the page, eligible, accepted by ShouldCrawlPage and built
   * from a link put to the decision maker; the links put to the decision maker are `consulted`, none twice,
   * none known beforehand.
   */
  ghost predicate Scanned(config: CrawlConfiguration, isInternal: (Uri, Uri) -> bool, cp: CrawledPage, links: seq<Uri>,
                          i: int, count: int, consulted: seq<Uri>, added: seq<PageToCrawl>, s: ScanState, now: ScanState)
  {
    && 0 <= i <= |links|
    && s.ctx.rootUri.Some? && s.ctx.originalRootUri.Some?
    && FlagsRaised(s.ctx, now.ctx)
    && now.frontier == s.frontier + added
    && now.accepted == s.accepted + added
    && count == |added|
    && (forall k :: 0 <= k < |added| ==>
          && added[k] == CrawlRules.LinkTarget(cp.page, added[k].uri,
               CrawlRules.IsInternalUri(isInternal, s.ctx.rootUri.value, s.ctx.originalRootUri.value, added[k].uri))
          && (added[k].isInternal || config.isExternalPageCrawlingEnabled)
          && added[k].uri in consulted)
    && now.asked == s.asked + consulted
    && NoDuplicates(consulted)
    && (forall u :: u in consulted ==> u in links && u in Elements(links[..i]) && u !in s.known)
    && (s.latch ==> now.latch)
    && (now.robotsLoaded ==> s.robotsLoaded)
    && s.log <= now.log
  }

  /** A link that is already known is passed over: the scan moves on unchanged. */
  lemma ScanPassesKnownLink(config: CrawlConfiguration, isInternal: (Uri, Uri) -> bool, cp: CrawledPage, links: seq<Uri>,
                            i: int, count: int, consulted: seq<Uri>, added: seq<PageToCrawl>, s: ScanState, now: ScanState)
    requires Scanned(config, isInternal, cp, links, i, count, consulted, added, s, now) && i < |links|
    ensures Scanned(config, isInternal, cp, links, i + 1, count, consulted, added, s, now)
  {
    ElementsOfPrefix(links, i);
  }

  /**
   * A link not known before goes through ScheduleLink between states `p0` and `p1`: it
   * joins `consulted` when the decision maker was asked about it, and its child page joins
   * `added` when it was scheduled.
   */
  lemma ScanTakesLink(config: CrawlConfiguration, isInternal: (Uri, Uri) -> bool, cp: CrawledPage, links: seq<Uri>,
                      i: int, count: int, consulted: seq<Uri>, added: seq<PageToCrawl>, s: ScanState,
                      p0: ScanState, p1: ScanState, scheduled: bool, wasConsulted: bool)
    returns (child: PageToCrawl)
    requires Scanned(config, isInternal, cp, links, i, count, consulted, added, s, p0) && i < |links|
    requires links[i] !in s.known + Elements(links[..i])
    requires FlagsRaised(p0.ctx, p1.ctx) && (p0.latch ==> p1.latch) && (p1.robotsLoaded ==> p0.robotsLoaded) && p0.log <= p1.log
    requires p1.asked == p0.asked + (if wasConsulted then [links[i]] else [])
    requires p1.ctx.rootUri.Some? && p1.ctx.originalRootUri.Some?
    requires var c := CrawlRules.LinkTarget(cp.page, links[i],
               CrawlRules.IsInternalUri(isInternal, p1.ctx.rootUri.value, p1.ctx.originalRootUri.value, links[i]));
      if scheduled then
        && p1.frontier == p0.frontier + [c] && p1.accepted == p0.accepted + [c]
        && wasConsulted && (c.isInternal || config.isExternalPageCrawlingEnabled)
      else p1.frontier == p0.frontier && p1.accepted == p0.accepted
    ensures child.uri == links[i] && child.parentUri == Some(cp.page.uri)
    ensures Scanned(config, isInternal, cp, links, i + 1, count + (if scheduled then 1 else 0),
                    consulted + (if wasConsulted then [links[i]] else []), added + (if scheduled then [child] else []), s, p1)
  {
    ElementsOfPrefix(links, i);
    child := CrawlRules.LinkTarget(cp.page, links[i],
               CrawlRules.IsInternalUri(isInternal, s.ctx.rootUri.value, s.ctx.originalRootUri.value, links[i]));
  }

  /**
   * Where the scan stands in state `now` after its first `i` links, as to what reached the
   * scheduling step: every link not known beforehand has, in order, and without a
   * ShouldScheduleLink override (`noVeto`) the child page of each has been put to
   * ShouldSchedulePageLink.
   */
  ghost predicate ScanOffered(isInternal: (Uri, Uri) -> bool, noVeto: bool, cp: CrawledPage, links: seq<Uri>, i: int,
                              s: ScanState, now: ScanState)
  {
    && 0 <= i <= |links|
    && s.ctx.rootUri.Some? && s.ctx.originalRootUri.Some?
    && now.visited == s.visited + NewLinks(links[..i], s.known)
    && s.offered <= now.offered
    && (noVeto ==> now.offered == s.offered + Children(cp.page, isInternal, s.ctx.rootUri.value, s.ctx.originalRootUri.value,
                                                       NewLinks(links[..i], s.known)))
  }

  /** What ScanOffered says of the scan's ghost records, in terms of their new parts. */
  lemma ScanOfferedResult(isInternal: (Uri, Uri) -> bool, noVeto: bool, cp: CrawledPage, links: seq<Uri>, i: int,
                          s: ScanState, now: ScanState)
    requires ScanOffered(isInternal, noVeto, cp, links, i, s, now)
    ensures now.visited[|s.visited|..] == NewLinks(links[..i], s.known)
    ensures noVeto ==> now.offered == s.offered + Children(cp.page, isInternal, s.ctx.rootUri.value, s.ctx.originalRootUri.value,
                                                           now.visited[|s.visited|..])
  {
    assert now.visited[|s.visited|..] == NewLinks(links[..i], s.known);
  }

  /** A known link does not reach the scheduling step. */
  lemma OfferPassesKnownLink(isInternal: (Uri, Uri) -> bool, noVeto: bool, cp: CrawledPage, links: seq<Uri>, i: int,
                             s: ScanState, now: ScanState)
    requires ScanOffered(isInternal, noVeto, cp, links, i, s, now) && i < |links|
    requires links[i] in s.known + Elements(links[..i])
    ensures ScanOffered(isInternal, noVeto, cp, links, i + 1, s, now)
  {
    NewLinksStep(links, i, s.known);
  }

  /** A link not known reaches the scheduling step, which offers its child page unless the override vetoes it. */
  lemma OfferTakesLink(isInternal: (Uri, Uri) -> bool, noVeto: bool, cp: CrawledPage, links: seq<Uri>, i: int,
                       s: ScanState, p0: ScanState, p1: ScanState)
    requires ScanOffered(isInternal, noVeto, cp, links, i, s, p0) && i < |links|
    requires links[i] !in s.known + Elements(links[..i])
    requires p1.visited == p0.visited + [links[i]] && p0.offered <= p1.offered
    requires noVeto ==> p1.offered == p0.offered + [CrawlRules.LinkTarget(cp.page, links[i],
               CrawlRules.IsInternalUri(isInternal, s.ctx.rootUri.value, s.ctx.originalRootUri.value, links[i]))]
    ensures ScanOffered(isInternal, noVeto, cp, links, i + 1, s, p1)
  {
    var root, originalRoot := s.ctx.rootUri.value, s.ctx.originalRootUri.value;
    var taken := NewLinks(links[..i], s.known);
    NewLinksStep(links, i, s.known);
    assert NewLinks(links[..i + 1], s.known) == taken + [links[i]];
    assert p1.visited == s.visited + (taken + [links[i]]);
    if noVeto {
      var c := CrawlRules.LinkTarget(cp.page, links[i], CrawlRules.IsInternalUri(isInternal, root, originalRoot, links[i]));
      ChildrenAppend(cp.page, isInternal, root, originalRoot, taken, links[i]);
      assert p1.offered == s.offered + (Children(cp.page, isInternal, root, originalRoot, taken) + [c]);
    }
  }

  class WebCrawler {
    const config: CrawlConfiguration
    const decisionMaker: CrawlDecisionMaker
    const overrides: DecisionOverrides
    const isInternalDecisionMaker: (Uri, Uri) -> bool
    const env: Collaborators
    /** Whether a handler is attached to RobotsDotTextParseCompleted. */
    const robotsSubscribersAttached: bool

    var ctx: CrawlContext
    /** Set from outside through the cancellation token source. */
    var cancellationRequested: bool
    /** The scheduler: the pages to crawl, first in first out, and the uris already known. */
    var frontier: seq<PageToCrawl>
    var known: set<Uri>
    var crawlComplete: bool
    var crawlStopReported: bool
    var crawlCancellationReported: bool
    var maxPagesToCrawlLimitReachedOrScheduled: bool
    /** CrawlResult.ErrorException of the current crawl. */
    var errorException: Option<Fault>
    /** Whether the memory manager is present (it is dropped once usage exceeds the maximum). */
    var memoryManagerActive: bool
    var memoryReadings: nat
    /** AbortAll or Dispose has been called on the thread manager. */
    var threadManagerAborted: bool
    /** Whether user handlers are attached to the page events (a hard stop detaches them). */
    var subscribersAttached: bool
    /** How many rate-limiting handlers PageCrawlStarting carries (one more per polite crawl). */
    var rateLimitHandlers: nat
    var robotsDotText: Option<Politeness.RobotsDotText>
    var log: seq<Event>
    /** The uris the decision maker's ShouldCrawlPage has been asked about, in order. */
    ghost var asked: seq<Uri>
    /** The pages ShouldCrawlPage has allowed, in order. */
    ghost var accepted: seq<PageToCrawl>
    /** The parsed links SchedulePageLinks has taken to its scheduling step, in order. */
    ghost var visited: seq<Uri>
    /** The pages put to ShouldSchedulePageLink, in order. */
    ghost var offered: seq<PageToCrawl>
    /** The pages handed to ProcessPageAsync, in order. */
    ghost var taken: seq<PageToCrawl>

    /**
     * What holds between crawls and between pages: a reported cancellation has raised the
     * hard stop, and the memory manager is only ever dropped together with a hard stop.
     */
    predicate Valid()
      reads this
    {
      && (crawlCancellationReported ==> ctx.isCrawlHardStopRequested)
      && (!memoryManagerActive && (config.maxMemoryUsageInMb > 0 || config.minAvailableMemoryRequiredInMb > 0) ==> ctx.isCrawlHardStopRequested)
    }

    /** A crawl is under way: both roots are known. */
    predicate Running()
      reads this
    {
      ctx.rootUri.Some? && ctx.originalRootUri.Some?
    }

    /**
     * The crawler as constructed: nothing scheduled or counted, and a memory manager only
     * when a memory limit or a memory requirement is configured.
     */
    constructor (config: CrawlConfiguration, decisionMaker: CrawlDecisionMaker, overrides: DecisionOverrides,
                 isInternalDecisionMaker: (Uri, Uri) -> bool, env: Collaborators, subscribed: bool)
      ensures this.config == config && this.decisionMaker == decisionMaker && this.overrides == overrides
      ensures this.isInternalDecisionMaker == isInternalDecisionMaker && this.env == env
      ensures ctx == InitialContext && frontier == [] && known == {} && log == [] && asked == [] && accepted == []
      ensures visited == [] && offered == [] && taken == []
      ensures !crawlComplete && !crawlStopReported && !crawlCancellationReported && !maxPagesToCrawlLimitReachedOrScheduled
      ensures !cancellationRequested && errorException.None? && !threadManagerAborted && robotsDotText.None?
      ensures memoryManagerActive <==> config.maxMemoryUsageInMb > 0 || config.minAvailableMemoryRequiredInMb > 0
      ensures memoryReadings == 0 && rateLimitHandlers == 0
      ensures subscribersAttached == subscribed && robotsSubscribersAttached == subscribed
      ensures Valid()
    {
      this.config := config;
      this.decisionMaker := decisionMaker;
      this.overrides := overrides;
      this.isInternalDecisionMaker := isInternalDecisionMaker;
      this.env := env;
      robotsSubscribersAttached := subscribed;
      ctx := InitialContext;
      cancellationRequested := false;
      frontier := [];
      known := {};
      crawlComplete := false;
      crawlStopReported := false;
      crawlCancellationReported := false;
      maxPagesToCrawlLimitReachedOrScheduled := false;
      errorException := None;
      memoryManagerActive := config.maxMemoryUsageInMb > 0 || config.minAvailableMemoryRequiredInMb > 0;
      memoryReadings := 0;
      threadManagerAborted := false;
      subscribersAttached := subscribed;
      rateLimitHandlers := 0;
      robotsDotText := None;
      log := [];
      asked := [];
      accepted := [];
      visited := [];
      offered := [];
      taken := [];
    }

    /** CancellationTokenSource.Cancel(), called by the crawler's user. */
    method Cancel()
      modifies this`cancellationRequested
      ensures cancellationRequested
    {
      cancellationRequested := true;
    }

    /** IsInternalUri: internal to the current root or to the root the crawl started from. */
    predicate IsInternalUri(uri: Uri)
      reads this
      requires Running()
      ensures isInternalDecisionMaker(uri, ctx.rootUri.value) || isInternalDecisionMaker(uri, ctx.originalRootUri.value) ==> IsInternalUri(uri)
      ensures ctx.rootUri == ctx.originalRootUri ==> (IsInternalUri(uri) <==> isInternalDecisionMaker(uri, ctx.rootUri.value))
    {
      CrawlRules.IsInternalUri(isInternalDecisionMaker, ctx.rootUri.value, ctx.originalRootUri.value, uri)
    }

    /** What raising an event adds to the log: nothing once the handlers are detached. */
    function Notified(e: Event): seq<Event>
      reads this`subscribersAttached
    {
      if subscribersAttached then [e] else []
    }

    method Notify(e: Event)
      modifies this`log
      ensures log == old(log) + Notified(e)
      ensures old(log) <= log
    {
      if subscribersAttached {
        log := log + [e];
      }
    }

    /** The calls one decision makes: the decision maker, then the override only when it accepted. */
    static function Consulted(kind: DecisionKind, uri: Uri, builtIn: CrawlDecision, hasOverride: bool): seq<Event> {
      [DecisionMakerConsulted(kind, uri)] + (if builtIn.allow && hasOverride then [OverrideConsulted(kind, uri)] else [])
    }

    /** Appends events that are recorded whoever listens: calls made and handlers that always run. */
    method Record(calls: seq<Event>)
      modifies this`log
      ensures log == old(log) + calls
      ensures old(log) <= log
    {
      log := log + calls;
    }

    /** SignalCrawlStopIfNeeded. */
    method SignalCrawlStopIfNeeded(decision: CrawlDecision)
      modifies this`ctx
      ensures ctx == CrawlRules.SignalStop(old(ctx), decision)
      ensures FlagsRaised(old(ctx), ctx)
    {
      if decision.shouldHardStopCrawl {
        ctx := ctx.(isCrawlHardStopRequested := decision.shouldHardStopCrawl);
      } else if decision.shouldStopCrawl {
        ctx := ctx.(isCrawlStopRequested := decision.shouldStopCrawl);
      }
    }

    /** The effect of WebCrawler.ShouldCrawlPage, from the latch, context and log it started with. */
    ghost predicate BaseCrawlPageOutcome(page: PageToCrawl, latch0: bool, ctx0: CrawlContext, log0: seq<Event>, allow: bool)
      reads this`maxPagesToCrawlLimitReachedOrScheduled, this`ctx, this`log, this`subscribersAttached
    {
      if latch0 then
        !allow && maxPagesToCrawlLimitReachedOrScheduled && ctx == ctx0 && log == log0
      else
        var builtIn := decisionMaker.shouldCrawlPage(page, ctx0);
        if CrawlRules.IsMaxPagesDenial(builtIn) then
          && !allow && maxPagesToCrawlLimitReachedOrScheduled && ctx == ctx0
          && log == log0 + [DecisionMakerConsulted(CrawlPageKind, page.uri)]
        else
          var d := CrawlRules.ChainDecisions(builtIn, overrides.shouldCrawlPage, page, ctx0);
          && allow == d.allow
          && !maxPagesToCrawlLimitReachedOrScheduled
          && ctx == CrawlRules.SignalStop(ctx0, d)
          && log == log0 + Consulted(CrawlPageKind, page.uri, builtIn, overrides.shouldCrawlPage.Some?)
                         + (if d.allow then [] else Notified(PageCrawlDisallowed(page.uri, d.reason)))
    }

    /**
     * WebCrawler.ShouldCrawlPage: refuses everything once the MaxPagesToCrawl limit has been
     * met (without consulting anyone again); otherwise chains the decision maker and the
     * override, raises PageCrawlDisallowed on refusal and signals a requested stop.
     */
    method BaseShouldCrawlPage(page: PageToCrawl) returns (allow: bool)
      modifies this`maxPagesToCrawlLimitReachedOrScheduled, this`ctx, this`log, this`asked, this`accepted
      ensures BaseCrawlPageOutcome(page, old(maxPagesToCrawlLimitReachedOrScheduled), old(ctx), old(log), allow)
      ensures asked == old(asked) + (if old(maxPagesToCrawlLimitReachedOrScheduled) then [] else [page.uri])
      ensures accepted == old(accepted) + (if allow then [page] else [])
      ensures FlagsRaised(old(ctx), ctx)
      ensures allow ==> !old(maxPagesToCrawlLimitReachedOrScheduled)
      ensures old(maxPagesToCrawlLimitReachedOrScheduled) ==> maxPagesToCrawlLimitReachedOrScheduled
      ensures old(log) <= log
    {
      if maxPagesToCrawlLimitReachedOrScheduled {
        return false;
      }
      var builtIn := decisionMaker.shouldCrawlPage(page, ctx);
      asked := asked + [page.uri];
      if CrawlRules.IsMaxPagesDenial(builtIn) {
        log := log + [DecisionMakerConsulted(CrawlPageKind, page.uri)];
        maxPagesToCrawlLimitReachedOrScheduled := true;
        return false;
      }
      var decision := CrawlRules.ChainDecisions(builtIn, overrides.shouldCrawlPage, page, ctx);
      Record(Consulted(CrawlPageKind, page.uri, builtIn, overrides.shouldCrawlPage.Some?));
      if !decision.allow {
        Notify(PageCrawlDisallowed(page.uri, decision.reason));
      }
      SignalCrawlStopIfNeeded(decision);
      if decision.allow {
        accepted := accepted + [page];
      }
      return decision.allow;
    }

    /** The effect of PoliteWebCrawler.ShouldCrawlPage. */
    ghost predicate CrawlPageOutcome(page: PageToCrawl, latch0: bool, ctx0: CrawlContext, log0: seq<Event>,
                                     robots0: Option<Politeness.RobotsDotText>, allow: bool)
      reads this`maxPagesToCrawlLimitReachedOrScheduled, this`ctx, this`log, this`subscribersAttached, this`robotsDotText
    {
      var verdict := Politeness.CheckRobots(robots0, page, config);
      if verdict.Deny? then
        && !allow && maxPagesToCrawlLimitReachedOrScheduled == latch0 && ctx == ctx0 && robotsDotText == robots0
        && log == log0 + Notified(PageCrawlDisallowed(page.uri, Politeness.RobotsDisallowedReason(page)))
      else
        && robotsDotText == (if verdict.ignoreRobotsFromNowOn then None else robots0)
        && BaseCrawlPageOutcome(page, latch0, ctx0, log0, allow)
    }

    /**
     * PoliteWebCrawler.ShouldCrawlPage: robots.txt may refuse the page (raising
     * PageCrawlDisallowed, without consulting the decision maker) or, for the root page
     * with IsIgnoreRobotsDotTextIfRootDisallowedEnabled, be dropped; then the base rule decides.
     */
    method ShouldCrawlPage(page: PageToCrawl) returns (allow: bool)
      modifies this`maxPagesToCrawlLimitReachedOrScheduled, this`ctx, this`log, this`asked, this`accepted, this`robotsDotText
      ensures CrawlPageOutcome(page, old(maxPagesToCrawlLimitReachedOrScheduled), old(ctx), old(log), old(robotsDotText), allow)
      ensures asked == old(asked) +
        (if Politeness.CheckRobots(old(robotsDotText), page, config).Deny? || old(maxPagesToCrawlLimitReachedOrScheduled) then [] else [page.uri])
      ensures FlagsRaised(old(ctx), ctx)
      ensures allow ==> !Politeness.CheckRobots(old(robotsDotText), page, config).Deny? && !old(maxPagesToCrawlLimitReachedOrScheduled)
      ensures allow ==> asked == old(asked) + [page.uri]
      ensures accepted == old(accepted) + (if allow then [page] else [])
      ensures old(maxPagesToCrawlLimitReachedOrScheduled) ==> maxPagesToCrawlLimitReachedOrScheduled
      ensures old(log) <= log
      ensures robotsDotText.Some? ==> old(robotsDotText).Some?
    {
      var verdict := Politeness.CheckRobots(robotsDotText, page, config);
      if verdict.Deny? {
        Notify(PageCrawlDisallowed(page.uri, Politeness.RobotsDisallowedReason(page)));
        return false;
      }
      if verdict.ignoreRobotsFromNowOn {
        robotsDotText := None;
      }
      ghost var ctx0, log0 := ctx, log;
      allow := BaseShouldCrawlPage(page);
      assert BaseCrawlPageOutcome(page, old(maxPagesToCrawlLimitReachedOrScheduled), ctx0, log0, allow);
    }

    /** Without robots.txt rules the polite ShouldCrawlPage decides exactly as the base one. */
    lemma WithoutRobotsDecidesAsBase(page: PageToCrawl, latch0: bool, ctx0: CrawlContext, log0: seq<Event>, allow: bool)
      ensures CrawlPageOutcome(page, latch0, ctx0, log0, None, allow)
          <==> robotsDotText.None? && BaseCrawlPageOutcome(page, latch0, ctx0, log0, allow)
    {
      Politeness.NoRobotsNeverDenies(page, config);
    }

    /** The effect of ShouldSchedulePageLink: an ineligible page is refused without consulting anyone. */
    ghost predicate ScheduleOutcome(page: PageToCrawl, latch0: bool, ctx0: CrawlContext, log0: seq<Event>,
                                    robots0: Option<Politeness.RobotsDotText>, allow: bool)
      reads this`maxPagesToCrawlLimitReachedOrScheduled, this`ctx, this`log, this`subscribersAttached, this`robotsDotText
    {
      if page.isInternal || config.isExternalPageCrawlingEnabled then
        CrawlPageOutcome(page, latch0, ctx0, log0, robots0, allow)
      else
        && !allow && maxPagesToCrawlLimitReachedOrScheduled == latch0
        && ctx == ctx0 && log == log0 && robotsDotText == robots0
    }

    /**
     * ShouldSchedulePageLink: the page must be internal (or external crawling enabled) and
     * ShouldCrawlPage must accept it; an accepted page was put to the decision maker.
     */
    method ShouldSchedulePageLink(page: PageToCrawl) returns (allow: bool)
      modifies this`maxPagesToCrawlLimitReachedOrScheduled, this`ctx, this`log, this`asked, this`accepted, this`offered, this`robotsDotText
      ensures ScheduleOutcome(page, old(maxPagesToCrawlLimitReachedOrScheduled), old(ctx), old(log), old(robotsDotText), allow)
      ensures offered == old(offered) + [page]
      ensures asked == old(asked) || asked == old(asked) + [page.uri]
      ensures allow ==> asked == old(asked) + [page.uri]
      ensures accepted == old(accepted) + (if allow then [page] else [])
      ensures old(log) <= log
      ensures FlagsRaised(old(ctx), ctx)
      ensures old(maxPagesToCrawlLimitReachedOrScheduled) ==> maxPagesToCrawlLimitReachedOrScheduled
      ensures robotsDotText.Some? ==> old(robotsDotText).Some?
    {
      offered := offered + [page];
      allow := false;
      if page.isInternal || config.isExternalPageCrawlingEnabled {
        allow := ShouldCrawlPage(page);
      }
    }

    /** The chained decision about a crawled page, as a function of the context it was taken in. */
    ghost function PageDecision(builtIn: (CrawledPage, CrawlContext) -> CrawlDecision,
                                override: Option<(CrawledPage, CrawlContext) -> CrawlDecision>,
                                cp: CrawledPage, ctx0: CrawlContext): CrawlDecision
    {
      CrawlRules.ChainDecisions(builtIn(cp, ctx0), override, cp, ctx0)
    }

    /**
     * One decision about a crawled page (links, recrawl, download): the decision maker,
     * then the override only when it accepted, then the stop the decision asks for.
     */
    method DecideOnCrawledPage(kind: DecisionKind, builtIn: (CrawledPage, CrawlContext) -> CrawlDecision,
                               override: Option<(CrawledPage, CrawlContext) -> CrawlDecision>, cp: CrawledPage)
      returns (d: CrawlDecision)
      requires kind != CrawlPageKind
      modifies this`ctx, this`log
      ensures d == PageDecision(builtIn, override, cp, old(ctx))
      ensures ctx == CrawlRules.SignalStop(old(ctx), d)
      ensures log == old(log) + Consulted(kind, cp.page.uri, builtIn(cp, old(ctx)), override.Some?)
      ensures FlagsRaised(old(ctx), ctx)
      ensures old(log) <= log
    {
      var first := builtIn(cp, ctx);
      d := CrawlRules.ChainDecisions(first, override, cp, ctx);
      Record(Consulted(kind, cp.page.uri, first, override.Some?));
      SignalCrawlStopIfNeeded(d);
    }

    /** ShouldCrawlPageLinks: the chained decision, with PageLinksCrawlDisallowed raised on refusal. */
    method ShouldCrawlPageLinks(cp: CrawledPage) returns (allow: bool)
      modifies this`ctx, this`log
      ensures var d := PageDecision(decisionMaker.shouldCrawlPageLinks, overrides.shouldCrawlPageLinks, cp, old(ctx));
        && allow == d.allow
        && ctx == CrawlRules.SignalStop(old(ctx), d)
        && log == old(log) + Consulted(CrawlPageLinksKind, cp.page.uri, decisionMaker.shouldCrawlPageLinks(cp, old(ctx)), overrides.shouldCrawlPageLinks.Some?)
                           + (if d.allow then [] else Notified(PageLinksCrawlDisallowed(cp.page.uri, d.reason)))
      ensures FlagsRaised(old(ctx), ctx)
      ensures old(log) <= log
    {
      var d := DecideOnCrawledPage(CrawlPageLinksKind, decisionMaker.shouldCrawlPageLinks, overrides.shouldCrawlPageLinks, cp);
      if !d.allow {
        Notify(PageLinksCrawlDisallowed(cp.page.uri, d.reason));
      }
      allow := d.allow;
    }

    /** ShouldRecrawlPage: the chained decision (the Retry-After bookkeeping is not modelled). */
    method ShouldRecrawlPage(cp: CrawledPage) returns (allow: bool)
      modifies this`ctx, this`log
      ensures var d := PageDecision(decisionMaker.shouldRecrawlPage, overrides.shouldRecrawlPage, cp, old(ctx));
        && allow == d.allow
        && ctx == CrawlRules.SignalStop(old(ctx), d)
        && log == old(log) + Consulted(RecrawlPageKind, cp.page.uri, decisionMaker.shouldRecrawlPage(cp, old(ctx)), overrides.shouldRecrawlPage.Some?)
      ensures FlagsRaised(old(ctx), ctx)
      ensures old(log) <= log
    {
      var d := DecideOnCrawledPage(RecrawlPageKind, decisionMaker.shouldRecrawlPage, overrides.shouldRecrawlPage, cp);
      allow := d.allow;
    }

    /** AddPageToContext: a retry only counts one more attempt; a new page counts once overall and once for its domain. */
    method AddPageToContext(page: PageToCrawl) returns (counted: PageToCrawl)
      modifies this`ctx
      ensures page.isRetry ==> counted == page.(retryCount := page.retryCount + 1) && ctx == old(ctx)
      ensures !page.isRetry ==> counted == page && ctx == old(ctx).(
        crawledCount := old(ctx.crawledCount) + 1,
        crawlCountByDomain := CrawlRules.CountDomain(old(ctx.crawlCountByDomain), page.uri.authority))
    {
      if page.isRetry {
        return page.(retryCount := page.retryCount + 1);
      }
      ctx := ctx.(crawledCount := ctx.crawledCount + 1,
                  crawlCountByDomain := CrawlRules.CountDomain(ctx.crawlCountByDomain, page.uri.authority));
      return page;
    }

    /** What raising PageCrawlStarting adds to the log: the user handlers, then one rate-limit call per polite crawl. */
    function StartingEvents(uri: Uri): seq<Event>
      reads this
    {
      Notified(PageCrawlStarting(uri)) + Repeat(RateLimited(uri), rateLimitHandlers)
    }

    method FirePageCrawlStarting(uri: Uri)
      modifies this`log
      ensures log == old(log) + StartingEvents(uri)
      ensures old(log) <= log
    {
      Notify(PageCrawlStarting(uri));
      Record(Repeat(RateLimited(uri), rateLimitHandlers));
    }

    /**
     * CrawlThePageAsync: raises PageCrawlStarting, requests the page, and (when there is a
     * response) lets ShouldDownloadPageContent decide whether its content is kept; the
     * scheduled page's members then replace the requester's, with the bags combined.
     */
    method CrawlThePage(page: PageToCrawl) returns (r: Result<CrawledPage, Fault>)
      modifies this`ctx, this`log
      ensures var requested := old(log) + old(StartingEvents(page.uri)) + [PageRequested(page.uri)];
        var response := env.requestPage(page.uri);
        if response.Failure? then
          r == Failure(response.error) && ctx == old(ctx) && log == requested
        else if response.value.response.None? then
          r == Success(CrawlRules.InheritFromPageToCrawl(page, response.value)) && ctx == old(ctx) && log == requested
        else
          var raw := response.value;
          var d := PageDecision(decisionMaker.shouldDownloadPageContent, overrides.shouldDownloadPageContent, raw, old(ctx));
          && r == Success(CrawlRules.InheritFromPageToCrawl(page, if d.allow then raw else raw.(contentBytes := None)))
          && ctx == CrawlRules.SignalStop(old(ctx), d)
          && log == requested + Consulted(DownloadPageContentKind, raw.page.uri,
                                          decisionMaker.shouldDownloadPageContent(raw, old(ctx)), overrides.shouldDownloadPageContent.Some?)
      ensures FlagsRaised(old(ctx), ctx)
      ensures old(log) <= log
    {
      FirePageCrawlStarting(page.uri);
      Record([PageRequested(page.uri)]);
      var response := env.requestPage(page.uri);
      if response.Failure? {
        return Failure(response.error);
      }
      var raw := response.value;
      if raw.response.Some? {
        var d := DecideOnCrawledPage(DownloadPageContentKind, decisionMaker.shouldDownloadPageContent, overrides.shouldDownloadPageContent, raw);
        if !d.allow {
          raw := raw.(contentBytes := None);
        }
      }
      return Success(CrawlRules.InheritFromPageToCrawl(page, raw));
    }

    /**
     * ValidateRootUriForRedirection: only the root page may be validated; a redirected
     * root makes its target the new root uri (the original root is kept).
     */
    method ValidateRootUriForRedirection(cp: CrawledPage) returns (fault: Option<Fault>)
      modifies this`ctx
      ensures !cp.page.isRoot ==> fault == Some(ArgumentException(NotRootMessage)) && ctx == old(ctx)
      ensures cp.page.isRoot && !CrawlRules.IsRedirect(config, cp) ==> fault.None? && ctx == old(ctx)
      ensures cp.page.isRoot && CrawlRules.IsRedirect(config, cp) ==>
        var target := CrawlRules.ExtractRedirectUri(config, env.resolveLocation, cp);
        if target.Success? then fault.None? && ctx == old(ctx).(rootUri := Some(target.value))
        else fault == Some(target.error) && ctx == old(ctx)
    {
      if !cp.page.isRoot {
        return Some(ArgumentException(NotRootMessage));
      }
      if CrawlRules.IsRedirect(config, cp) {
        var target := CrawlRules.ExtractRedirectUri(config, env.resolveLocation, cp);
        if target.Failure? {
          return Some(target.error);
        }
        ctx := ctx.(rootUri := Some(target.value));
      }
      return None;
    }

    /**
     * ProcessRedirect: the redirect target becomes a page one step further down the
     * chain, linked from the redirecting page and scheduled when ShouldSchedulePageLink
     * accepts it; a target that cannot be extracted is ignored.
     */
    method ProcessRedirect(cp: CrawledPage) returns (redirected: CrawledPage)
      requires Running() && CrawlRules.IsRedirect(config, cp)
      modifies this`maxPagesToCrawlLimitReachedOrScheduled, this`ctx, this`log, this`asked, this`accepted, this`offered, this`robotsDotText, this`frontier
      ensures Running()
      ensures var target := CrawlRules.ExtractRedirectUri(config, env.resolveLocation, cp);
        if target.Failure? then
          && redirected == cp && frontier == old(frontier) && ctx == old(ctx) && log == old(log) && offered == old(offered)
          && maxPagesToCrawlLimitReachedOrScheduled == old(maxPagesToCrawlLimitReachedOrScheduled) && robotsDotText == old(robotsDotText)
        else
          var next := CrawlRules.RedirectTarget(cp.page, target.value, IsInternalUri(target.value));
          && redirected == cp.(redirectedTo := Some(next)) && offered == old(offered) + [next]
          && ((frontier == old(frontier) + [next]
               && ScheduleOutcome(next, old(maxPagesToCrawlLimitReachedOrScheduled), old(ctx), old(log), old(robotsDotText), true))
           || (frontier == old(frontier)
               && ScheduleOutcome(next, old(maxPagesToCrawlLimitReachedOrScheduled), old(ctx), old(log), old(robotsDotText), false)))
      ensures FlagsRaised(old(ctx), ctx)
      ensures old(maxPagesToCrawlLimitReachedOrScheduled) ==> maxPagesToCrawlLimitReachedOrScheduled
      ensures robotsDotText.Some? ==> old(robotsDotText).Some?
      ensures old(log) <= log && old(frontier) <= frontier
    {
      var target := CrawlRules.ExtractRedirectUri(config, env.resolveLocation, cp);
      if target.Failure? {
        return cp;
      }
      var next := CrawlRules.RedirectTarget(cp.page, target.value, IsInternalUri(target.value));
      redirected := cp.(redirectedTo := Some(next));
      var allow := ShouldSchedulePageLink(next);
      if allow {
        frontier := frontier + [next];
      }
    }

    /** Whether the ShouldScheduleLink override refuses `uri`, found on `cp`, in context `ctx0`. */
    predicate Vetoed(uri: Uri, cp: CrawledPage, ctx0: CrawlContext) {
      overrides.shouldScheduleLink.Some? && !overrides.shouldScheduleLink.value(uri, cp, ctx0)
    }

    /** The call to the ShouldScheduleLink override, when there is one. */
    function OverrideCall(uri: Uri): seq<Event> {
      if overrides.shouldScheduleLink.Some? then [OverrideConsulted(ScheduleLinkKind, uri)] else []
    }

    /**
     * One link of SchedulePageLinks that is not yet known: the ShouldScheduleLink override
     * may veto it; otherwise it becomes a child page that is put to ShouldSchedulePageLink,
     * scheduled exactly when that accepts it, and `stop` says whether MaxLinksPerPage has now
     * been reached.
     */
    method ScheduleLink(cp: CrawledPage, uri: Uri, linksToCrawl: int) returns (scheduled: bool, stop: bool, ghost consulted: bool)
      requires Running()
      modifies this`maxPagesToCrawlLimitReachedOrScheduled, this`ctx, this`log, this`asked, this`accepted, this`visited, this`offered,
               this`robotsDotText, this`frontier
      ensures Running()
      ensures visited == old(visited) + [uri]
      ensures var child := CrawlRules.LinkTarget(cp.page, uri, IsInternalUri(uri));
        && (scheduled ==> frontier == old(frontier) + [child] && consulted && (child.isInternal || config.isExternalPageCrawlingEnabled))
        && (!scheduled ==> frontier == old(frontier))
        && accepted == old(accepted) + (if scheduled then [child] else [])
      ensures Vetoed(uri, cp, old(ctx)) ==>
        && !scheduled && !consulted && !stop && frontier == old(frontier) && accepted == old(accepted) && offered == old(offered)
        && ctx == old(ctx) && log == old(log) + [OverrideConsulted(ScheduleLinkKind, uri)]
      ensures var child := CrawlRules.LinkTarget(cp.page, uri, IsInternalUri(uri));
        !Vetoed(uri, cp, old(ctx)) ==>
          && offered == old(offered) + [child]
          && ScheduleOutcome(child, old(maxPagesToCrawlLimitReachedOrScheduled), old(ctx), old(log) + OverrideCall(uri), old(robotsDotText), scheduled)
          && stop == !CrawlRules.ShouldScheduleMorePageLink(config, linksToCrawl + (if scheduled then 1 else 0))
      ensures asked == old(asked) + (if consulted then [uri] else [])
      ensures stop ==> !CrawlRules.ShouldScheduleMorePageLink(config, linksToCrawl + (if scheduled then 1 else 0))
      ensures scheduled && !stop ==> CrawlRules.ShouldScheduleMorePageLink(config, linksToCrawl + 1)
      ensures FlagsRaised(old(ctx), ctx)
      ensures old(maxPagesToCrawlLimitReachedOrScheduled) ==> maxPagesToCrawlLimitReachedOrScheduled
      ensures robotsDotText.Some? ==> old(robotsDotText).Some?
      ensures old(log) <= log
    {
      visited := visited + [uri];
      scheduled, stop, consulted := false, false, false;
      var wanted := true;
      if overrides.shouldScheduleLink.Some? {
        Record([OverrideConsulted(ScheduleLinkKind, uri)]);
        wanted := overrides.shouldScheduleLink.value(uri, cp, ctx);
      }
      if wanted {
        assert ctx == old(ctx) && log == old(log) + OverrideCall(uri);
        scheduled, stop, consulted := OfferLink(cp, uri, linksToCrawl);
      }
    }

    /**
     * The scheduling step of SchedulePageLinks for one link: its child page is put to
     * ShouldSchedulePageLink and scheduled exactly when that accepts it; `stop` says whether
     * MaxLinksPerPage has now been reached.
     */
    method OfferLink(cp: CrawledPage, uri: Uri, linksToCrawl: int) returns (scheduled: bool, stop: bool, ghost consulted: bool)
      requires Running()
      modifies this`maxPagesToCrawlLimitReachedOrScheduled, this`ctx, this`log, this`asked, this`accepted, this`offered,
               this`robotsDotText, this`frontier
      ensures Running()
      ensures var child := CrawlRules.LinkTarget(cp.page, uri, IsInternalUri(uri));
        && offered == old(offered) + [child]
        && ScheduleOutcome(child, old(maxPagesToCrawlLimitReachedOrScheduled), old(ctx), old(log), old(robotsDotText), scheduled)
        && frontier == old(frontier) + (if scheduled then [child] else [])
        && accepted == old(accepted) + (if scheduled then [child] else [])
        && (scheduled ==> consulted && (child.isInternal || config.isExternalPageCrawlingEnabled))
      ensures stop == !CrawlRules.ShouldScheduleMorePageLink(config, linksToCrawl + (if scheduled then 1 else 0))
      ensures asked == old(asked) + (if consulted then [uri] else [])
      ensures FlagsRaised(old(ctx), ctx)
      ensures old(maxPagesToCrawlLimitReachedOrScheduled) ==> maxPagesToCrawlLimitReachedOrScheduled
      ensures robotsDotText.Some? ==> old(robotsDotText).Some?
      ensures old(log) <= log
    {
      var child := CrawlRules.LinkTarget(cp.page, uri, IsInternalUri(uri));
      ghost var before := asked;
      scheduled := ShouldSchedulePageLink(child);
      consulted := asked != before;
      if scheduled {
        frontier := frontier + [child];
      }
      stop := !CrawlRules.ShouldScheduleMorePageLink(config, linksToCrawl + (if scheduled then 1 else 0));
    }

    /** The scan-relevant part of the current state. */
    ghost function Now(): ScanState
      reads this`known, this`ctx, this`frontier, this`log, this`asked, this`accepted, this`visited, this`offered,
            this`maxPagesToCrawlLimitReachedOrScheduled, this`robotsDotText
    {
      ScanState(known, frontier, ctx, log, asked, accepted, visited, offered, maxPagesToCrawlLimitReachedOrScheduled, robotsDotText.Some?)
    }

    /**
     * The loop body of SchedulePageLinks for a link that is not yet known: it goes
     * through ScheduleLink, and the scan takes it into account.
     */
    method VisitLink(cp: CrawledPage, links: seq<Uri>, i: int, count: int, ghost consulted: seq<Uri>,
                     ghost added: seq<PageToCrawl>, ghost s: ScanState)
      returns (stop: bool, newCount: int, ghost newConsulted: seq<Uri>, ghost newAdded: seq<PageToCrawl>)
      requires Scanned(config, isInternalDecisionMaker, cp, links, i, count, consulted, added, s, Now())
      requires ScanOffered(isInternalDecisionMaker, overrides.shouldScheduleLink.None?, cp, links, i, s, Now())
      requires i < |links| && links[i] !in known && known == s.known + Elements(links[..i])
      modifies this`maxPagesToCrawlLimitReachedOrScheduled, this`ctx, this`log, this`asked, this`accepted, this`visited, this`offered,
               this`robotsDotText, this`frontier
      ensures Scanned(config, isInternalDecisionMaker, cp, links, i + 1, newCount, newConsulted, newAdded, s, Now())
      ensures ScanOffered(isInternalDecisionMaker, overrides.shouldScheduleLink.None?, cp, links, i + 1, s, Now())
      ensures var child := CrawlRules.LinkTarget(cp.page, links[i], IsInternalUri(links[i]));
        !Vetoed(links[i], cp, old(ctx)) ==>
          ScheduleOutcome(child, old(maxPagesToCrawlLimitReachedOrScheduled), old(ctx), old(log) + OverrideCall(links[i]), old(robotsDotText),
                          newCount == count + 1)
      ensures stop ==> !CrawlRules.ShouldScheduleMorePageLink(config, newCount)
      ensures config.maxLinksPerPage > 0 && count < config.maxLinksPerPage ==>
        newCount <= config.maxLinksPerPage && (!stop ==> newCount < config.maxLinksPerPage)
    {
      var uri := links[i];
      ghost var p0 := Now();
      var scheduled;
      ghost var wasConsulted;
      scheduled, stop, wasConsulted := ScheduleLink(cp, uri, count);
      ghost var child := ScanTakesLink(config, isInternalDecisionMaker, cp, links, i, count, consulted, added, s, p0, Now(), scheduled, wasConsulted);
      OfferTakesLink(isInternalDecisionMaker, overrides.shouldScheduleLink.None?, cp, links, i, s, p0, Now());
      newConsulted := consulted + (if wasConsulted then [links[i]] else []);
      newAdded := added + (if scheduled then [child] else []);
      newCount := count + (if scheduled then 1 else 0);
    }

    /**
     * One turn of the SchedulePageLinks loop: a link not yet known goes through ScheduleLink;
     * unless that reached MaxLinksPerPage, the link then becomes known.
     */
    method ScanLink(cp: CrawledPage, links: seq<Uri>, i: int, count: int, ghost consulted: seq<Uri>,
                    ghost added: seq<PageToCrawl>, ghost s: ScanState)
      returns (stop: bool, newCount: int, ghost newConsulted: seq<Uri>, ghost newAdded: seq<PageToCrawl>)
      requires Scanned(config, isInternalDecisionMaker, cp, links, i, count, consulted, added, s, Now())
      requires ScanOffered(isInternalDecisionMaker, overrides.shouldScheduleLink.None?, cp, links, i, s, Now())
      requires i < |links| && known == s.known + Elements(links[..i])
      requires config.maxLinksPerPage > 0 ==> count < config.maxLinksPerPage
      modifies this`maxPagesToCrawlLimitReachedOrScheduled, this`ctx, this`log, this`asked, this`accepted, this`visited, this`offered,
               this`robotsDotText, this`frontier, this`known
      ensures Scanned(config, isInternalDecisionMaker, cp, links, i + 1, newCount, newConsulted, newAdded, s, Now())
      ensures ScanOffered(isInternalDecisionMaker, overrides.shouldScheduleLink.None?, cp, links, i + 1, s, Now())
      ensures stop ==> known == old(known) && !CrawlRules.ShouldScheduleMorePageLink(config, newCount)
      ensures !stop ==> known == s.known + Elements(links[..i + 1])
      ensures config.maxLinksPerPage > 0 ==> newCount <= config.maxLinksPerPage && (!stop ==> newCount < config.maxLinksPerPage)
    {
      var uri := links[i];
      if uri !in known {
        stop, newCount, newConsulted, newAdded := VisitLink(cp, links, i, count, consulted, added, s);
      } else {
        stop, newCount, newConsulted, newAdded := false, count, consulted, added;
        ScanPassesKnownLink(config, isInternalDecisionMaker, cp, links, i, count, consulted, added, s, Now());
        OfferPassesKnownLink(isInternalDecisionMaker, overrides.shouldScheduleLink.None?, cp, links, i, s, Now());
      }
      if !stop {
        ElementsOfPrefix(links, i);
        known := known + {uri};
      }
    }

    /**
     * SchedulePageLinks: each parsed link not yet known goes through ScheduleLink, and
     * every link visited becomes known, so no link is put to the decision maker twice.
     * Once MaxLinksPerPage pages are scheduled the loop stops, before the link that
     * reached the limit is marked known.
     */
    method SchedulePageLinks(cp: CrawledPage) returns (ghost processed: nat, ghost consulted: seq<Uri>, ghost added: seq<PageToCrawl>)
      requires Running() && cp.parsedLinks.Some?
      modifies this`maxPagesToCrawlLimitReachedOrScheduled, this`ctx, this`log, this`asked, this`accepted, this`visited, this`offered,
               this`robotsDotText, this`frontier, this`known
      ensures Running()
      ensures processed <= |cp.parsedLinks.value|
      ensures known == old(known) + Elements(cp.parsedLinks.value[..processed])
      ensures var seen := if processed < |cp.parsedLinks.value| then processed + 1 else processed;
        visited == old(visited) + NewLinks(cp.parsedLinks.value[..seen], old(known))
      ensures old(offered) <= offered
      ensures overrides.shouldScheduleLink.None? ==>
        offered == old(offered) + Children(cp.page, isInternalDecisionMaker, old(ctx).rootUri.value, old(ctx).originalRootUri.value,
                                           visited[|old(visited)|..])
      ensures frontier == old(frontier) + added && accepted == old(accepted) + added
      ensures processed < |cp.parsedLinks.value| ==> !CrawlRules.ShouldScheduleMorePageLink(config, |added|)
      ensures config.maxLinksPerPage > 0 ==> |added| <= config.maxLinksPerPage
      ensures forall k :: 0 <= k < |added| ==>
        && added[k] == CrawlRules.LinkTarget(cp.page, added[k].uri, IsInternalUri(added[k].uri))
        && (added[k].isInternal || config.isExternalPageCrawlingEnabled)
        && added[k].uri in consulted
      ensures asked == old(asked) + consulted
      ensures NoDuplicates(consulted)
      ensures forall u :: u in consulted ==> u in cp.parsedLinks.value && u !in old(known)
      ensures FlagsRaised(old(ctx), ctx)
      ensures old(maxPagesToCrawlLimitReachedOrScheduled) ==> maxPagesToCrawlLimitReachedOrScheduled
      ensures robotsDotText.Some? ==> old(robotsDotText).Some?
      ensures old(log) <= log
    {
      ghost var s := Now();
      ghost var scanned;
      processed, scanned, consulted, added := ScanLinks(cp, s);
      ScanOfferedResult(isInternalDecisionMaker, overrides.shouldScheduleLink.None?, cp, cp.parsedLinks.value, scanned, s, Now());
    }

    /**
     * The loop of SchedulePageLinks, from the state `s` it starts in: `processed` links are
     * marked known, and `scanned` links were looked at, one more when the loop stopped at
     * MaxLinksPerPage.
     */
    method ScanLinks(cp: CrawledPage, ghost s: ScanState)
      returns (processed: nat, ghost scanned: nat, ghost consulted: seq<Uri>, ghost added: seq<PageToCrawl>)
      requires Running() && cp.parsedLinks.Some? && s == Now()
      modifies this`maxPagesToCrawlLimitReachedOrScheduled, this`ctx, this`log, this`asked, this`accepted, this`visited, this`offered,
               this`robotsDotText, this`frontier, this`known
      ensures Scanned(config, isInternalDecisionMaker, cp, cp.parsedLinks.value, scanned, |added|, consulted, added, s, Now())
      ensures ScanOffered(isInternalDecisionMaker, overrides.shouldScheduleLink.None?, cp, cp.parsedLinks.value, scanned, s, Now())
      ensures processed <= |cp.parsedLinks.value| && known == s.known + Elements(cp.parsedLinks.value[..processed])
      ensures scanned == if processed < |cp.parsedLinks.value| then processed + 1 else processed
      ensures processed < |cp.parsedLinks.value| ==> !CrawlRules.ShouldScheduleMorePageLink(config, |added|)
      ensures config.maxLinksPerPage > 0 ==> |added| <= config.maxLinksPerPage
    {
      var links := cp.parsedLinks.value;
      var linksToCrawl := 0;
      var i := 0;
      var stopped := false;
      consulted, added := [], [];
      scanned := 0;
      assert links[..0] == [];
      while i < |links| && !stopped
        invariant Scanned(config, isInternalDecisionMaker, cp, links, scanned, linksToCrawl, consulted, added, s, Now())
        invariant ScanOffered(isInternalDecisionMaker, overrides.shouldScheduleLink.None?, cp, links, scanned, s, Now())
        invariant 0 <= i <= |links| && known == s.known + Elements(links[..i])
        invariant scanned == if stopped then i + 1 else i
        invariant stopped ==> !CrawlRules.ShouldScheduleMorePageLink(config, linksToCrawl)
        invariant config.maxLinksPerPage > 0 ==> linksToCrawl <= config.maxLinksPerPage
        invariant config.maxLinksPerPage > 0 && !stopped ==> linksToCrawl < config.maxLinksPerPage
        decreases |links| - i, !stopped
      {
        stopped, linksToCrawl, consulted, added := ScanLink(cp, links, i, linksToCrawl, consulted, added, s);
        scanned := i + 1;
        if !stopped {
          i := i + 1;
        }
      }
      processed := i;
    }

    /** The catch-all of ProcessPageAsync: the exception becomes the crawl's error and hard-stops the crawl. */
    method RecordError(e: Fault)
      modifies this`errorException, this`ctx
      ensures errorException == Some(e)
      ensures ctx == old(ctx).(isCrawlHardStopRequested := true)
    {
      errorException := Some(e);
      ctx := ctx.(isCrawlHardStopRequested := true);
    }

    /**
     * ProcessPageAsync: count the page, request it, re-root on a redirected root, follow a
     * manual redirect, skip an oversized page, parse and schedule its links as decided,
     * raise PageCrawlCompleted and schedule it again when a recrawl is wanted. Any
     * exception on the way is recorded and hard-stops the crawl; a requested cancellation
     * ends the page before anything happens.
     */
    method ProcessPage(page: PageToCrawl)
      requires Running() && Valid()
      modifies this`ctx, this`log, this`asked, this`accepted, this`visited, this`offered, this`taken, this`frontier, this`known, this`maxPagesToCrawlLimitReachedOrScheduled,
               this`robotsDotText, this`errorException
      ensures Running() && Valid()
      ensures taken == old(taken) + [page]
      ensures ctx.originalRootUri == old(ctx.originalRootUri)
      ensures old(cancellationRequested) ==>
        && ctx == old(ctx) && log == old(log) && asked == old(asked) && frontier == old(frontier)
        && known == old(known) && errorException == old(errorException)
      ensures !old(cancellationRequested) ==>
        && ctx.crawledCount == old(ctx.crawledCount) + (if page.isRetry then 0 else 1)
        && ctx.crawlCountByDomain == (if page.isRetry then old(ctx.crawlCountByDomain)
                                      else CrawlRules.CountDomain(old(ctx.crawlCountByDomain), page.uri.authority))
      ensures !old(cancellationRequested) && env.requestPage(page.uri).Failure? ==>
        && errorException == Some(env.requestPage(page.uri).error) && ctx.isCrawlHardStopRequested
        && frontier == old(frontier) && known == old(known) && asked == old(asked)
      ensures old(ctx.isCrawlStopRequested) ==> ctx.isCrawlStopRequested
      ensures old(ctx.isCrawlHardStopRequested) ==> ctx.isCrawlHardStopRequested
      ensures errorException != old(errorException) ==> ctx.isCrawlHardStopRequested
      ensures old(frontier) <= frontier
    {
      taken := taken + [page];
      if cancellationRequested {
        return;
      }
      var counted := AddPageToContext(page);
      var crawled := CrawlThePage(counted);
      if crawled.Failure? {
        RecordError(crawled.error);
        return;
      }
      ProcessCrawledPage(crawled.value);
    }

    /**
     * ProcessPageAsync once the page is crawled: a redirected root re-roots the crawl
     * (and a root whose redirect cannot be read is an error), a manual redirect is
     * followed, and an oversized page goes no further.
     */
    method ProcessCrawledPage(crawled: CrawledPage)
      requires Running()
      modifies this`ctx, this`log, this`asked, this`accepted, this`visited, this`offered, this`frontier, this`known, this`maxPagesToCrawlLimitReachedOrScheduled,
               this`robotsDotText, this`errorException
      ensures Rerooted(old(ctx), ctx)
      ensures errorException != old(errorException) ==> ctx.isCrawlHardStopRequested
      ensures old(frontier) <= frontier
    {
      var cp := crawled;
      if cp.page.isRoot {
        var fault := ValidateRootUriForRedirection(cp);
        if fault.Some? {
          RecordError(fault.value);
          return;
        }
      }
      if CrawlRules.IsRedirect(config, cp) && !config.isHttpRequestAutoRedirectsEnabled {
        cp := ProcessRedirect(cp);
      }
      if !CrawlRules.PageSizeIsAboveMax(config, cp) {
        ProcessPageLinks(cp);
      }
    }

    /**
     * The end of ProcessPageAsync: the links are parsed when ShouldCrawlPageLinks accepts
     * or parsing is forced, and scheduled only when it accepts; then PageCrawlCompleted is
     * raised and the page is scheduled again, as a retry, when ShouldRecrawlPage accepts.
     */
    method ProcessPageLinks(crawled: CrawledPage)
      requires Running()
      modifies this`ctx, this`log, this`asked, this`accepted, this`visited, this`offered, this`frontier, this`known, this`maxPagesToCrawlLimitReachedOrScheduled,
               this`robotsDotText, this`errorException
      ensures FlagsRaised(old(ctx), ctx)
      ensures errorException != old(errorException) ==> ctx.isCrawlHardStopRequested
      ensures old(frontier) <= frontier
    {
      var cp := crawled;
      var shouldCrawlLinks := ShouldCrawlPageLinks(cp);
      if shouldCrawlLinks || config.isForcedLinkParsingEnabled {
        var links := env.parseLinks(cp);
        if links.Failure? {
          RecordError(links.error);
          return;
        }
        cp := cp.(parsedLinks := Some(links.value));
      }
      if shouldCrawlLinks {
        ghost var processed, consulted, added := SchedulePageLinks(cp);
      }
      Notify(PageCrawlCompleted(cp.page.uri));
      var recrawl := ShouldRecrawlPage(cp);
      if recrawl {
        frontier := frontier + [cp.page.(isRetry := true)];
      }
    }

    /** Whether CheckMemoryUsage finds the process above MaxMemoryUsageInMb on this reading. */
    predicate MemoryExceeded()
      reads this
    {
      && memoryManagerActive && !ctx.isCrawlHardStopRequested && config.maxMemoryUsageInMb >= 1
      && env.memoryUsageInMb(memoryReadings) > config.maxMemoryUsageInMb
    }

    /**
     * CheckMemoryUsage: with a memory manager, no hard stop and a positive limit, takes a
     * reading; above the limit the manager is dropped, the error is recorded and the
     * crawl is hard-stopped.
     */
    method CheckMemoryUsage()
      modifies this`memoryManagerActive, this`memoryReadings, this`errorException, this`ctx
      ensures var took := old(memoryManagerActive) && !old(ctx.isCrawlHardStopRequested) && config.maxMemoryUsageInMb >= 1;
        memoryReadings == old(memoryReadings) + (if took then 1 else 0)
      ensures old(MemoryExceeded()) ==>
        && !memoryManagerActive && ctx == old(ctx).(isCrawlHardStopRequested := true)
        && errorException == Some(MemoryUsageAboveMax(env.memoryUsageInMb(old(memoryReadings)), config.maxMemoryUsageInMb))
      ensures !old(MemoryExceeded()) ==>
        memoryManagerActive == old(memoryManagerActive) && ctx == old(ctx) && errorException == old(errorException)
    {
      if !memoryManagerActive || ctx.isCrawlHardStopRequested || config.maxMemoryUsageInMb < 1 {
        return;
      }
      var currentMemoryUsage := env.memoryUsageInMb(memoryReadings);
      memoryReadings := memoryReadings + 1;
      if currentMemoryUsage > config.maxMemoryUsageInMb {
        memoryManagerActive := false;
        errorException := Some(MemoryUsageAboveMax(currentMemoryUsage, config.maxMemoryUsageInMb));
        ctx := ctx.(isCrawlHardStopRequested := true);
      }
    }

    /** CheckForCancellationRequest: a cancellation is reported once, as the crawl's error, with a hard stop. */
    method CheckForCancellationRequest()
      modifies this`errorException, this`ctx, this`crawlCancellationReported
      ensures cancellationRequested && !old(crawlCancellationReported) ==>
        && errorException == Some(OperationCanceledException) && ctx == old(ctx).(isCrawlHardStopRequested := true)
        && crawlCancellationReported
      ensures !(cancellationRequested && !old(crawlCancellationReported)) ==>
        errorException == old(errorException) && ctx == old(ctx) && crawlCancellationReported == old(crawlCancellationReported)
    {
      if cancellationRequested && !crawlCancellationReported {
        errorException := Some(OperationCanceledException);
        ctx := ctx.(isCrawlHardStopRequested := true);
        crawlCancellationReported := true;
      }
    }

    /**
     * CheckForHardStopRequest: on a hard stop the scheduler is cleared, the thread manager
     * aborted and every page event handler (rate limiting included) detached.
     */
    method CheckForHardStopRequest()
      modifies this`crawlStopReported, this`frontier, this`threadManagerAborted, this`subscribersAttached, this`rateLimitHandlers
      ensures ctx.isCrawlHardStopRequested ==>
        crawlStopReported && frontier == [] && threadManagerAborted && !subscribersAttached && rateLimitHandlers == 0
      ensures !ctx.isCrawlHardStopRequested ==>
        && crawlStopReported == old(crawlStopReported) && frontier == old(frontier) && threadManagerAborted == old(threadManagerAborted)
        && subscribersAttached == old(subscribersAttached) && rateLimitHandlers == old(rateLimitHandlers)
    {
      if ctx.isCrawlHardStopRequested {
        crawlStopReported := true;
        frontier := [];
        threadManagerAborted := true;
        subscribersAttached := false;
        rateLimitHandlers := 0;
      }
    }

    /** CheckForStopRequest: on a stop the scheduler is cleared; pages already under way finish. */
    method CheckForStopRequest()
      modifies this`crawlStopReported, this`frontier
      ensures ctx.isCrawlStopRequested ==> crawlStopReported && frontier == []
      ensures !ctx.isCrawlStopRequested ==> crawlStopReported == old(crawlStopReported) && frontier == old(frontier)
    {
      if ctx.isCrawlStopRequested {
        crawlStopReported := true;
        frontier := [];
      }
    }

    /**
     * RunPreWorkChecks: afterwards the crawl is hard-stopped exactly when it was before, or
     * memory ran over, or a cancellation was newly reported; a hard stop or a stop leaves
     * nothing scheduled, and without either nothing but the memory bookkeeping changed.
     */
    method RunPreWorkChecks()
      requires Valid()
      modifies this`memoryManagerActive, this`memoryReadings, this`errorException, this`ctx, this`crawlCancellationReported,
               this`crawlStopReported, this`frontier, this`threadManagerAborted, this`subscribersAttached, this`rateLimitHandlers
      ensures Valid()
      ensures ctx.isCrawlHardStopRequested <==>
        old(ctx.isCrawlHardStopRequested) || old(MemoryExceeded()) || (cancellationRequested && !old(crawlCancellationReported))
      ensures ctx == old(ctx).(isCrawlHardStopRequested := ctx.isCrawlHardStopRequested)
      ensures ctx.isCrawlHardStopRequested ==>
        crawlStopReported && frontier == [] && threadManagerAborted && !subscribersAttached && rateLimitHandlers == 0
      ensures ctx.isCrawlStopRequested ==> crawlStopReported && frontier == []
      ensures !ctx.isCrawlHardStopRequested && !ctx.isCrawlStopRequested ==>
        && crawlStopReported == old(crawlStopReported) && frontier == old(frontier) && threadManagerAborted == old(threadManagerAborted)
        && subscribersAttached == old(subscribersAttached) && rateLimitHandlers == old(rateLimitHandlers)
      ensures cancellationRequested && !old(crawlCancellationReported) ==> errorException == Some(OperationCanceledException)
      ensures errorException != old(errorException) ==> ctx.isCrawlHardStopRequested
      ensures old(threadManagerAborted) ==> threadManagerAborted
    {
      CheckMemoryUsage();
      CheckForCancellationRequest();
      CheckForHardStopRequest();
      CheckForStopRequest();
    }

    /**
     * CrawlSite with one worker: run the pre-work checks, then process the next scheduled
     * page, or finish when nothing is scheduled. A thread manager already aborted refuses
     * the work. `fuel` bounds the number of rounds.
     */
    method CrawlSite(fuel: nat) returns (fault: Option<Fault>)
      requires Running() && Valid()
      modifies this`ctx, this`log, this`asked, this`accepted, this`visited, this`offered, this`taken, this`frontier, this`known, this`maxPagesToCrawlLimitReachedOrScheduled,
               this`robotsDotText, this`errorException, this`memoryManagerActive, this`memoryReadings,
               this`crawlCancellationReported, this`crawlStopReported, this`threadManagerAborted, this`subscribersAttached,
               this`rateLimitHandlers, this`crawlComplete
      ensures Running() && Valid()
      ensures ctx.originalRootUri == old(ctx.originalRootUri)
      ensures fault.Some? ==> fault == Some(InvalidOperationException(DoWorkAfterAbortMessage)) && old(threadManagerAborted)
      ensures fault.None? && crawlComplete && !old(crawlComplete) ==> frontier == []
      ensures old(taken) <= taken
      ensures fault.None? && crawlComplete && !old(crawlComplete) && !ctx.isCrawlStopRequested && !ctx.isCrawlHardStopRequested ==>
        old(taken) + old(frontier) <= taken
      ensures old(threadManagerAborted) ==> ctx.crawledCount == old(ctx.crawledCount)
      ensures fuel > 0 && !old(crawlComplete) && (old(ctx.isCrawlStopRequested) || old(ctx.isCrawlHardStopRequested)) ==>
        fault.None? && crawlComplete && frontier == [] && ctx.crawledCount == old(ctx.crawledCount)
      ensures fuel > 0 && !old(crawlComplete) && cancellationRequested && !old(crawlCancellationReported) ==>
        && fault.None? && crawlComplete && frontier == [] && ctx.crawledCount == old(ctx.crawledCount)
        && errorException == Some(OperationCanceledException)
      ensures errorException != old(errorException) ==> ctx.isCrawlHardStopRequested
    {
      fault := None;
      var steps := 0;
      ghost var stopped := ctx.isCrawlStopRequested || ctx.isCrawlHardStopRequested;
      ghost var cancelled := cancellationRequested && !crawlCancellationReported;
      while !crawlComplete && steps < fuel
        invariant Running() && Valid()
        invariant ctx.originalRootUri == old(ctx.originalRootUri)
        invariant crawlComplete && !old(crawlComplete) ==> frontier == []
        invariant old(taken) <= taken
        invariant !ctx.isCrawlStopRequested && !ctx.isCrawlHardStopRequested ==> old(taken) + old(frontier) <= taken + frontier
        invariant threadManagerAborted && !old(threadManagerAborted) ==> crawlComplete
        invariant old(threadManagerAborted) ==> ctx.crawledCount == old(ctx.crawledCount)
        invariant steps > 0 && !old(crawlComplete) && (stopped || cancelled) ==> crawlComplete && ctx.crawledCount == old(ctx.crawledCount)
        invariant steps > 0 && !old(crawlComplete) && cancelled ==> errorException == Some(OperationCanceledException)
        invariant errorException != old(errorException) ==> ctx.isCrawlHardStopRequested
        invariant old(ctx.isCrawlHardStopRequested) ==> ctx.isCrawlHardStopRequested
        invariant old(threadManagerAborted) ==> threadManagerAborted
        invariant steps == 0 ==> ctx == old(ctx) && crawlCancellationReported == old(crawlCancellationReported) && crawlComplete == old(crawlComplete)
        invariant steps > 0 ==> !old(crawlComplete)
        invariant fault.None?
        decreases fuel - steps
      {
        ghost var ctx0, aborted0, reported0 := ctx, threadManagerAborted, crawlCancellationReported;
        assert aborted0 ==> old(threadManagerAborted);
        assert stopped || cancelled ==> steps == 0;
        fault := CrawlRound();
        if fault.Some? {
          assert aborted0 && !(ctx0.isCrawlStopRequested || ctx0.isCrawlHardStopRequested);
          assert !(cancellationRequested && !reported0);
          return;
        }
        steps := steps + 1;
      }
    }

    /**
     * One round of CrawlSite: the pre-work checks, then the page at the head of the
     * scheduler goes to ProcessPageAsync, or the crawl completes when nothing is scheduled.
     * Without a stop, the pages taken so far followed by those still scheduled extend what
     * was taken and scheduled before.
     */
    method CrawlRound() returns (fault: Option<Fault>)
      requires Running() && Valid() && !crawlComplete
      modifies this`ctx, this`log, this`asked, this`accepted, this`visited, this`offered, this`taken, this`frontier, this`known, this`maxPagesToCrawlLimitReachedOrScheduled,
               this`robotsDotText, this`errorException, this`memoryManagerActive, this`memoryReadings,
               this`crawlCancellationReported, this`crawlStopReported, this`threadManagerAborted, this`subscribersAttached,
               this`rateLimitHandlers, this`crawlComplete
      ensures Running() && Valid()
      ensures ctx.originalRootUri == old(ctx.originalRootUri)
      ensures fault.Some? ==> fault == Some(InvalidOperationException(DoWorkAfterAbortMessage)) && old(threadManagerAborted)
      ensures crawlComplete ==> frontier == [] && taken == old(taken) && ctx.crawledCount == old(ctx.crawledCount)
      ensures old(taken) <= taken
      ensures !ctx.isCrawlStopRequested && !ctx.isCrawlHardStopRequested ==> old(taken) + old(frontier) <= taken + frontier
      ensures threadManagerAborted && !old(threadManagerAborted) ==> crawlComplete
      ensures old(threadManagerAborted) ==> ctx.crawledCount == old(ctx.crawledCount)
      ensures old(ctx.isCrawlStopRequested) || old(ctx.isCrawlHardStopRequested) ==> fault.None? && crawlComplete
      ensures cancellationRequested && !old(crawlCancellationReported) ==>
        fault.None? && crawlComplete && errorException == Some(OperationCanceledException)
      ensures errorException != old(errorException) ==> ctx.isCrawlHardStopRequested
      ensures old(ctx.isCrawlStopRequested) ==> ctx.isCrawlStopRequested
      ensures old(ctx.isCrawlHardStopRequested) ==> ctx.isCrawlHardStopRequested
      ensures old(threadManagerAborted) ==> threadManagerAborted
    {
      RunPreWorkChecks();
      if frontier == [] {
        crawlComplete := true;
        return None;
      }
      if threadManagerAborted {
        return Some(InvalidOperationException(DoWorkAfterAbortMessage));
      }
      var next := frontier[0];
      frontier := frontier[1..];
      ghost var t0, f0 := taken, frontier;
      ProcessPage(next);
      assert t0 + [next] + f0 <= taken + frontier;
      return None;
    }

    /**
     * VerifyRequiredAvailableMemory: with a positive MinAvailableMemoryRequiredInMb the
     * memory manager must report that much memory available; a crawler whose memory
     * manager was dropped fails on the null reference instead.
     */
    function VerifyRequiredAvailableMemory(): (fault: Option<Fault>)
      reads this`memoryManagerActive
      ensures fault.None? <==>
        config.minAvailableMemoryRequiredInMb < 1 || (memoryManagerActive && env.isSpaceAvailable(config.minAvailableMemoryRequiredInMb))
      ensures fault.Some? ==>
        fault == (if memoryManagerActive then Some(RequiredMemoryUnavailable(config.minAvailableMemoryRequiredInMb)) else Some(NullReferenceException))
    {
      if config.minAvailableMemoryRequiredInMb < 1 then None
      else if !memoryManagerActive then Some(NullReferenceException)
      else if !env.isSpaceAvailable(config.minAvailableMemoryRequiredInMb) then Some(RequiredMemoryUnavailable(config.minAvailableMemoryRequiredInMb))
      else None
    }

    /**
     * The memory manager is only dropped together with a hard stop, so until one the
     * memory check cannot fail on a null reference.
     */
    lemma MemoryManagerPresentUntilHardStop()
      requires Valid() && !ctx.isCrawlHardStopRequested
      ensures VerifyRequiredAvailableMemory() != Some(NullReferenceException)
    {
    }

    /**
     * The start of CrawlAsync for a non-null root: both roots set, a fresh result, the
     * starting memory reading, and the root page scheduled when ShouldSchedulePageLink
     * accepts it.
     */
    method BeginCrawl(u: Uri) returns (scheduled: bool)
      requires Valid()
      modifies this`ctx, this`log, this`asked, this`accepted, this`offered, this`frontier, this`maxPagesToCrawlLimitReachedOrScheduled,
               this`robotsDotText, this`errorException, this`memoryReadings, this`crawlComplete
      ensures Valid() && Running()
      ensures ctx.originalRootUri == Some(u) && errorException.None? && !crawlComplete
      ensures ctx.crawledCount == old(ctx.crawledCount)
      ensures old(ctx.isCrawlStopRequested) ==> ctx.isCrawlStopRequested
      ensures old(ctx.isCrawlHardStopRequested) ==> ctx.isCrawlHardStopRequested
      ensures memoryReadings == old(memoryReadings) + (if memoryManagerActive then 1 else 0)
      ensures ctx.memoryUsageBeforeCrawlInMb == if memoryManagerActive then env.memoryUsageInMb(old(memoryReadings)) else old(ctx.memoryUsageBeforeCrawlInMb)
      ensures var usage := if memoryManagerActive then env.memoryUsageInMb(old(memoryReadings)) else old(ctx.memoryUsageBeforeCrawlInMb);
        ScheduleOutcome(CrawlRules.RootPage(u), old(maxPagesToCrawlLimitReachedOrScheduled),
                        old(ctx).(rootUri := Some(u), originalRootUri := Some(u), memoryUsageBeforeCrawlInMb := usage),
                        old(log), old(robotsDotText), scheduled)
      ensures frontier == old(frontier) + (if scheduled then [CrawlRules.RootPage(u)] else [])
      ensures offered == old(offered) + [CrawlRules.RootPage(u)]
    {
      var usageBefore := if memoryManagerActive then env.memoryUsageInMb(memoryReadings) else ctx.memoryUsageBeforeCrawlInMb;
      ctx := ctx.(rootUri := Some(u), originalRootUri := Some(u), memoryUsageBeforeCrawlInMb := usageBefore);
      errorException := None;
      crawlComplete := false;
      if memoryManagerActive {
        memoryReadings := memoryReadings + 1;
      }
      scheduled := ScheduleRoot(u);
    }

    /** The root page is scheduled exactly when ShouldSchedulePageLink accepts it. */
    method ScheduleRoot(u: Uri) returns (scheduled: bool)
      modifies this`ctx, this`log, this`asked, this`accepted, this`offered, this`frontier, this`maxPagesToCrawlLimitReachedOrScheduled, this`robotsDotText
      ensures ScheduleOutcome(CrawlRules.RootPage(u), old(maxPagesToCrawlLimitReachedOrScheduled), old(ctx), old(log), old(robotsDotText), scheduled)
      ensures frontier == old(frontier) + (if scheduled then [CrawlRules.RootPage(u)] else [])
      ensures scheduled ==> asked == old(asked) + [u]
      ensures accepted == old(accepted) + (if scheduled then [CrawlRules.RootPage(u)] else [])
      ensures offered == old(offered) + [CrawlRules.RootPage(u)]
      ensures FlagsRaised(old(ctx), ctx)
    {
      var rootPage := CrawlRules.RootPage(u);
      scheduled := ShouldSchedulePageLink(rootPage);
      if scheduled {
        frontier := frontier + [rootPage];
      }
    }

    /**
     * CrawlAsync: sets both roots, takes the starting memory reading, schedules the root
     * page when ShouldSchedulePageLink accepts it, verifies the required memory and crawls
     * the site; any exception becomes the result's error. The thread manager is disposed
     * at the end, so a crawler crawls at most once: a later crawl processes no page.
     */
    method CrawlAsync(uri: Option<Uri>, fuel: nat) returns (r: Result<CrawlResult, Fault>)
      requires Valid()
      modifies this`ctx, this`log, this`asked, this`accepted, this`visited, this`offered, this`taken, this`frontier, this`known, this`maxPagesToCrawlLimitReachedOrScheduled,
               this`robotsDotText, this`errorException, this`memoryManagerActive, this`memoryReadings,
               this`crawlCancellationReported, this`crawlStopReported, this`threadManagerAborted, this`subscribersAttached,
               this`rateLimitHandlers, this`crawlComplete
      ensures Valid()
      ensures uri.None? ==> r == Failure(ArgumentNullException("uri")) && unchanged(this)
      ensures uri.Some? ==>
        && r == Success(CrawlResult(uri.value, ctx, errorException))
        && ctx.originalRootUri == uri && ctx.rootUri.Some? && threadManagerAborted
      ensures uri.Some? && old(VerifyRequiredAvailableMemory()).Some? ==>
        errorException == old(VerifyRequiredAvailableMemory()) && ctx.crawledCount == old(ctx.crawledCount)
      ensures uri.Some? && old(threadManagerAborted) ==> ctx.crawledCount == old(ctx.crawledCount)
      ensures uri.Some? && fuel > 0 && (old(ctx.isCrawlStopRequested) || old(ctx.isCrawlHardStopRequested)) ==>
        ctx.crawledCount == old(ctx.crawledCount)
      ensures uri.Some? && fuel > 0 && cancellationRequested && !old(crawlCancellationReported) && old(VerifyRequiredAvailableMemory()).None? ==>
        errorException == Some(OperationCanceledException) && ctx.crawledCount == old(ctx.crawledCount)
    {
      if uri.None? {
        return Failure(ArgumentNullException("uri"));
      }
      var u := uri.value;
      var rootScheduled := BeginCrawl(u);
      var fault := VerifyRequiredAvailableMemory();
      if fault.None? {
        fault := CrawlSite(fuel);
      }
      if fault.Some? {
        errorException := fault;
      }
      threadManagerAborted := true;
      if memoryManagerActive {
        ctx := ctx.(memoryUsageAfterCrawlInMb := env.memoryUsageInMb(memoryReadings));
        memoryReadings := memoryReadings + 1;
      }
      return Success(CrawlResult(u, ctx, errorException));
    }

    /**
     * The events of loading robots.txt for a polite crawl of `root`: its parse is reported
     * to the RobotsDotTextParseCompleted handlers, and its crawl delay, when positive and
     * above the per-domain minimum once multiplied by 1000 in 32-bit arithmetic, is
     * registered with the domain rate limiter.
     */
    function RobotsEvents(root: Uri, found: Option<Politeness.RobotsDotText>): (events: seq<Event>)
      ensures |events| <= 2
      ensures found.None? ==> events == []
      ensures forall e :: e in events ==> e.RobotsDotTextParseCompleted? || e.DomainCrawlDelayAdded?
      ensures found.Some? ==>
        var seconds := found.value.getCrawlDelay(config.robotsDotTextUserAgentString);
        Int32.InRange(seconds * 1000) && Int32.InRange(config.maxRobotsDotTextCrawlDelayInSeconds * 1000) ==>
          && (forall d :: DomainCrawlDelayAdded(root, d) in events <==> Politeness.CrawlDelay(Some(seconds), config) == Some(d))
          && (DomainCrawlDelayAdded(root, config.maxRobotsDotTextCrawlDelayInSeconds * 1000) in events <==>
                seconds > 0 && seconds * 1000 > config.minCrawlDelayPerDomainMilliSeconds
                && seconds >= config.maxRobotsDotTextCrawlDelayInSeconds)
    {
      var seconds := if found.Some? then Some(found.value.getCrawlDelay(config.robotsDotTextUserAgentString)) else None;
      var parsed := if found.Some? && robotsSubscribersAttached then [RobotsDotTextParseCompleted(root)] else [];
      var inRange := (seconds.Some? ==> Int32.InRange(seconds.value * 1000)) && Int32.InRange(config.maxRobotsDotTextCrawlDelayInSeconds * 1000);
      var delay := Politeness.CrawlDelayAsWritten(seconds, config);
      assert inRange ==> delay == Politeness.CrawlDelay(seconds, config) by {
        if inRange {
          Politeness.CrawlDelayAgreesInRange(seconds, config);
        }
      }
      match delay
      case None => parsed
      case Some(d) => parsed + [DomainCrawlDelayAdded(root, d)]
    }

    /** A Crawl-delay too large for 32-bit milliseconds registers no delay at all. */
    lemma RobotsEventsOverflow(root: Uri, found: Politeness.RobotsDotText)
      requires found.getCrawlDelay(config.robotsDotTextUserAgentString) == 3000000
      requires config.minCrawlDelayPerDomainMilliSeconds == 0 && config.maxRobotsDotTextCrawlDelayInSeconds == 5
      ensures forall d :: DomainCrawlDelayAdded(root, d) !in RobotsEvents(root, Some(found))
    {
      Politeness.CrawlDelayOverflow(config);
    }

    /**
     * The part of the polite CrawlAsync before the base crawl: with robots.txt respected,
     * it is looked up for the root (replacing any earlier one) and its events recorded.
     */
    method LoadRobotsDotText(root: Uri)
      modifies this`robotsDotText, this`log
      ensures config.isRespectRobotsDotTextEnabled ==>
        robotsDotText == env.findRobotsDotText(root) && log == old(log) + RobotsEvents(root, robotsDotText)
      ensures !config.isRespectRobotsDotTextEnabled ==> robotsDotText == old(robotsDotText) && log == old(log)
    {
      if config.isRespectRobotsDotTextEnabled {
        robotsDotText := env.findRobotsDotText(root);
        Record(RobotsEvents(root, robotsDotText));
      }
    }

    /**
     * The polite CrawlAsync: loads robots.txt, attaches one more rate-limiting handler to
     * PageCrawlStarting, then crawls as WebCrawler does. A null root fails in the
     * robots.txt lookup when robots.txt is respected, and in the base crawl otherwise.
     */
    method PoliteCrawlAsync(uri: Option<Uri>, fuel: nat) returns (r: Result<CrawlResult, Fault>)
      requires Valid()
      modifies this`ctx, this`log, this`asked, this`accepted, this`visited, this`offered, this`taken, this`frontier, this`known, this`maxPagesToCrawlLimitReachedOrScheduled,
               this`robotsDotText, this`errorException, this`memoryManagerActive, this`memoryReadings,
               this`crawlCancellationReported, this`crawlStopReported, this`threadManagerAborted, this`subscribersAttached,
               this`rateLimitHandlers, this`crawlComplete
      ensures Valid()
      ensures uri.None? && config.isRespectRobotsDotTextEnabled ==> r == Failure(ArgumentNullException("rootUri")) && unchanged(this)
      ensures uri.None? && !config.isRespectRobotsDotTextEnabled ==>
        r == Failure(ArgumentNullException("uri")) && rateLimitHandlers == old(rateLimitHandlers) + 1 && log == old(log)
      ensures uri.Some? ==> r == Success(CrawlResult(uri.value, ctx, errorException)) && threadManagerAborted
      ensures uri.Some? && old(threadManagerAborted) ==> ctx.crawledCount == old(ctx.crawledCount)
    {
      if uri.None? && config.isRespectRobotsDotTextEnabled {
        return Failure(ArgumentNullException("rootUri"));
      }
      if uri.Some? {
        LoadRobotsDotText(uri.value);
      }
      rateLimitHandlers := rateLimitHandlers + 1;
      r := CrawlAsync(uri, fuel);
    }
  }
}

=== FILE: web_crawler_rules.dfy ===
/**
 * The side-effect-free rules of WebCrawler: redirect detection, the size limit, the
 * links-per-page limit, internal-link classification, how a built-in decision and an
 * override combine, how a decision raises the stop flags, and how a crawled page
 * inherits what the scheduled page carried.
 */
module CrawlRules {
  import opened Wrappers
  import opened Faults
  import opened Text
  import opened HttpResponse
  import opened Poco

  /**
   * IsRedirect: with automatic redirects, the response came from another URI; without
   * them, the status code is a 3xx. A page without a response is never a redirect.
   */
  predicate IsRedirect(config: CrawlConfiguration, page: CrawledPage)
    ensures IsRedirect(config, page) ==> page.response.Some?
    ensures IsRedirect(config, page) && config.isHttpRequestAutoRedirectsEnabled ==> page.response.value.responseUri.Some?
  {
    page.response.Some? &&
      ((config.isHttpRequestAutoRedirectsEnabled
          && page.response.value.responseUri.Some?
          && page.response.value.responseUri.value.absoluteUri != page.page.uri.absoluteUri)
       || (!config.isHttpRequestAutoRedirectsEnabled
          && 300 <= page.response.value.statusCode
          && page.response.value.statusCode <= 399))
  }

  /** Without automatic redirects the classification depends on the status code alone. */
  lemma ManualRedirectIsStatus3xx(config: CrawlConfiguration, page: CrawledPage)
    requires !config.isHttpRequestAutoRedirectsEnabled && page.response.Some?
    ensures IsRedirect(config, page) <==> 300 <= page.response.value.statusCode <= 399
  {
  }

  /** PageSizeIsAboveMax: a positive limit and downloaded content longer than it. */
  predicate PageSizeIsAboveMax(config: CrawlConfiguration, page: CrawledPage)
    ensures config.maxPageSizeInBytes <= 0 || page.contentBytes.None? ==> !PageSizeIsAboveMax(config, page)
    ensures PageSizeIsAboveMax(config, page) ==> |page.contentBytes.value| > config.maxPageSizeInBytes > 0
  {
    config.maxPageSizeInBytes > 0 && page.contentBytes.Some? && |page.contentBytes.value| > config.maxPageSizeInBytes
  }

  /** ShouldScheduleMorePageLink: 0 means no limit; otherwise fewer links than the limit have been added. */
  predicate ShouldScheduleMorePageLink(config: CrawlConfiguration, linksAdded: int)
    ensures config.maxLinksPerPage == 0 ==> ShouldScheduleMorePageLink(config, linksAdded)
    ensures linksAdded >= config.maxLinksPerPage > 0 ==> !ShouldScheduleMorePageLink(config, linksAdded)
  {
    config.maxLinksPerPage == 0 || config.maxLinksPerPage > linksAdded
  }

  /** With a positive limit, scheduling stops exactly when the limit is reached. */
  lemma MoreLinksUntilLimit(config: CrawlConfiguration, linksAdded: nat)
    requires config.maxLinksPerPage > 0
    ensures ShouldScheduleMorePageLink(config, linksAdded) <==> linksAdded < config.maxLinksPerPage
  {
  }

  /** The default IsInternal decision: same authority as the root. */
  predicate SameAuthority(uri: Uri, root: Uri)
    ensures uri == root ==> SameAuthority(uri, root)
    ensures uri.authority != root.authority ==> !SameAuthority(uri, root)
  {
    uri.authority == root.authority
  }

  /** IsInternalUri: internal relative to the current root or to the root the crawl started from. */
  predicate IsInternalUri(isInternal: (Uri, Uri) -> bool, rootUri: Uri, originalRootUri: Uri, uri: Uri)
    ensures isInternal(uri, rootUri) ==> IsInternalUri(isInternal, rootUri, originalRootUri, uri)
    ensures rootUri == originalRootUri ==> (IsInternalUri(isInternal, rootUri, originalRootUri, uri) <==> isInternal(uri, rootUri))
  {
    isInternal(uri, rootUri) || isInternal(uri, originalRootUri)
  }

  /** Once the root is redirected, a link internal to either the old or the new root stays internal. */
  lemma InternalToEitherRoot(rootUri: Uri, originalRootUri: Uri, uri: Uri)
    ensures IsInternalUri(SameAuthority, rootUri, originalRootUri, uri)
      <==> uri.authority == rootUri.authority || uri.authority == originalRootUri.authority
  {
  }

  /**
   * The decision after the override: a refusal by the built-in decision maker stands; an
   * acceptance is replaced by the override's decision, or by a bare Allow when there is none.
   */
  function ChainDecisions<P>(builtIn: CrawlDecision, override: Option<(P, CrawlContext) -> CrawlDecision>, page: P, ctx: CrawlContext): (d: CrawlDecision)
    ensures !builtIn.allow ==> d == builtIn
    ensures builtIn.allow && override.Some? ==> d == override.value(page, ctx)
    ensures builtIn.allow && override.None? ==> d == AllowedDecision
    ensures d.allow ==> builtIn.allow
  {
    if builtIn.allow then (if override.Some? then override.value(page, ctx) else AllowedDecision) else builtIn
  }

  /**
   * Without an override, an accepting decision never stops the crawl: the stop flags of an
   * accepting built-in decision are dropped with it.
   */
  lemma AcceptanceWithoutOverrideNeverStops<P>(builtIn: CrawlDecision, page: P, ctx: CrawlContext)
    requires builtIn.allow
    ensures var d := ChainDecisions(builtIn, None, page, ctx); d.allow && !d.shouldStopCrawl && !d.shouldHardStopCrawl
  {
  }

  /** SignalCrawlStopIfNeeded: a hard stop takes precedence; flags are only ever raised. */
  function SignalStop(ctx: CrawlContext, d: CrawlDecision): (c: CrawlContext)
    ensures d.shouldHardStopCrawl ==> c == ctx.(isCrawlHardStopRequested := true)
    ensures !d.shouldHardStopCrawl && d.shouldStopCrawl ==> c == ctx.(isCrawlStopRequested := true)
    ensures !d.shouldHardStopCrawl && !d.shouldStopCrawl ==> c == ctx
  {
    if d.shouldHardStopCrawl then ctx.(isCrawlHardStopRequested := true)
    else if d.shouldStopCrawl then ctx.(isCrawlStopRequested := true)
    else ctx
  }

  /** Signalling never lowers a flag and touches nothing else. */
  lemma SignalStopIsMonotone(ctx: CrawlContext, d: CrawlDecision)
    ensures var c := SignalStop(ctx, d);
      && (ctx.isCrawlStopRequested ==> c.isCrawlStopRequested)
      && (ctx.isCrawlHardStopRequested ==> c.isCrawlHardStopRequested)
      && c.(isCrawlStopRequested := ctx.isCrawlStopRequested, isCrawlHardStopRequested := ctx.isCrawlHardStopRequested) == ctx
  {
  }

  /** A refusal by the built-in decision maker because the MaxPagesToCrawl limit was reached. */
  predicate IsMaxPagesDenial(d: CrawlDecision) {
    !d.allow && Contains(d.reason, "MaxPagesToCrawl limit of")
  }

  /** CombinePageBags: every entry of both bags; on a shared name the crawled page's value wins. */
  function CombinePageBags(pageToCrawlBag: PageBag, crawledPageBag: PageBag): (combined: PageBag)
    ensures combined.Keys == pageToCrawlBag.Keys + crawledPageBag.Keys
    ensures forall k :: k in crawledPageBag ==> combined[k] == crawledPageBag[k]
    ensures forall k :: k in pageToCrawlBag && k !in crawledPageBag ==> combined[k] == pageToCrawlBag[k]
  {
    pageToCrawlBag + crawledPageBag
  }

  /**
   * The crawled page after `Mapper.Map(pageToCrawl, crawledPage)`: the scheduled page's
   * members replace those the requester filled in, except the bag, which is the combined one.
   */
  function InheritFromPageToCrawl(pageToCrawl: PageToCrawl, crawled: CrawledPage): (c: CrawledPage)
    ensures c.page.(pageBag := pageToCrawl.pageBag) == pageToCrawl
    ensures c.page.pageBag == CombinePageBags(pageToCrawl.pageBag, crawled.page.pageBag)
    ensures c.(page := crawled.page) == crawled
  {
    crawled.(page := pageToCrawl.(pageBag := CombinePageBags(pageToCrawl.pageBag, crawled.page.pageBag)))
  }

  /**
   * ExtractRedirectUri: the response URI with automatic redirects; otherwise the Location
   * header, taken as is when absolute and resolved against the page's scheme, host and
   * port when not (`resolveLocation`, None where System.Uri throws).
   */
  function ExtractRedirectUri(config: CrawlConfiguration, resolveLocation: (Uri, Option<string>) -> Option<Uri>, page: CrawledPage): (r: Result<Uri, Fault>)
    requires IsRedirect(config, page)
    ensures config.isHttpRequestAutoRedirectsEnabled ==> r == Success(page.response.value.responseUri.value)
    ensures !config.isHttpRequestAutoRedirectsEnabled && page.response.value.headers.None? ==> r == Failure(ArgumentNullException("source"))
    ensures !config.isHttpRequestAutoRedirectsEnabled && page.response.value.headers.Some? ==>
      var target := resolveLocation(page.page.uri, LookupHeader(page.response.value.headers, "Location").value);
      && (r.Success? <==> target.Some?)
      && (r.Success? ==> r.value == target.value)
      && (r.Failure? ==> r.error == UriFormatException)
  {
    if config.isHttpRequestAutoRedirectsEnabled then Success(page.response.value.responseUri.value)
    else
      match LookupHeader(page.response.value.headers, "Location")
      case Failure(e) => Failure(e)
      case Success(location) =>
        match resolveLocation(page.page.uri, location)
        case None => Failure(UriFormatException)
        case Some(u) => Success(u)
  }

  /** CrawlCountByDomain.AddOrUpdate(authority, 1, (k, n) => n + 1). */
  function CountDomain(counts: map<string, nat>, authority: string): (r: map<string, nat>)
    ensures r.Keys == counts.Keys + {authority}
    ensures r[authority] == if authority in counts then counts[authority] + 1 else 1
    ensures forall a :: a in counts && a != authority ==> r[a] == counts[a]
  {
    counts[authority := if authority in counts then counts[authority] + 1 else 1]
  }

  /** The page a redirect leads to: same parent and depth as the redirecting page, one step further in the chain. */
  function RedirectTarget(from: PageToCrawl, target: Uri, isInternal: bool): (p: PageToCrawl)
    ensures p.uri == target && p.parentUri == from.parentUri && p.crawlDepth == from.crawlDepth
    ensures p.redirectedFrom == Some(from.uri) && p.redirectPosition == from.redirectPosition + 1
    ensures !p.isRoot && !p.isRetry && p.isInternal == isInternal
  {
    NewPageToCrawl(target).(parentUri := from.parentUri, crawlDepth := from.crawlDepth, isInternal := isInternal,
                            isRoot := false, redirectedFrom := Some(from.uri), redirectPosition := from.redirectPosition + 1)
  }

  /** A link found on a page: that page is its parent and it sits one level deeper. */
  function LinkTarget(parent: PageToCrawl, target: Uri, isInternal: bool): (p: PageToCrawl)
    ensures p.uri == target && p.parentUri == Some(parent.uri) && p.crawlDepth == parent.crawlDepth + 1
    ensures !p.isRoot && !p.isRetry && p.isInternal == isInternal && p.redirectedFrom.None?
  {
    NewPageToCrawl(target).(parentUri := Some(parent.uri), crawlDepth := parent.crawlDepth + 1, isInternal := isInternal, isRoot := false)
  }

  /** The root page: its own parent, internal, at depth 0. */
  function RootPage(uri: Uri): (p: PageToCrawl)
    ensures p.uri == uri && p.parentUri == Some(uri) && p.isInternal && p.isRoot && p.crawlDepth == 0 && !p.isRetry
  {
    NewPageToCrawl(uri).(parentUri := Some(uri), isInternal := true, isRoot := true)
  }
}

=== FILE: wrappers.dfy ===
/** Option and Result, the two wrappers the model uses for C# nulls and exceptions. */
module Wrappers {
  datatype Option<+T> = None | Some(value: T) {
    function GetOr(default: T): T {
      if Some? then value else default
    }
  }

  datatype Result<+T, +E> = Success(value: T) | Failure(error: E)
}

/** The .NET exceptions that the modelled code throws, records or catches. */
module Faults {
  datatype Fault =
    | ArgumentNullException(paramName: string)
    | ArgumentException(message: string)
      /** Thrown by System.Threading.Timer for a negative due time or period other than Infinite (-1). */
    | ArgumentOutOfRangeException(paramName: string)
    | NullReferenceException
    | UriFormatException
    | OperationCanceledException
    | InvalidOperationException(message: string)
      /** Thrown by CheckMemoryUsage: the process uses more than the configured maximum. */
    | MemoryUsageAboveMax(usageInMb: int, maxInMb: int)
      /** Thrown by VerifyRequiredAvailableMemory: the required memory is not available. */
    | RequiredMemoryUnavailable(requiredInMb: int)
      /** Any exception raised by a collaborator whose code is not modelled. */
    | Thrown(description: string)
}
